=== FILE: README.md ===
# Azure Mobile Apps Android client: a Dafny model of its request and result logic

This project models the decision logic of the Azure Mobile Apps Android
client SDK that sits between the application and its HTTP transport:

- how a table client (`MobileServiceJsonTable`) validates an item's id before
  an insert, picks the method, path, body and `If-Match` header of insert,
  update, delete and undelete, assembles a query URL from a filter and row-set
  modifiers, and turns a `Link` header into a `{nextLink, results}` envelope;
- how the typed table (`MobileServiceTable`) reads `count` and `nextLink` out
  of a result, strips system properties before an insert and maps the JSON
  conflict exceptions to typed ones;
- how the client (`MobileServiceClient`) normalises its URL, checks that a
  table class has exactly one id field, and builds custom API calls;
- how the HTTP client (`MobileServiceHttpClient`) validates path and method,
  dispatches on the method case-insensitively, adds the features header at
  most once, and how a request record (`ServiceFilterRequestImpl`) stores its
  body and headers;
- how the connection (`MobileServiceConnection`) adds its default headers and
  classifies an answer by its status;
- the text rewriting of `DateSerializer.deserialize` and the shape of
  `DateSerializer.serialize`;
- the offline operation record `AbstractTableOperation`.

Everything is functional: requests, header lists, JSON values and the
operation record are immutable datatypes, and every Java setter becomes a
function that answers the updated record. `null` is `None` and a thrown
exception or an erroring `Single` is an `Err` carrying a `Failure`.
Collaborators whose code lies outside the model — the transport, Gson's
parser and serializer, `Uri.Builder`, `URLEncoder`,
`MobileServiceFeatures.featuresToString`, and the table's system-property and
id helpers — are function-typed fields of context records (`HttpContext`,
`Transport`, `JsonCodec`, `TableContext`), so every property holds whatever
they do.

Files, one module each: `outcomes.dfy` (`Option`, `Result`),
`java_strings.dfy` (Java's `trim`, `equalsIgnoreCase`, `replace`, `split`,
decimal text), `utf8.dfy` (UTF-8 encoding and decoding), `json_model.dfy`
(the JSON tree), `service_types.dfy` (headers, responses, features,
failures), `filter_requests.dfy`, `connections.dfy`, `http_clients.dfy`,
`service_client.dfy`, `json_tables.dfy`, `typed_tables.dfy`,
`date_serialization.dfy` and `table_operations.dfy`.

## Model

| member | source | states |
|---|---|---|
| FilterRequests.Post | sdk/src/main/java/com/microsoft/windowsazure/mobileservices/http/ServiceFilterRequestImpl.java:76-88 | A POST request on the URL with no headers whose stored body is never null: the given bytes, or zero bytes for a null body. |
| FilterRequests.Put | sdk/src/main/java/com/microsoft/windowsazure/mobileservices/http/ServiceFilterRequestImpl.java:90-102 | A PUT request, a null body stored as zero bytes. |
| FilterRequests.Patch | sdk/src/main/java/com/microsoft/windowsazure/mobileservices/http/ServiceFilterRequestImpl.java:104-116 | A PATCH request, a null body stored as zero bytes. |
| FilterRequests.Get | sdk/src/main/java/com/microsoft/windowsazure/mobileservices/http/ServiceFilterRequestImpl.java:118-123 | A GET request stores no body at all. |
| FilterRequests.Delete | sdk/src/main/java/com/microsoft/windowsazure/mobileservices/http/ServiceFilterRequestImpl.java:125-141 | A DELETE request keeps a null body null and otherwise stores the bytes given. |
| FilterRequests.DeleteWithoutBody | sdk/src/main/java/com/microsoft/windowsazure/mobileservices/http/ServiceFilterRequestImpl.java:125-127 | The two-argument delete is a bodyless DELETE. |
| FilterRequests.GetContent | sdk/src/main/java/com/microsoft/windowsazure/mobileservices/http/ServiceFilterRequestImpl.java:171-183 | The text body is null exactly when the stored bytes are null, and otherwise is their UTF-8 decoding. |
| FilterRequests.GetRawContent | sdk/src/main/java/com/microsoft/windowsazure/mobileservices/http/ServiceFilterRequestImpl.java:169-185 | `getContent` is null exactly when `getRawContent` is, and otherwise the UTF-8 decoding of the raw bytes. |
| FilterRequests.AddHeader | sdk/src/main/java/com/microsoft/windowsazure/mobileservices/http/ServiceFilterRequestImpl.java:160-163 | Adding a header leaves method, URL and body alone, and the name then reads as the value added. |
| FilterRequests.RemoveHeader | sdk/src/main/java/com/microsoft/windowsazure/mobileservices/http/ServiceFilterRequestImpl.java:165-168 | After removal the name, in any case, reads as absent; method, URL and body are unchanged. |
| FilterRequests.SetUrl | sdk/src/main/java/com/microsoft/windowsazure/mobileservices/http/ServiceFilterRequestImpl.java:195-197 | Only the URL changes; method, headers and body stay. |
| FilterRequests.FactoriesReadBack | sdk/src/main/java/com/microsoft/windowsazure/mobileservices/http/ServiceFilterRequestImpl.java:76-202 | `getMethod` reports the method of the factory that built the request; `getRawContent` reads the stored bytes (zero bytes for a null POST/PUT/PATCH body, null for GET); the two-argument delete equals the three-argument one with null. |
| FilterRequests.ContentRoundTrip | sdk/src/main/java/com/microsoft/windowsazure/mobileservices/http/ServiceFilterRequestImpl.java:171-183 | A body built from a string's UTF-8 bytes reads back through `getContent` as that string, for every method with a body. |
| FilterRequests.AddHeaderAppends | sdk/src/main/java/com/microsoft/windowsazure/mobileservices/http/ServiceFilterRequestImpl.java:160-163 | `addHeader` keeps every existing header in place and puts the new one last. |
| FilterRequests.AddHeaderKeepsOthers | sdk/src/main/java/com/microsoft/windowsazure/mobileservices/http/ServiceFilterRequestImpl.java:160-163 | Adding a header does not change what any other header name reads as. |
| FilterRequests.RemoveHeaderKeepsOthers | sdk/src/main/java/com/microsoft/windowsazure/mobileservices/http/ServiceFilterRequestImpl.java:165-168 | Removing a header does not change what any other header name reads as. |
| FilterRequests.RemoveAbsentHeader | sdk/src/main/java/com/microsoft/windowsazure/mobileservices/http/ServiceFilterRequestImpl.java:165-168 | Removing a name that is not present leaves the header list as it was. |
| FilterRequests.AddThenRemove | sdk/src/main/java/com/microsoft/windowsazure/mobileservices/http/ServiceFilterRequestImpl.java:160-168 | Removing a header just added to a request that lacked it gives back the original request. |
| ServiceTypes.HeaderValueMeaning | sdk/src/main/java/com/microsoft/windowsazure/mobileservices/table/MobileServiceJsonTable.java:613-619 | A header name reads as absent iff no header matches it case-insensitively, and otherwise as the value of the last matching header. |
| ServiceTypes.HeaderValueAppend | sdk/src/main/java/com/microsoft/windowsazure/mobileservices/http/MobileServiceConnection.java:167-172 | Headers of other names appended later do not change what a name reads as. |
| ServiceTypes.HeaderValueWithout | sdk/src/main/java/com/microsoft/windowsazure/mobileservices/http/ServiceFilterRequestImpl.java:165-168 | Dropping every header of one name leaves every other name's value as it was. |
| ServiceTypes.CountNamed | sdk/src/main/java/com/microsoft/windowsazure/mobileservices/http/MobileServiceHttpClient.java:165-171 | The case-sensitive count of headers with a name is zero exactly when no header has that exact name. |
| ServiceTypes.WithoutNamed | sdk/src/main/java/com/microsoft/windowsazure/mobileservices/http/ServiceFilterRequestImpl.java:165-168 | The headers left after removing a name are original headers of other names, and every original header of another name is left. |
| ServiceTypes.WithoutNamedKeepsOrder | sdk/src/main/java/com/microsoft/windowsazure/mobileservices/http/ServiceFilterRequestImpl.java:165-168 | Removal distributes over concatenation, so the other headers stay in their order and with their repeats. |
| ServiceTypes.WithoutNamedSingle | sdk/src/main/java/com/microsoft/windowsazure/mobileservices/http/ServiceFilterRequestImpl.java:165-168 | One header is kept exactly when its name differs, ignoring case, from the removed name. |
| Connections.RequestContainsHeaderIff | sdk/src/main/java/com/microsoft/windowsazure/mobileservices/http/MobileServiceConnection.java:167-172 | A request contains a header exactly when one of its headers has that name, compared ignoring case. |
| Connections.AddIfAbsent | sdk/src/main/java/com/microsoft/windowsazure/mobileservices/http/MobileServiceConnection.java:151-157 | A header is appended only when no header of that name is present, so a caller's value is kept. |
| Connections.ConfigureHeaders | sdk/src/main/java/com/microsoft/windowsazure/mobileservices/http/MobileServiceConnection.java:137-158 | Configuring the default headers changes nothing but the headers. |
| Connections.ConfigureHeadersSteps | sdk/src/main/java/com/microsoft/windowsazure/mobileservices/http/MobileServiceConnection.java:137-158 | The presence checks for Accept and Accept-Encoding see only the caller's headers, never the defaults added before them. |
| Connections.ConfigureHeadersAppends | sdk/src/main/java/com/microsoft/windowsazure/mobileservices/http/MobileServiceConnection.java:137-158 | The configured headers are the caller's followed by the defaults, in order. |
| Connections.ConfigureHeadersValues | sdk/src/main/java/com/microsoft/windowsazure/mobileservices/http/MobileServiceConnection.java:140-157 | X-ZUMO-VERSION and User-Agent always read as the SDK's values; X-ZUMO-APPLICATION reads as the key iff it is non-null and non-blank; Accept and Accept-Encoding read as the caller's value when present, else `application/json` and `gzip`. |
| Connections.ErrorMessage | sdk/src/main/java/com/microsoft/windowsazure/mobileservices/http/MobileServiceConnection.java:115-120 | The error message is never blank: the body when it is non-blank, otherwise `{'code': N}` with the status in ASCII digits. |
| Connections.Start | sdk/src/main/java/com/microsoft/windowsazure/mobileservices/http/MobileServiceConnection.java:98-130 | A null request is rejected; an answer is returned only when the configured request came back with a 2xx status. |
| Connections.StartOutcomes | sdk/src/main/java/com/microsoft/windowsazure/mobileservices/http/MobileServiceConnection.java:111-128 | Success iff the answer's status is in [200, 300); another status becomes a service exception with that message and the response; a `MobileServiceException` from the transport, of any subclass, passes unchanged; any other is wrapped with "Error while processing request.". |
| Connections.StartErrorsAreServiceExceptions | sdk/src/main/java/com/microsoft/windowsazure/mobileservices/http/MobileServiceConnection.java:111-128 | Every error for an accepted request is a `MobileServiceException` or one of its subclasses. |
| Connections.Rewrap | sdk/src/main/java/com/microsoft/windowsazure/mobileservices/http/Request.java:93-99 | The re-wrapped error is always a `MobileServiceException`: the failure's cause when that is one, otherwise the failure wrapped. |
| Connections.Create | sdk/src/main/java/com/microsoft/windowsazure/mobileservices/http/Request.java:90-104 | Against the transport's answer to the configured request: a 2xx answer is returned as is; another status reaches the caller as the status exception wrapped once more; a thrown non-service exception arrives as "Error while processing request." wrapped once more; a thrown service exception arrives re-wrapped; every error is a `MobileServiceException`. |
| Connections.CreateThrownServiceException | sdk/src/main/java/com/microsoft/windowsazure/mobileservices/http/Request.java:93-99 | A service exception the transport throws arrives as its cause when that cause is a `MobileServiceException`, and otherwise wrapped, so a precondition or conflict exception without such a cause does not arrive as itself. |
| HttpClients.AppendQueryParameters | sdk/src/main/java/com/microsoft/windowsazure/mobileservices/http/MobileServiceHttpClient.java:135-139 | Query parameters are appended in list order after any already there. |
| HttpClients.BuildUri | sdk/src/main/java/com/microsoft/windowsazure/mobileservices/http/MobileServiceHttpClient.java:132-139 | The request URI is the application URL with the path replaced and exactly the given parameters, none for null. |
| HttpClients.DispatchMethod | sdk/src/main/java/com/microsoft/windowsazure/mobileservices/http/MobileServiceHttpClient.java:145-157 | A request is built iff the method equals GET, POST, PUT, PATCH or DELETE ignoring case; it then carries the canonical upper-case name, the URL, no headers, and the body that factory stores: none for GET, the content or zero bytes for POST, PUT and PATCH, the content as given for DELETE. |
| HttpClients.HeadersWithFeatures | sdk/src/main/java/com/microsoft/windowsazure/mobileservices/http/MobileServiceHttpClient.java:159-178 | Without a features text the caller's list is used as is; with one, a list already holding `X-ZUMO-FEATURES` (exact case) is kept unchanged, and any other list gets exactly one `X-ZUMO-FEATURES` header with that text appended. |
| HttpClients.AddHeaders | sdk/src/main/java/com/microsoft/windowsazure/mobileservices/http/MobileServiceHttpClient.java:180-184 | Every header of the final list is added to the request, in order, after its own. |
| HttpClients.Request | sdk/src/main/java/com/microsoft/windowsazure/mobileservices/http/MobileServiceHttpClient.java:120-188 | A null or blank path is rejected first, then a null or blank method, then an unsupported method, all as illegal arguments; a built request has the rendered URI, the canonical method name equal to the given one ignoring case, the body its factory stores, and the features-step headers. |
| HttpClients.TextCall | sdk/src/main/java/com/microsoft/windowsazure/mobileservices/http/MobileServiceHttpClient.java:94-108 | String content becomes null bytes when null and its UTF-8 bytes otherwise, which decode back to the string. |
| HttpClients.Exchange | sdk/src/main/java/com/microsoft/windowsazure/mobileservices/http/MobileServiceHttpClient.java:120-188 | A call the builder refuses fails with the builder's error and sends nothing; otherwise a 2xx answer of the transport to the configured request is the result, another status is the wrapped status exception, and a thrown failure ends as a `MobileServiceException`. |
| HttpClients.RequestWithoutFeatures | sdk/src/main/java/com/microsoft/windowsazure/mobileservices/http/MobileServiceHttpClient.java:79-82 | The overload without features makes the same path and method checks in the same order and stores the body its factory stores; with no features text it sends exactly the caller's headers. |
| HttpClients.FeaturesHeaderCount | sdk/src/main/java/com/microsoft/windowsazure/mobileservices/http/MobileServiceHttpClient.java:159-178 | With a features text the list has exactly one X-ZUMO-FEATURES header if it had none, and otherwise keeps its count: this code never adds a second one. |
| HttpClients.FeaturesCheckIsCaseSensitive | sdk/src/main/java/com/microsoft/windowsazure/mobileservices/http/MobileServiceHttpClient.java:164-171 | The presence check compares names exactly, so a caller's lower-case `x-zumo-features` header gets a second one added. |
| HttpClients.TextContentReadsBack | sdk/src/main/java/com/microsoft/windowsazure/mobileservices/http/MobileServiceHttpClient.java:94-108 | The string overload's body reads back through `getContent` as the text passed in, for every method that keeps a body. |
| Utf8.DecodeEncode | sdk/src/main/java/com/microsoft/windowsazure/mobileservices/http/MobileServiceHttpClient.java:98-104 | Decoding the UTF-8 bytes of any string gives back the string. |
| JsonModel.ToInt32 | sdk/src/main/java/com/microsoft/windowsazure/mobileservices/table/MobileServiceTable.java:92 | A number read as an `int` is congruent to it modulo 2^32 and lies in the 32-bit range, so in-range numbers are kept. |
| JavaStrings.JavaSplitEmptyIff | sdk/src/main/java/com/microsoft/windowsazure/mobileservices/table/serialization/DateSerializer.java:60 | Java's `split` on a character gives no pieces exactly for a non-empty text made only of that character. |
| JavaStrings.JavaSplitTwoPieces | sdk/src/main/java/com/microsoft/windowsazure/mobileservices/table/serialization/DateSerializer.java:60 | A text with exactly one separator and a non-empty tail splits into the two sides. |
| JavaStrings.JavaSplitFirstAndLast | sdk/src/main/java/com/microsoft/windowsazure/mobileservices/table/serialization/DateSerializer.java:60 | `split` on dots gives at least two pieces, the first being the text before the first dot and the last being the last non-empty run between dots. |
| JavaStrings.IsBlank | sdk/src/main/java/com/microsoft/windowsazure/mobileservices/http/MobileServiceHttpClient.java:124-130 | `trim().equals("")` holds iff every character is one `trim` removes. |
| ServiceClient.AppendSlash | sdk/src/main/java/com/microsoft/windowsazure/mobileservices/MobileServiceClient.java:93-96 | Re-parsing the URL's text with a slash appended gives a URL whose text is the old text plus "/". |
| ServiceClient.NormalizeUrlAsWritten | sdk/src/main/java/com/microsoft/windowsazure/mobileservices/MobileServiceClient.java:90-102 | A URL with a path is kept; one without gets "/" appended to its whole text. |
| ServiceClient.NormalizeUrlAsWrittenMissesQuery | sdk/src/main/java/com/microsoft/windowsazure/mobileservices/MobileServiceClient.java:90-102 | For a URL with an empty path and a query, the slash lands in the query, the path stays empty and normalising again changes the URL. |
| ServiceClient.NormalizeUrl | sdk/src/main/java/com/microsoft/windowsazure/mobileservices/MobileServiceClient.java:90-102 | The normalised URL always has a non-empty path, keeps origin, query and fragment, and leaves a URL with a path unchanged. |
| ServiceClient.NormalizeUrlIdempotent | sdk/src/main/java/com/microsoft/windowsazure/mobileservices/MobileServiceClient.java:90-102 | Normalising twice equals normalising once. |
| ServiceClient.NormalizeUrlAgreesWithoutQuery | sdk/src/main/java/com/microsoft/windowsazure/mobileservices/MobileServiceClient.java:90-102 | Without query or fragment the corrected normalisation is exactly the source's, which appends "/" to an empty path. |
| ServiceClient.Initialize | sdk/src/main/java/com/microsoft/windowsazure/mobileservices/MobileServiceClient.java:460-470 | A null or blank application URL is rejected, and only that; otherwise the client keeps the normalised URL and the key. |
| ServiceClient.IdFieldCountZero | sdk/src/main/java/com/microsoft/windowsazure/mobileservices/MobileServiceClient.java:425-441 | The count of id fields is zero iff no field's effective name is "id" ignoring case. |
| ServiceClient.IdFieldCountOne | sdk/src/main/java/com/microsoft/windowsazure/mobileservices/MobileServiceClient.java:425-441 | The count of id fields is one iff exactly one field, at some index, is an id field. |
| ServiceClient.ValidateClass | sdk/src/main/java/com/microsoft/windowsazure/mobileservices/MobileServiceClient.java:420-442 | Interfaces and abstract classes are rejected first; a concrete class is accepted iff exactly one field's effective name is "id" ignoring case. |
| ServiceClient.SerializedNameDecides | sdk/src/main/java/com/microsoft/windowsazure/mobileservices/MobileServiceClient.java:427-435 | With a `@SerializedName` annotation its value, not the field name, decides whether the field is the id. |
| ServiceClient.GetTableNamed | sdk/src/main/java/com/microsoft/windowsazure/mobileservices/MobileServiceClient.java:214-217 | A typed table is returned iff the class validates, under the given name. |
| ServiceClient.GetTable | sdk/src/main/java/com/microsoft/windowsazure/mobileservices/MobileServiceClient.java:203-205 | `getTable(Class)` names the table after the class's simple name. |
| ServiceClient.ApiCall | sdk/src/main/java/com/microsoft/windowsazure/mobileservices/MobileServiceClient.java:404-413 | A null or whitespace-only API name is rejected, and only that; otherwise the call goes to "api/" + name with everything else as given. |
| ServiceClient.GenericApiCallOf | sdk/src/main/java/com/microsoft/windowsazure/mobileservices/MobileServiceClient.java:389-392 | The byte-array `invokeApi` sends the generic-API feature and the caller's headers and body. |
| ServiceClient.InvokeApiBytes | sdk/src/main/java/com/microsoft/windowsazure/mobileservices/MobileServiceClient.java:389-413 | A blank API name fails before sending; otherwise the result is the exchange of the call to `api/<name>` with the caller's method, body, headers and parameters and the generic-API feature, and any answer is the transport's 2xx response to that call. |
| ServiceClient.JsonApiCallOf | sdk/src/main/java/com/microsoft/windowsazure/mobileservices/MobileServiceClient.java:350-378 | The JSON call has a body iff one is given, decoding to its serialisation; Content-Type `application/json` iff there is a body; AdditionalQueryParameters iff parameters are non-empty, on top of the caller's features. |
| ServiceClient.JsonResult | sdk/src/main/java/com/microsoft/windowsazure/mobileservices/MobileServiceClient.java:370-376 | Null response content reads as JSON null; other content is parsed. |
| ServiceClient.InvokeApiJson | sdk/src/main/java/com/microsoft/windowsazure/mobileservices/MobileServiceClient.java:350-378 | A blank API name fails first; a failed exchange passes its error on; a successful one answers JSON null for no content and otherwise the content as parsed. |
| ServiceClient.InvokeApiJsonAnswers | sdk/src/main/java/com/microsoft/windowsazure/mobileservices/MobileServiceClient.java:337-378 | Given the transport's answer to the configured call: a 2xx answer gives its content read as JSON (null for none); any other status the wrapped status exception with that response. |
| ServiceClient.BodyJson | sdk/src/main/java/com/microsoft/windowsazure/mobileservices/MobileServiceClient.java:266-273 | A null body sends nothing; a JSON body is sent as is, an object through the serializer's tree. |
| ServiceClient.TypedResult | sdk/src/main/java/com/microsoft/windowsazure/mobileservices/MobileServiceClient.java:277-295 | An array class yields all parsed entities in order; otherwise the first entity, and an empty parse is an error. |
| ServiceClient.InvokeApiTyped | sdk/src/main/java/com/microsoft/windowsazure/mobileservices/MobileServiceClient.java:261-297 | A null class is rejected first, then a blank API name; a failed exchange or unreadable content passes its error on; entities Gson cannot bind pass the binding error on; otherwise the answer is all parsed entities for an array class and the first for any other (none is an error). |
| ServiceClient.InvokeApiTypedAnswers | sdk/src/main/java/com/microsoft/windowsazure/mobileservices/MobileServiceClient.java:261-297 | Given the transport's answer to the configured call: a 2xx answer whose content reads as JSON gives the entities parsed from it (all for an array class, the first otherwise) or, when they cannot be bound, the binding error; any other status the wrapped status exception. |
| JsonTables.FirstIdProperty | sdk/src/main/java/com/microsoft/windowsazure/mobileservices/table/MobileServiceJsonTable.java:628-634 | The id spelling looked at is the first of "id", "Id", "iD", "ID" present in the object, and none is picked iff none is present. |
| JsonTables.ValidateIdOnInsert | sdk/src/main/java/com/microsoft/windowsazure/mobileservices/table/MobileServiceJsonTable.java:626-667 | No id: the object unchanged and no id. A string id: accepted unchanged iff valid. A number: accepted iff it is the default 0, which is removed. JSON null: removed, no id. Any other kind: rejected. Every rejection is an illegal argument. |
| JsonTables.ValidateIdFromFirst | sdk/src/main/java/com/microsoft/windowsazure/mobileservices/table/MobileServiceJsonTable.java:628-667 | Walking the four spellings in order acts on the first present one exactly as the per-kind rules say. |
| JsonTables.ValidateIdKeepsOtherMembers | sdk/src/main/java/com/microsoft/windowsazure/mobileservices/table/MobileServiceJsonTable.java:644-666 | Validation only ever touches the id member it looked at; every other member is kept with its value. |
| JsonTables.ValidateIdOnInsertStable | sdk/src/main/java/com/microsoft/windowsazure/mobileservices/table/MobileServiceJsonTable.java:626-667 | With at most one id spelling present, what validation sends validates again to the same object. |
| JsonTables.OnlyFirstIdSpellingIsChecked | sdk/src/main/java/com/microsoft/windowsazure/mobileservices/table/MobileServiceJsonTable.java:628-643 | Only the first spelling is acted on: `{"id": null, "Id": 5}` is accepted as `{"Id": 5}` although 5 is not the default id. |
| JsonTables.WithParameterFeature | sdk/src/main/java/com/microsoft/windowsazure/mobileservices/table/MobileServiceJsonTable.java:363-366 | AdditionalQueryParameters is among the features iff it was already or the parameters are non-empty; no other feature changes. |
| JsonTables.ItemPathNumericId | sdk/src/main/java/com/microsoft/windowsazure/mobileservices/table/MobileServiceJsonTable.java:430 | A numeric item path is `tables/<name>/` followed by digits that read back as the id. |
| JsonTables.ItemCall | sdk/src/main/java/com/microsoft/windowsazure/mobileservices/table/MobileServiceJsonTable.java:409-428 | An `If-Match` header carrying the version's ETag, and the OpportunisticConcurrency feature, are added exactly when the id is a string and a version is present. |
| JsonTables.InsertCall | sdk/src/main/java/com/microsoft/windowsazure/mobileservices/table/MobileServiceJsonTable.java:354-380 | A rejected id fails before anything is sent; otherwise the validated object is POSTed to `tables/<name>` with no extra headers. |
| JsonTables.UpdateCall | sdk/src/main/java/com/microsoft/windowsazure/mobileservices/table/MobileServiceJsonTable.java:398-436 | Update is a PATCH to `tables/<name>/<id>`; a numeric id sends the whole element, a string id sends it without system properties; otherwise it is the shared item call, so `If-Match`, OpportunisticConcurrency and the parameters are as `ItemCall` states. |
| JsonTables.DeleteCall | sdk/src/main/java/com/microsoft/windowsazure/mobileservices/table/MobileServiceJsonTable.java:454-486 | Delete is the shared item call as a bodyless DELETE to `tables/<name>/<id>`, so it carries `If-Match` and OpportunisticConcurrency exactly for a versioned string id, and the caller's parameters with system properties. |
| JsonTables.UndeleteCall | sdk/src/main/java/com/microsoft/windowsazure/mobileservices/table/MobileServiceJsonTable.java:504-538 | Undelete is the shared item call as a bodyless POST to `tables/<name>/<id>`, so it carries `If-Match` and OpportunisticConcurrency exactly for a versioned string id, and the caller's parameters with system properties. |
| JsonTables.ItemCallsAgree | sdk/src/main/java/com/microsoft/windowsazure/mobileservices/table/MobileServiceJsonTable.java:398-538 | Update, delete and undelete address the same item with the same headers, features and parameters; they differ only in method and body. |
| JsonTables.OperationHeaders | sdk/src/main/java/com/microsoft/windowsazure/mobileservices/table/MobileServiceJsonTable.java:555-562 | Content-Type `application/json` is added iff there is content, after the caller's headers. |
| JsonTables.ShapeOperationResponse | sdk/src/main/java/com/microsoft/windowsazure/mobileservices/table/MobileServiceJsonTable.java:564-577 | Null, empty or non-object content answers (null, null); object content answers the object with the response; unparsable content is an error. |
| JsonTables.ExecuteTableOperation | sdk/src/main/java/com/microsoft/windowsazure/mobileservices/table/MobileServiceJsonTable.java:551-581 | A failed exchange gives its error through `transformHttpException`; an answered one gives the shaped content when it can be read and the transformed parse error when not; so a result comes exactly from a 2xx answer whose body reads. |
| JsonTables.ExecuteTableOperationAnswers | sdk/src/main/java/com/microsoft/windowsazure/mobileservices/table/MobileServiceJsonTable.java:551-581 | Against the transport's answer: a non-2xx status gives the transformed status exception; a 2xx one with no or empty body gives `(null, null)`, with a JSON object gives the object and the response, with other JSON `(null, null)`, and with unreadable text the transformed parse error. |
| JsonTables.TableCallRequest | sdk/src/main/java/com/microsoft/windowsazure/mobileservices/table/MobileServiceJsonTable.java:559-577 | The HTTP call has the table call's path and method, a UTF-8 body that decodes to its content, and JSON content type when there is one. |
| JsonTables.UpdateVersionFromEtag | sdk/src/main/java/com/microsoft/windowsazure/mobileservices/table/MobileServiceJsonTable.java:80-89 | An `ETag` header sets the version property to its value and keeps every other member; without one the object is unchanged. |
| JsonTables.UpdateVersionFromEtagIdempotent | sdk/src/main/java/com/microsoft/windowsazure/mobileservices/table/MobileServiceJsonTable.java:80-89 | Applying the response's ETag twice is the same as once. |
| JsonTables.Insert | sdk/src/main/java/com/microsoft/windowsazure/mobileservices/table/MobileServiceJsonTable.java:354-380 | A rejected id fails before sending; otherwise insert fails iff the call does, and answers the sent object patched with the server's and given the ETag version. |
| JsonTables.Update | sdk/src/main/java/com/microsoft/windowsazure/mobileservices/table/MobileServiceJsonTable.java:398-436 | An invalid id fails before sending; otherwise update fails iff the call does and answers the element patched and versioned. |
| JsonTables.Delete | sdk/src/main/java/com/microsoft/windowsazure/mobileservices/table/MobileServiceJsonTable.java:454-486 | An invalid id fails before sending; otherwise delete completes iff the call succeeds. |
| JsonTables.Undelete | sdk/src/main/java/com/microsoft/windowsazure/mobileservices/table/MobileServiceJsonTable.java:504-538 | An invalid id fails before sending; otherwise undelete fails iff the call does and answers the element patched and versioned. |
| JsonTables.QueryUrl | sdk/src/main/java/com/microsoft/windowsazure/mobileservices/table/MobileServiceJsonTable.java:114-124 | The URL starts with the table's address; a filter gives `?$filter=` + filter + modifiers; else non-empty modifiers give `?` + modifiers without their first character; the URL has no query string iff both are empty. |
| JsonTables.QueryUrlJoinsModifiers | sdk/src/main/java/com/microsoft/windowsazure/mobileservices/table/MobileServiceJsonTable.java:116-124 | Modifiers that start with `&` make a well-formed query with or without a filter. |
| JsonTables.GetRecordsRequest | sdk/src/main/java/com/microsoft/windowsazure/mobileservices/table/MobileServiceJsonTable.java:590-595 | A read is a bodyless GET on the URL whose only header is X-ZUMO-FEATURES when there is a features text. |
| JsonTables.GetRecords | sdk/src/main/java/com/microsoft/windowsazure/mobileservices/table/MobileServiceJsonTable.java:589-611 | An error of `Request.create` passes through; parsed content answers the JSON with the response; null or unparsable content is "Error while retrieving data from response." with the response attached. |
| JsonTables.LinkEnvelope | sdk/src/main/java/com/microsoft/windowsazure/mobileservices/table/MobileServiceJsonTable.java:158-171 | Without a `Link` header the body is the result; with one, an object of exactly `nextLink` (the header with "; rel=next" removed) and `results` (the body). |
| JsonTables.NextLinkRecovered | sdk/src/main/java/com/microsoft/windowsazure/mobileservices/table/MobileServiceJsonTable.java:158-171 | A `Link` header of the form `<url>; rel=next` gives back exactly the URL. |
| JsonTables.ExecuteUrlQuery | sdk/src/main/java/com/microsoft/windowsazure/mobileservices/table/MobileServiceJsonTable.java:155-173 | Against the transport's answer: a readable 2xx answer gives its Link envelope; another status the wrapped status exception; an unreadable 2xx answer the retrieval error with the response; a thrown failure a `MobileServiceException`. |
| JsonTables.ExecuteQuery | sdk/src/main/java/com/microsoft/windowsazure/mobileservices/table/MobileServiceJsonTable.java:110-138 | The same statement for the query's URL, with the table's features plus `AdditionalQueryParameters` when the query carries user parameters. |
| JsonTables.ExecuteNextLink | sdk/src/main/java/com/microsoft/windowsazure/mobileservices/table/MobileServiceJsonTable.java:145-147 | The same statement for the link as given, with the table's features. |
| JsonTables.QueryAsNextLink | sdk/src/main/java/com/microsoft/windowsazure/mobileservices/table/MobileServiceJsonTable.java:110-147 | A query without user parameters fetches exactly what following a link to its URL fetches. |
| JsonTables.Where | sdk/src/main/java/com/microsoft/windowsazure/mobileservices/table/MobileServiceTable.java:179-188 | A query is accepted iff it is non-null, and a null one is rejected with "Query must not be null" (the JSON table's `where` is the same). |
| TypedTables.ParseJavaInt | sdk/src/main/java/com/microsoft/windowsazure/mobileservices/table/MobileServiceTable.java:139 | `Integer.parseInt` accepts exactly an optional `+` or `-` followed by at least one ASCII digit, with a value that fits 32 bits, and reads it as the signed decimal value. |
| TypedTables.ParseJavaIntRoundTrip | sdk/src/main/java/com/microsoft/windowsazure/mobileservices/table/MobileServiceTable.java:139 | Every 32-bit integer's decimal text parses back to it. |
| TypedTables.GetAsInt | sdk/src/main/java/com/microsoft/windowsazure/mobileservices/table/MobileServiceTable.java:138-140 | A number is truncated to 32 bits; a string reads iff it parses as an `int`, and then as that value; a one-element array reads as its element, other arrays fail; null, objects and booleans fail. |
| TypedTables.GetAsIntNumberOrText | sdk/src/main/java/com/microsoft/windowsazure/mobileservices/table/MobileServiceTable.java:138-140 | A count sent as a number or as its decimal text reads the same. |
| TypedTables.GetAsString | sdk/src/main/java/com/microsoft/windowsazure/mobileservices/table/MobileServiceTable.java:142-144 | A string reads as itself; a number as its signed decimal digits (which parse back to it when in range); a boolean as `true` or `false`; a one-element array as its element, other arrays fail; null and objects fail. |
| TypedTables.ProcessQueryResults | sdk/src/main/java/com/microsoft/windowsazure/mobileservices/table/MobileServiceTable.java:131-160 | For an object, the items are the parsed `results`, the count is `count` if present else 0, and there is a nextLink iff `nextLink` is present; for anything else the count is the number of parsed items. |
| TypedTables.ProcessEnvelope | sdk/src/main/java/com/microsoft/windowsazure/mobileservices/table/MobileServiceTable.java:131-160 | A Link-paged answer reads as its results, count 0 and the URL of the next page. |
| TypedTables.ExecuteAllAsWritten | sdk/src/main/java/com/microsoft/windowsazure/mobileservices/table/MobileServiceTable.java:85-102 | An object without `count` fails with a null dereference; a non-object answers its items with count -1. |
| TypedTables.ExecuteAllAsWrittenFailsOnPages | sdk/src/main/java/com/microsoft/windowsazure/mobileservices/table/MobileServiceTable.java:89-100 | Every Link-paged answer fails in the parameterless `execute()`. |
| TypedTables.ExecuteAll | sdk/src/main/java/com/microsoft/windowsazure/mobileservices/table/MobileServiceTable.java:85-102 | An object answers its parsed `results` with `count`, or 0 when absent, and no next link; a non-object answers its items with count -1. |
| TypedTables.ExecuteAllAgrees | sdk/src/main/java/com/microsoft/windowsazure/mobileservices/table/MobileServiceTable.java:89-100 | Wherever the source does not fail on a missing count, the corrected `execute()` answers exactly what it does. |
| TypedTables.ExecuteAllReadsPages | sdk/src/main/java/com/microsoft/windowsazure/mobileservices/table/MobileServiceTable.java:89-100 | The corrected `execute()` reads a Link-paged answer as its results with count 0. |
| TypedTables.ParseEntityForException | sdk/src/main/java/com/microsoft/windowsazure/mobileservices/table/MobileServiceTable.java:488-497 | The server value yields an entity iff it parses to at least one entity, the first; a failed parse yields null, never an error. |
| TypedTables.TransformToTypedException | sdk/src/main/java/com/microsoft/windowsazure/mobileservices/table/MobileServiceTable.java:468-486 | A JSON precondition-failed exception becomes the typed one and a JSON conflict the typed conflict, each with the parsed entity; every other failure is returned unchanged. |
| TypedTables.TransformRoundTrip | sdk/src/main/java/com/microsoft/windowsazure/mobileservices/table/MobileServiceTable.java:468-486 | The typed exception carries the same response information as the one it came from. |
| TypedTables.InsertPayload | sdk/src/main/java/com/microsoft/windowsazure/mobileservices/table/MobileServiceTable.java:308-312 | System properties are stripped only when the id class is known and is not an integer class. |
| TypedTables.InternalTable | sdk/src/main/java/com/microsoft/windowsazure/mobileservices/table/MobileServiceTable.java:61-71 | The JSON table behind a typed table is the same table in every other respect, and sends only the TypedTable feature. |
| TypedTables.FirstEntity | sdk/src/main/java/com/microsoft/windowsazure/mobileservices/table/MobileServiceTable.java:318-325 | The inserted entity is the first the server's object parses to; no entity is an error. |
| TypedTables.Insert | sdk/src/main/java/com/microsoft/windowsazure/mobileservices/table/MobileServiceTable.java:300-328 | A failure to serialise the entity is reported as is; a failed insert is mapped to the typed exception; a successful one answers the first parsed entity. |
| TypedTables.ExecuteQuery | sdk/src/main/java/com/microsoft/windowsazure/mobileservices/table/MobileServiceTable.java:109-113 | Against the transport's answer to the query's URL with the `TypedTable` features: a result only from a readable 2xx answer, and then `processQueryResults` of its Link envelope; another status is the wrapped status exception. |
| TypedTables.ExecuteNextLink | sdk/src/main/java/com/microsoft/windowsazure/mobileservices/table/MobileServiceTable.java:120-124 | The same statement for the link as given, with the `TypedTable` feature. |
| TypedTables.ExecuteNextLinkPages | sdk/src/main/java/com/microsoft/windowsazure/mobileservices/table/MobileServiceTable.java:120-160 | A 2xx answer whose content parses as `b` and whose `Link` is `<u>; rel=next` gives the entities of `b`, count 0 and next link `u`; without a Link header it gives `processQueryResults` of `b`. |
| TypedTables.ExecuteQueryPages | sdk/src/main/java/com/microsoft/windowsazure/mobileservices/table/MobileServiceTable.java:109-160 | The same two cases for a typed query. |
| DateSerialization.PadMilliseconds | sdk/src/main/java/com/microsoft/windowsazure/mobileservices/table/serialization/DateSerializer.java:67-73 | One digit gains "00", two digits gain "0", three or more are kept, so a non-empty fraction becomes at least three characters with itself as prefix. |
| DateSerialization.NormalizeDateText | sdk/src/main/java/com/microsoft/windowsazure/mobileservices/table/serialization/DateSerializer.java:50-87 | The text handed to the parser never contains a `Z`; the only error is the JSON parse error "Invalid length". |
| DateSerialization.NormalizeDateTextFailsIff | sdk/src/main/java/com/microsoft/windowsazure/mobileservices/table/serialization/DateSerializer.java:60-84 | The rewriting fails exactly on a non-empty text made only of dots. |
| DateSerialization.NormalizeWithoutDot | sdk/src/main/java/com/microsoft/windowsazure/mobileservices/table/serialization/DateSerializer.java:60-65 | Without a dot, every `Z` becomes `.000+0000`. |
| DateSerialization.NormalizeWithFraction | sdk/src/main/java/com/microsoft/windowsazure/mobileservices/table/serialization/DateSerializer.java:67-80 | With one dot, the date-time keeps its text with `Z` as `+0000`, and the fraction loses its `Z`s, is padded to three digits and is followed by `+0000`. |
| DateSerialization.NormalizeWithDots | sdk/src/main/java/com/microsoft/windowsazure/mobileservices/table/serialization/DateSerializer.java:67-80 | With two or more pieces after splitting on dots, the result is the first piece with `Z` as `+0000`, a dot, the last piece without its `Z`s and padded, and `+0000`; pieces in between are dropped. |
| DateSerialization.NormalizeFirstAndLastRun | sdk/src/main/java/com/microsoft/windowsazure/mobileservices/table/serialization/DateSerializer.java:60-80 | For any text before the first dot, then anything up to a dot, then the last non-empty dot-free run and trailing dots: only the text before the first dot and that last run are kept, rewritten as above. |
| DateSerialization.ZeroPad | sdk/src/main/java/com/microsoft/windowsazure/mobileservices/table/serialization/DateSerializer.java:92-96 | A field is printed as decimal digits that read back as its value, exactly `width` of them when it fits. |
| DateSerialization.Serialize | sdk/src/main/java/com/microsoft/windowsazure/mobileservices/table/serialization/DateSerializer.java:92-96 | The text ends in a literal `Z`; when every field fits its pattern width it is 24 characters, with `-`, `-`, `T`, `:`, `:`, `.` at their places and each of year, month, day, hour, minute, second and milliseconds reading back from its own position. |
| DateSerialization.SerializedMilliseconds | sdk/src/main/java/com/microsoft/windowsazure/mobileservices/table/serialization/DateSerializer.java:92-96 | The text has a dot and then exactly three millisecond digits that read back as the milliseconds. |
| DateSerialization.NormalizeSerialized | sdk/src/main/java/com/microsoft/windowsazure/mobileservices/table/serialization/DateSerializer.java:60-96 | Normalising what `serialize` printed only turns its final `Z` into `+0000`. |
| TableOperations.Create | sdk/src/sdk/src/main/java/com/microsoft/windowsazure/mobileservices/table/sync/operations/AbstractTableOperation.java:24-29 | The four-argument constructor stores id, table name, item id and creation time as given, with no state and no item. |
| TableOperations.CreateNew | sdk/src/sdk/src/main/java/com/microsoft/windowsazure/mobileservices/table/sync/operations/AbstractTableOperation.java:37-39 | The two-argument constructor keeps table name and item id and takes the generated id and the current time. |
| TableOperations.SetOperationState | sdk/src/sdk/src/main/java/com/microsoft/windowsazure/mobileservices/table/sync/operations/AbstractTableOperation.java:76-79 | Only the state changes, to the one given; `null` is allowed and makes the state read as unset again. |
| TableOperations.SetItem | sdk/src/sdk/src/main/java/com/microsoft/windowsazure/mobileservices/table/sync/operations/AbstractTableOperation.java:86-87 | Only the item changes, to the one set (null allowed). |
| TableOperations.ApplyAll | sdk/src/sdk/src/main/java/com/microsoft/windowsazure/mobileservices/table/sync/operations/AbstractTableOperation.java:9-14 | No series of setter calls changes id, table name, item id or creation time. |
| TableOperations.LastWriteWins | sdk/src/sdk/src/main/java/com/microsoft/windowsazure/mobileservices/table/sync/operations/AbstractTableOperation.java:66-87 | After any series of setter calls, the state and item read are those given by the last call of each kind, `null` included, or the initial ones when there was none. |
| TableOperations.StateUnsetUntilSet | sdk/src/sdk/src/main/java/com/microsoft/windowsazure/mobileservices/table/sync/operations/AbstractTableOperation.java:13 | A new operation's state reads as null until `setOperationState` is called, however often its item is set. |
| TableOperations.StateResetByNull | sdk/src/sdk/src/main/java/com/microsoft/windowsazure/mobileservices/table/sync/operations/AbstractTableOperation.java:76-79 | A `setOperationState(null)` call makes the state read as unset again, whatever states were set before, until the next state call. |

## Left out

- Network execution, OkHttp, RxJava `Single`/`Completable` composition, the thread pool of `Request.java` and `RequestAsyncTask.java`: the transport is a function from a request to an answer or a thrown failure. Scheduling, threads and cancellation are not modelled; the error handler of `Request.java` is (`Connections.Create`).
- `MobileServiceException`'s own constructors are not part of this model. The status exception built from a message and a response is taken to carry no cause, so `Request.java` wraps it once more; the message and response of `new MobileServiceException(throwable)` are not modelled (`WrappedFailure` keeps only the wrapped failure).
- Connections.Start: `getStatus()` and `getContent()` of a returned response are taken not to throw, so "Error while processing request." always carries a null response here; the source attaches the response when such a call fails after `execute()` returned.
- Gson parsing and serialisation are the `JsonCodec` parameter; `Uri.Builder`'s rendering of a URI, `URLEncoder`, and `MobileServiceFeatures.featuresToString` are parameters of `HttpContext` or of the query functions.
- The table helpers from the base class, which is not part of this model, are `TableContext` fields: `isValidStringId`, `validateId`, the version property and its lookup, `removeSystemProperties`, `addSystemProperties`, `getEtagFromValue`/`getValueFromEtag`, `patchOriginalEntityWithResponseEntity` and `transformHttpException`. The base-class constant `TABLES_URL` is taken to be "tables/".
- The id-kind helpers of the base class (`isStringType`, `getStringValue`, `isNumericType`, `getNumericValue`, `isDefaultNumericId`) are read as: a string id is a JSON string, a numeric id is a JSON integer, and the default numeric id is 0, as the insert's documentation states.
- `QueryODataWriter` is not part of this model: a query is given as its row filter, its row-set modifiers and its user parameters. `execute(Query)` with a null query therefore has no behaviour here.
- Reflection: `getDeclaredFields` and the `@SerializedName` lookup are given as a class description, and `copyFields` is replaced by answering the parsed entity. The typed table's `update`, `delete`, `undelete` and `lookUp` are not modelled because the typed insert shows the whole mapping pattern.
- Gson's `getAsInt` and `getAsString` are modelled for the JSON values of this model. Their exception messages, and numbers outside the range of `long`, are not.
- The JSON table's parameterless `execute()` is `executeInternal()`, which is `execute(where())`, that is `JsonTables.ExecuteQuery` on the empty query; the typed `ExecuteAll` takes that answer as its `result` argument rather than calling it.
- `SimpleDateFormat` parsing, calendar arithmetic and locale digits are left out: a date is given as its UTC calendar fields.
- The User-Agent text is the fixed string the source formats. Java's case folding beyond ASCII is not modelled.
- TypedTables.ParseJavaInt: accepts ASCII digits only, whereas `Integer.parseInt` goes through `Character.digit` and also reads other Unicode decimal digits (Arabic-Indic, Devanagari and so on); such digits in an id are left out with the rest of non-ASCII character classes.
- Connections.ErrorMessage: `String.format` prints the status with the default locale's digits; the model prints ASCII digits, as in a locale such as English, since locales are left out.
- The offline operation states are the type parameter `S`, a `Date` is its time in milliseconds, and `UUID.randomUUID()` and `new Date()` are parameters of the two-argument constructor.
- TypedTables.Insert: `toJsonTree(element).getAsJsonObject()` on an entity that does not serialise to an object throws `IllegalStateException`, which the source does not catch and so throws at once; the model reports every serialisation failure as an error result.
- JsonModel: a JSON object is a map from member names, so Gson's member order is not kept. That order is what `toString` prints, and `updateVersionFromETag`'s remove-then-add moves the version member last; the model states only which members there are and their values.
- JsonTables.Delete: the id check that the source makes before it builds the `Completable`, which throws at once, is modelled like the error result of the later check.
- JsonTables.Insert: the source's branch for a missing response is left out because `executeTableOperation` never produces one.
- Utf8.DecodeEncode: strings are sequences of Unicode scalar values, not Java's UTF-16 code units, so a string with a lone surrogate, which `getBytes("UTF-8")` turns into `?`, has no counterpart; the round trip holds for well-formed Java strings only.
- FilterRequests.ContentRoundTrip: holds for well-formed Java strings only, for the same reason.
- HttpClients.TextContentReadsBack: holds for well-formed Java strings only, for the same reason.
- DateSerialization.PadMilliseconds: counts characters as scalar values, where `String.length()` counts a supplementary character as two, so a fraction holding one would be padded differently.
- TypedTables.GetAsInt and TypedTables.GetAsString: a JSON number is an integer (`JNumber(n: int)`); fractions and exponents are not represented, so Gson's truncation of `2.5` to 2 in `getAsInt` and `getAsString`'s return of a number's original text are not modelled.
- JsonTables.ValidateIdOnInsert: answers a cleaned copy, where the source removes the id from the caller's own `JsonObject`, a change the caller sees even when the insert then fails.
- TableOperations: the operation is an immutable record, so a Java caller's shared reference to the `item` object, and changes made through it, are not modelled.
- TypedTables.ExecuteAll: stated for the corrected count default; the source's behaviour is `ExecuteAllAsWritten`.
- ServiceClient.Initialize: uses the corrected `NormalizeUrl`; the source's behaviour is `NormalizeUrlAsWritten`.

## Findings

| source | as written | input that shows it | evidently intended | confidence | as-written member | corrected member |
|---|---|---|---|---|---|---|
| sdk/src/main/java/com/microsoft/windowsazure/mobileservices/MobileServiceClient.java:90-102 | an empty path is fixed by appending "/" to the whole URL text | `https://contoso.azurewebsites.net?zumo=1`: the slash lands in the query, the path stays empty, and normalising again adds another | the path becomes "/" and query and fragment are kept, so normalising is idempotent | not executed | ServiceClient.NormalizeUrlAsWritten | ServiceClient.NormalizeUrl |
| sdk/src/main/java/com/microsoft/windowsazure/mobileservices/table/MobileServiceTable.java:89-100 | `execute()` reads `count` from every object result with no presence check | any Link-paged answer, `{"nextLink": ..., "results": ...}`, which has no `count` | a missing count reads as 0, as in `processQueryResults` | not executed | TypedTables.ExecuteAllAsWritten | TypedTables.ExecuteAll |

=== FILE: connections.dfy ===
/**
  `MobileServiceConnection`: the default headers put on every request and
  the classification of the transport's answer into success or error.
 */
module Connections {
  import opened Outcomes
  import opened JavaStrings
  import opened ServiceTypes
  import opened FilterRequests

  const ZumoApplicationHeader := "X-ZUMO-APPLICATION"
  const ZumoVersionHeader := "X-ZUMO-VERSION"
  const UserAgentHeader := "User-Agent"
  const AcceptHeader := "Accept"
  const AcceptEncodingHeader := "Accept-Encoding"
  const GzipEncoding := "gzip"
  const SdkVersion := "2.0.2"

  /** The fixed User-Agent text (its parts are hard-coded in the source). */
  const UserAgent := "ZUMO/1.0 (lang=Java; os=Android; os_version=5.0; arch=arm; version=" + SdkVersion + ")"

  const ProcessingErrorMessage := "Error while processing request."
  const NullRequestMessage := "Request can not be null"

  /** `requestContainsHeader`: `Headers.get` finds a value for the name. */
  predicate RequestContainsHeader(r: FilterRequest, name: string) {
    HeaderValue(r.headers, name).Some?
  }

  /** A request contains a header exactly when one of its headers has that name, compared ignoring case. */
  lemma RequestContainsHeaderIff(r: FilterRequest, name: string)
    ensures RequestContainsHeader(r, name) <==> exists i :: 0 <= i < |r.headers| && EqualsIgnoreCase(r.headers[i].name, name)
  {
    HeaderValueMeaning(r.headers, name);
  }

  /** The application key is sent only when it is present and not blank. */
  predicate SendsAppKey(appKey: Option<string>) {
    appKey.Some? && !IsBlank(appKey.value)
  }

  /** `configureHeadersOnRequest`: version, User-Agent and key are appended; Accept and Accept-Encoding only when absent. */
  function ConfigureHeaders(r: FilterRequest, appKey: Option<string>): (c: FilterRequest)
    ensures c.httpMethod == r.httpMethod && c.url == r.url && c.content == r.content
  {
    var withVersion := AddHeader(r, ZumoVersionHeader, SdkVersion);
    var withAgent := AddHeader(withVersion, UserAgentHeader, UserAgent);
    var withKey := if SendsAppKey(appKey) then AddHeader(withAgent, ZumoApplicationHeader, appKey.value) else withAgent;
    var withAccept := AddIfAbsent(withKey, AcceptHeader, JsonContentType);
    AddIfAbsent(withAccept, AcceptEncodingHeader, GzipEncoding)
  }

  /** The `if (!requestContainsHeader(..)) addHeader(..)` pattern: an existing value wins. */
  function AddIfAbsent(r: FilterRequest, name: string, value: string): (r': FilterRequest)
    ensures r'.httpMethod == r.httpMethod && r'.url == r.url && r'.content == r.content
    ensures r'.headers == r.headers + (if RequestContainsHeader(r, name) then [] else [Header(name, value)])
  {
    if !RequestContainsHeader(r, name) then AddHeader(r, name, value) else r
  }

  /** The headers `ConfigureHeaders` appends, as one list. */
  function DefaultHeaders(r: FilterRequest, appKey: Option<string>): seq<Header> {
    [Header(ZumoVersionHeader, SdkVersion), Header(UserAgentHeader, UserAgent)]
    + (if SendsAppKey(appKey) then [Header(ZumoApplicationHeader, appKey.value)] else [])
    + (if !RequestContainsHeader(r, AcceptHeader) then [Header(AcceptHeader, JsonContentType)] else [])
    + (if !RequestContainsHeader(r, AcceptEncodingHeader) then [Header(AcceptEncodingHeader, GzipEncoding)] else [])
  }

  /** A header whose name has another length does not change what `name` reads as. */
  lemma AppendOtherLength(hs: seq<Header>, h: Header, name: string)
    requires |h.name| != |name|
    ensures HeaderValue(hs + [h], name) == HeaderValue(hs, name)
  {
    assert (hs + [h])[..|hs|] == hs;
  }

  /** A header of that very name is what `name` reads as. */
  lemma AppendSameName(hs: seq<Header>, h: Header, name: string)
    requires h.name == name
    ensures HeaderValue(hs + [h], name) == Some(h.value)
  {
    assert (hs + [h])[|hs + [h]| - 1] == h;
  }

  /** Appending at most one header whose name has another length does not change what `name` reads as. */
  lemma AppendOptionalOther(hs: seq<Header>, more: seq<Header>, name: string)
    requires |more| <= 1 && (more != [] ==> |more[0].name| != |name|)
    ensures HeaderValue(hs + more, name) == HeaderValue(hs, name)
  {
    if more == [] {
      assert hs + more == hs;
    } else {
      assert more == [more[0]];
      AppendOtherLength(hs, more[0], name);
    }
  }

  /** Regrouping five appended pieces. */
  lemma Regroup(hs: seq<Header>, hv: Header, hu: Header, key: seq<Header>, acc: seq<Header>, enc: seq<Header>)
    ensures hs + [hv] + [hu] + key + acc + enc == hs + ([hv, hu] + key + acc + enc)
  {
    assert [hv] + [hu] == [hv, hu];
  }

  /** `configureHeadersOnRequest` step by step: its presence checks see only the caller's headers. */
  lemma ConfigureHeadersSteps(r: FilterRequest, appKey: Option<string>)
    ensures ConfigureHeaders(r, appKey).headers
         == r.headers + [Header(ZumoVersionHeader, SdkVersion)] + [Header(UserAgentHeader, UserAgent)]
            + (if SendsAppKey(appKey) then [Header(ZumoApplicationHeader, appKey.value)] else [])
            + (if !RequestContainsHeader(r, AcceptHeader) then [Header(AcceptHeader, JsonContentType)] else [])
            + (if !RequestContainsHeader(r, AcceptEncodingHeader) then [Header(AcceptEncodingHeader, GzipEncoding)] else [])
  {
    var hv := Header(ZumoVersionHeader, SdkVersion);
    var hu := Header(UserAgentHeader, UserAgent);
    var withVersion := AddHeader(r, ZumoVersionHeader, SdkVersion);
    var withAgent := AddHeader(withVersion, UserAgentHeader, UserAgent);
    var withKey := if SendsAppKey(appKey) then AddHeader(withAgent, ZumoApplicationHeader, appKey.value) else withAgent;
    var withAccept := AddIfAbsent(withKey, AcceptHeader, JsonContentType);
    var key := if SendsAppKey(appKey) then [Header(ZumoApplicationHeader, appKey.value)] else [];
    var acc := if !RequestContainsHeader(r, AcceptHeader) then [Header(AcceptHeader, JsonContentType)] else [];
    assert withKey.headers == r.headers + [hv] + [hu] + key;
    AppendOtherLength(r.headers, hv, AcceptHeader);
    AppendOtherLength(r.headers + [hv], hu, AcceptHeader);
    AppendOptionalOther(r.headers + [hv] + [hu], key, AcceptHeader);
    assert RequestContainsHeader(withKey, AcceptHeader) == RequestContainsHeader(r, AcceptHeader);
    assert withAccept.headers == r.headers + [hv] + [hu] + key + acc;
    AppendOtherLength(r.headers, hv, AcceptEncodingHeader);
    AppendOtherLength(r.headers + [hv], hu, AcceptEncodingHeader);
    AppendOptionalOther(r.headers + [hv] + [hu], key, AcceptEncodingHeader);
    AppendOptionalOther(r.headers + [hv] + [hu] + key, acc, AcceptEncodingHeader);
    assert RequestContainsHeader(withAccept, AcceptEncodingHeader) == RequestContainsHeader(r, AcceptEncodingHeader);
  }

  /** The configured headers are the caller's followed by the defaults. */
  lemma ConfigureHeadersAppends(r: FilterRequest, appKey: Option<string>)
    ensures ConfigureHeaders(r, appKey).headers == r.headers + DefaultHeaders(r, appKey)
  {
    ConfigureHeadersSteps(r, appKey);
    Regroup(r.headers, Header(ZumoVersionHeader, SdkVersion), Header(UserAgentHeader, UserAgent),
            if SendsAppKey(appKey) then [Header(ZumoApplicationHeader, appKey.value)] else [],
            if !RequestContainsHeader(r, AcceptHeader) then [Header(AcceptHeader, JsonContentType)] else [],
            if !RequestContainsHeader(r, AcceptEncodingHeader) then [Header(AcceptEncodingHeader, GzipEncoding)] else []);
  }

  /** What each default header reads as once the request is configured. */
  lemma ConfigureHeadersValues(r: FilterRequest, appKey: Option<string>)
    ensures HeaderValue(ConfigureHeaders(r, appKey).headers, ZumoVersionHeader) == Some(SdkVersion)
    ensures HeaderValue(ConfigureHeaders(r, appKey).headers, UserAgentHeader) == Some(UserAgent)
    ensures SendsAppKey(appKey) ==> HeaderValue(ConfigureHeaders(r, appKey).headers, ZumoApplicationHeader) == appKey
    ensures !SendsAppKey(appKey) ==> HeaderValue(ConfigureHeaders(r, appKey).headers, ZumoApplicationHeader) == HeaderValue(r.headers, ZumoApplicationHeader)
    ensures HeaderValue(ConfigureHeaders(r, appKey).headers, AcceptHeader)
         == (if RequestContainsHeader(r, AcceptHeader) then HeaderValue(r.headers, AcceptHeader) else Some(JsonContentType))
    ensures HeaderValue(ConfigureHeaders(r, appKey).headers, AcceptEncodingHeader)
         == (if RequestContainsHeader(r, AcceptEncodingHeader) then HeaderValue(r.headers, AcceptEncodingHeader) else Some(GzipEncoding))
  {
    var hv := Header(ZumoVersionHeader, SdkVersion);
    var hu := Header(UserAgentHeader, UserAgent);
    var key := if SendsAppKey(appKey) then [Header(ZumoApplicationHeader, appKey.value)] else [];
    var acc := if !RequestContainsHeader(r, AcceptHeader) then [Header(AcceptHeader, JsonContentType)] else [];
    var enc := if !RequestContainsHeader(r, AcceptEncodingHeader) then [Header(AcceptEncodingHeader, GzipEncoding)] else [];
    var h0 := r.headers + [hv];
    var h1 := h0 + [hu];
    var h2 := h1 + key;
    var h3 := h2 + acc;
    var h4 := h3 + enc;
    ConfigureHeadersSteps(r, appKey);
    // X-ZUMO-VERSION: appended first, no later header has a name of its length
    AppendSameName(r.headers, hv, ZumoVersionHeader);
    AppendOtherLength(h0, hu, ZumoVersionHeader);
    AppendOptionalOther(h1, key, ZumoVersionHeader);
    AppendOptionalOther(h2, acc, ZumoVersionHeader);
    AppendOptionalOther(h3, enc, ZumoVersionHeader);
    // User-Agent
    AppendSameName(h0, hu, UserAgentHeader);
    AppendOptionalOther(h1, key, UserAgentHeader);
    AppendOptionalOther(h2, acc, UserAgentHeader);
    AppendOptionalOther(h3, enc, UserAgentHeader);
    // X-ZUMO-APPLICATION
    AppendOtherLength(r.headers, hv, ZumoApplicationHeader);
    AppendOtherLength(h0, hu, ZumoApplicationHeader);
    if key != [] {
      AppendSameName(h1, key[0], ZumoApplicationHeader);
      assert h2 == h1 + [key[0]];
    } else {
      assert h2 == h1;
    }
    AppendOptionalOther(h2, acc, ZumoApplicationHeader);
    AppendOptionalOther(h3, enc, ZumoApplicationHeader);
    // Accept
    AppendOtherLength(r.headers, hv, AcceptHeader);
    AppendOtherLength(h0, hu, AcceptHeader);
    AppendOptionalOther(h1, key, AcceptHeader);
    if acc != [] {
      AppendSameName(h2, acc[0], AcceptHeader);
      assert h3 == h2 + [acc[0]];
    } else {
      assert h3 == h2;
    }
    AppendOptionalOther(h3, enc, AcceptHeader);
    // Accept-Encoding
    AppendOtherLength(r.headers, hv, AcceptEncodingHeader);
    AppendOtherLength(h0, hu, AcceptEncodingHeader);
    AppendOptionalOther(h1, key, AcceptEncodingHeader);
    AppendOptionalOther(h2, acc, AcceptEncodingHeader);
    if enc != [] {
      AppendSameName(h3, enc[0], AcceptEncodingHeader);
      assert h4 == h3 + [enc[0]];
    } else {
      assert h4 == h3;
    }
  }

  // ---------------------------------------------------------------------
  // status classification
  // ---------------------------------------------------------------------

  /** The statuses `start` accepts as success. */
  predicate IsSuccessStatus(status: int) {
    200 <= status < 300
  }

  /** The message of the error raised for a non-2xx status. */
  function ErrorMessage(status: int, content: Option<string>): (m: string)
    ensures !IsBlank(m)
    ensures content.Some? && !IsBlank(content.value) ==> m == content.value
    ensures content.None? || IsBlank(content.value) ==> m == "{'code': " + IntToString(status) + "}"
  {
    if content.Some? && !IsBlank(content.value) then content.value
    else
      var m := "{'code': " + IntToString(status) + "}";
      assert !IsTrimmable(m[0]);
      m
  }

  /**
    `start`: a `null` request is refused at once; otherwise the default
    headers are put on it and it is handed to `execute`, the transport.
    A 2xx answer is returned; any other answer becomes a
    `MobileServiceException`; a `MobileServiceException` (of any subclass)
    the transport throws passes unchanged and any other is wrapped.
   */
  function Start(request: Option<FilterRequest>, appKey: Option<string>, execute: FilterRequest -> Executed): (r: Result<Response, Failure>)
    ensures request.None? ==> r == Err(IllegalArgument(NullRequestMessage))
    ensures request.Some? && r.Ok? ==>
              execute(ConfigureHeaders(request.value, appKey)) == Returned(r.value) && IsSuccessStatus(r.value.status)
  {
    if request.None? then Err(IllegalArgument(NullRequestMessage))
    else
      match execute(ConfigureHeaders(request.value, appKey))
      case Returned(response) =>
        if IsSuccessStatus(response.status) then Ok(response)
        else Err(ServiceFailure(ErrorMessage(response.status, response.content), None, Some(response)))
      case Threw(f) =>
        if IsServiceException(f) then Err(f)
        else Err(ServiceFailure(ProcessingErrorMessage, Some(f), None))
  }

  /** Every outcome of `start` for a given request, in one statement. */
  lemma StartOutcomes(request: FilterRequest, appKey: Option<string>, execute: FilterRequest -> Executed)
    ensures var e := execute(ConfigureHeaders(request, appKey));
            var r := Start(Some(request), appKey, execute);
            && (r.Ok? <==> e.Returned? && IsSuccessStatus(e.response.status))
            && (e.Returned? && !IsSuccessStatus(e.response.status) ==>
                  r == Err(ServiceFailure(ErrorMessage(e.response.status, e.response.content), None, Some(e.response))))
            && (e.Threw? && IsServiceException(e.failure) ==> r == Err(e.failure))
            && (e.Threw? && !IsServiceException(e.failure) ==> r == Err(ServiceFailure(ProcessingErrorMessage, Some(e.failure), None)))
  {
  }

  /** Every error `start` reports for a request it accepted is a `MobileServiceException`. */
  lemma StartErrorsAreServiceExceptions(request: FilterRequest, appKey: Option<string>, execute: FilterRequest -> Executed)
    ensures Start(Some(request), appKey, execute).Err? ==> IsServiceException(Start(Some(request), appKey, execute).error)
  {
  }

  // ---------------------------------------------------------------------
  // Request.create: start, with its errors re-wrapped
  // ---------------------------------------------------------------------

  /**
    The error handler of `Request.request`: a failure whose cause is a
    `MobileServiceException` is replaced by that cause; any other is wrapped
    in a new `MobileServiceException`.
   */
  function Rewrap(f: Failure): (r: Failure)
    ensures IsServiceException(r)
    ensures r == WrappedFailure(f) || Some(r) == CauseOf(f)
  {
    match CauseOf(f)
    case Some(c) => if IsServiceException(c) then c else WrappedFailure(f)
    case None => WrappedFailure(f)
  }

  /** What a non-2xx answer reaches the caller of `Request.create` as: `start`'s exception, wrapped once more. */
  function StatusFailure(response: Response): Failure {
    WrappedFailure(ServiceFailure(ErrorMessage(response.status, response.content), None, Some(response)))
  }

  /**
    `Request.create(request, connection)`: `start` on a request the callers
    never leave `null`, its errors passed through `Rewrap`. Stated against
    what the transport does with the configured request.
   */
  function Create(request: FilterRequest, appKey: Option<string>, execute: FilterRequest -> Executed): (r: Result<Response, Failure>)
    ensures var e := execute(ConfigureHeaders(request, appKey));
            && (r.Ok? <==> e.Returned? && IsSuccessStatus(e.response.status))
            && (r.Ok? ==> r.value == e.response)
            && (e.Returned? && !IsSuccessStatus(e.response.status) ==> r == Err(StatusFailure(e.response)))
            && (e.Threw? && !IsServiceException(e.failure) ==>
                  r == Err(WrappedFailure(ServiceFailure(ProcessingErrorMessage, Some(e.failure), None))))
            && (e.Threw? && IsServiceException(e.failure) ==> r == Err(Rewrap(e.failure)))
    ensures r.Err? ==> IsServiceException(r.error)
  {
    match Start(Some(request), appKey, execute)
    case Ok(response) => Ok(response)
    case Err(f) => Err(Rewrap(f))
  }

  /**
    A transport-thrown service exception reaches the caller as its cause
    when that cause is a `MobileServiceException`, and wrapped otherwise, so
    a precondition or conflict exception without such a cause arrives
    wrapped rather than as itself.
   */
  lemma CreateThrownServiceException(request: FilterRequest, appKey: Option<string>, execute: FilterRequest -> Executed)
    requires execute(ConfigureHeaders(request, appKey)).Threw?
    requires IsServiceException(execute(ConfigureHeaders(request, appKey)).failure)
    ensures var f := execute(ConfigureHeaders(request, appKey)).failure;
            && (CauseOf(f).Some? && IsServiceException(CauseOf(f).value) ==> Create(request, appKey, execute) == Err(CauseOf(f).value))
            && (!(CauseOf(f).Some? && IsServiceException(CauseOf(f).value)) ==> Create(request, appKey, execute) == Err(WrappedFailure(f)))
  {
  }
}

=== FILE: date_serialization.dfy ===
/**
  `DateSerializer`: the text rewriting `deserialize(String)` applies before
  handing an ISO 8601 date to `SimpleDateFormat`, and the shape of the text
  `serialize(Date)` produces. The calendar arithmetic of `SimpleDateFormat`
  lives outside this model: a date is taken as the UTC calendar fields the
  formatter prints.
 */
module DateSerialization {
  import opened Outcomes
  import opened JavaStrings
  import opened ServiceTypes

  const InvalidLengthMessage := "Invalid length"
  /** What every `Z` becomes: the RFC 822 zone `SimpleDateFormat`'s `Z` pattern reads. */
  const UtcOffset := "+0000"

  // ---------------------------------------------------------------------
  // deserialize(String): the rewriting before parsing
  // ---------------------------------------------------------------------

  /** The milliseconds padded on the right to three digits; three or more characters are kept. */
  function PadMilliseconds(ms: string): (r: string)
    ensures |ms| == 1 ==> r == ms + "00"
    ensures |ms| == 2 ==> r == ms + "0"
    ensures |ms| != 1 && |ms| != 2 ==> r == ms
    ensures 1 <= |ms| ==> |r| >= 3 && r[..|ms|] == ms
    ensures forall c :: c in r ==> c in ms || c == '0'
  {
    if |ms| == 1 then ms + "00" else if |ms| == 2 then ms + "0" else ms
  }

  /**
    The text `deserialize` hands to the parser: without a dot every `Z`
    gains the milliseconds `.000`; with dots, the text before the first dot,
    a dot, the last piece without its `Z`s and padded, and a `Z`; finally
    every `Z` becomes `+0000`. A text that splits into no piece at all fails
    with "Invalid length".
   */
  function NormalizeDateText(strVal: string): (r: Result<string, Failure>)
    ensures r.Err? ==> r.error == JsonParseFailure(InvalidLengthMessage)
    ensures r.Ok? ==> 'Z' !in r.value
  {
    var pieces := JavaSplit(strVal, '.');
    if |pieces| == 1 then
      ReplaceCharRemoves(Replace(strVal, "Z", ".000Z"), 'Z', UtcOffset);
      Ok(Replace(Replace(strVal, "Z", ".000Z"), "Z", UtcOffset))
    else if |pieces| == 0 then
      Err(JsonParseFailure(InvalidLengthMessage))
    else
      var ms := PadMilliseconds(Replace(pieces[|pieces| - 1], "Z", ""));
      ReplaceCharRemoves(pieces[0] + "." + ms + "Z", 'Z', UtcOffset);
      Ok(Replace(pieces[0] + "." + ms + "Z", "Z", UtcOffset))
  }

  /** The rewriting fails exactly on a non-empty text made only of dots. */
  lemma NormalizeDateTextFailsIff(strVal: string)
    ensures NormalizeDateText(strVal).Err? <==> strVal != [] && forall i :: 0 <= i < |strVal| ==> strVal[i] == '.'
  {
    JavaSplitEmptyIff(strVal, '.');
  }

  /** Without a dot, each `Z` becomes `.000+0000`. */
  lemma NormalizeWithoutDot(strVal: string)
    requires '.' !in strVal
    ensures NormalizeDateText(strVal) == Ok(Replace(strVal, "Z", ".000" + UtcOffset))
  {
    ReplaceCharTwice(strVal, 'Z', ".000Z", UtcOffset);
    assert ".000Z" == ".000" + "Z";
    ReplaceFinalZulu(".000", UtcOffset);
  }

  /** A `Z`-free tail: replacing the `Z`s of `head + "." + tail + "Z"` only touches the head and the final `Z`. */
  lemma ReplaceZuluTail(head: string, tail: string)
    requires 'Z' !in tail
    ensures Replace(head + "." + tail + "Z", "Z", UtcOffset) == Replace(head, "Z", UtcOffset) + "." + tail + UtcOffset
  {
    var rest := "." + tail;
    assert 'Z' !in rest;
    assert head + "." + tail + "Z" == head + (rest + "Z");
    ReplaceCharAppend(head, rest + "Z", 'Z', UtcOffset);
    ReplaceCharAppend(rest, "Z", 'Z', UtcOffset);
    ReplaceCharAbsent(rest, 'Z', UtcOffset);
    ReplaceCharStep("Z", 'Z', UtcOffset);
    assert Replace("Z"[1..], "Z", UtcOffset) == [];
  }

  /**
    With exactly one dot, the date-time part keeps its text (each `Z` in it
    turned into `+0000`), and the fraction loses its `Z`s, is padded and is
    followed by `+0000`.
   */
  lemma NormalizeWithFraction(dateTime: string, fraction: string)
    requires '.' !in dateTime && '.' !in fraction && fraction != []
    ensures NormalizeDateText(dateTime + "." + fraction)
              == Ok(Replace(dateTime, "Z", UtcOffset) + "." + PadMilliseconds(Replace(fraction, "Z", "")) + UtcOffset)
  {
    assert dateTime + "." + fraction == dateTime + ['.'] + fraction;
    JavaSplitTwoPieces(dateTime, fraction, '.');
    var ms := PadMilliseconds(Replace(fraction, "Z", ""));
    ReplaceCharRemoves(fraction, 'Z', "");
    assert 'Z' !in ms;
    ReplaceZuluTail(dateTime, ms);
  }

  /**
    With dots, whatever pieces `split` returns beyond two: the first piece
    keeps its text (each `Z` in it turned into `+0000`), the last piece
    loses its `Z`s, is padded and is followed by `+0000`, and every piece in
    between is dropped.
   */
  lemma NormalizeWithDots(strVal: string)
    requires |JavaSplit(strVal, '.')| >= 2
    ensures var ps := JavaSplit(strVal, '.');
            NormalizeDateText(strVal)
              == Ok(Replace(ps[0], "Z", UtcOffset) + "." + PadMilliseconds(Replace(ps[|ps| - 1], "Z", "")) + UtcOffset)
  {
    var ps := JavaSplit(strVal, '.');
    var ms := PadMilliseconds(Replace(ps[|ps| - 1], "Z", ""));
    ReplaceCharRemoves(ps[|ps| - 1], 'Z', "");
    assert 'Z' !in ms;
    ReplaceZuluTail(ps[0], ms);
  }

  /**
    The same, stated on the text itself: for the text before the first dot,
    anything up to a dot, the last non-empty dot-free run and any trailing
    dots, only the first and that last run are kept.
   */
  lemma NormalizeFirstAndLastRun(dateTime: string, middle: string, fraction: string, trailing: string)
    requires '.' !in dateTime && '.' !in fraction && fraction != [] && OnlyChar(trailing, '.')
    requires middle == [] || middle[|middle| - 1] == '.'
    ensures NormalizeDateText(dateTime + "." + middle + fraction + trailing)
              == Ok(Replace(dateTime, "Z", UtcOffset) + "." + PadMilliseconds(Replace(fraction, "Z", "")) + UtcOffset)
  {
    var s := dateTime + "." + middle + fraction + trailing;
    JavaSplitFirstAndLast(dateTime, middle, fraction, trailing, '.');
    var ps := JavaSplit(s, '.');
    assert ps[0] == dateTime && ps[|ps| - 1] == fraction;
    NormalizeWithDots(s);
  }

  // ---------------------------------------------------------------------
  // serialize(Date): yyyy-MM-dd'T'HH:mm:ss'.'SSS'Z' in UTC
  // ---------------------------------------------------------------------

  /** The UTC calendar fields of a date, as the formatter reads them. */
  datatype DateFields = DateFields(year: nat, month: nat, day: nat, hour: nat, minute: nat, second: nat, millis: nat)

  /** A number's digits, zero-padded on the left to at least `width` characters. */
  function ZeroPad(n: nat, width: nat): (s: string)
    ensures IsDigits(s) && |s| >= width && |s| >= 1
    ensures forall c :: c in s ==> IsDigit(c)
    ensures DecimalValue(s) == n
    ensures width >= 1 && n < Power10(width) ==> |s| == width
    decreases width
  {
    if width <= 1 || n >= Power10(width - 1) then
      DecimalRoundTrip(n);
      NatToStringLength(n, width);
      NatToString(n)
    else
      var shorter := ZeroPad(n, width - 1);
      DecimalLeadingZero(shorter);
      "0" + shorter
  }

  /** `10^k`, never zero (the digit counts of `NatToStringLength` rest on that). */
  function Power10(k: nat): (p: nat)
    ensures p >= 1
  {
    if k == 0 then 1 else 10 * Power10(k - 1)
  }

  /** A number at least `10^(w-1)` and below `10^w` has `w` digits; one at least `10^(w-1)` has at least `w`. */
  lemma {:induction false} NatToStringLength(n: nat, w: nat)
    ensures w >= 1 && n >= Power10(w - 1) ==> |NatToString(n)| >= w
    ensures w >= 1 && n < Power10(w) ==> |NatToString(n)| <= w
    decreases n
  {
    if n >= 10 {
      if w >= 1 {
        NatToStringLength(n / 10, w - 1);
      }
    }
  }

  /** Every field fits the width the pattern gives it, so no field pushes the others along. */
  predicate FitsPattern(d: DateFields) {
    d.year < 10000 && d.month < 100 && d.day < 100 && d.hour < 100 && d.minute < 100 && d.second < 100 && d.millis < 1000
  }

  /** `t` is all digits and reads as `n`. */
  predicate IsDecimalOf(t: string, n: nat) {
    IsDigits(t) && DecimalValue(t) == n
  }

  /**
    `serialize`: the date and time, a dot, the milliseconds and a literal `Z`.
    When every field fits its width the text is 24 characters long and each
    field reads back from its own position.
   */
  function Serialize(d: DateFields): (s: string)
    ensures |s| >= 1 && s[|s| - 1] == 'Z'
    ensures FitsPattern(d) ==>
              && |s| == 24
              && s[4] == '-' && s[7] == '-' && s[10] == 'T' && s[13] == ':' && s[16] == ':' && s[19] == '.'
              && IsDecimalOf(s[..4], d.year) && IsDecimalOf(s[5..7], d.month) && IsDecimalOf(s[8..10], d.day)
              && IsDecimalOf(s[11..13], d.hour) && IsDecimalOf(s[14..16], d.minute) && IsDecimalOf(s[17..19], d.second)
              && IsDecimalOf(s[20..23], d.millis)
  {
    var s := DateTimeText(d) + "." + ZeroPad(d.millis, 3) + "Z";
    if FitsPattern(d) then
      SerializedLayout(d);
      s
    else s
  }

  /** Where each padded field lands when all of them fit. */
  lemma SerializedLayout(d: DateFields)
    requires FitsPattern(d)
    ensures var s := DateTimeText(d) + "." + ZeroPad(d.millis, 3) + "Z";
            && |s| == 24
            && s[4] == '-' && s[7] == '-' && s[10] == 'T' && s[13] == ':' && s[16] == ':' && s[19] == '.'
            && s[..4] == ZeroPad(d.year, 4) && s[5..7] == ZeroPad(d.month, 2) && s[8..10] == ZeroPad(d.day, 2)
            && s[11..13] == ZeroPad(d.hour, 2) && s[14..16] == ZeroPad(d.minute, 2) && s[17..19] == ZeroPad(d.second, 2)
            && s[20..23] == ZeroPad(d.millis, 3)
  {
    var y, mo, dy := ZeroPad(d.year, 4), ZeroPad(d.month, 2), ZeroPad(d.day, 2);
    var h, mi, se := ZeroPad(d.hour, 2), ZeroPad(d.minute, 2), ZeroPad(d.second, 2);
    var ms := ZeroPad(d.millis, 3);
    PatternLayout(DateText(d), TimeText(d), ms, y, mo, dy, h, mi, se);
  }

  /** The pattern's literal characters and field positions, for any fields of the pattern's widths. */
  lemma PatternLayout(date: string, time: string, ms: string, y: string, mo: string, dy: string, h: string, mi: string, se: string)
    requires |y| == 4 && |mo| == 2 && |dy| == 2 && |h| == 2 && |mi| == 2 && |se| == 2 && |ms| == 3
    requires date == y + "-" + mo + "-" + dy && time == h + ":" + mi + ":" + se
    ensures var s := date + "T" + time + "." + ms + "Z";
            && |s| == 24
            && s[4] == '-' && s[7] == '-' && s[10] == 'T' && s[13] == ':' && s[16] == ':' && s[19] == '.'
            && s[..4] == y && s[5..7] == mo && s[8..10] == dy
            && s[11..13] == h && s[14..16] == mi && s[17..19] == se
            && s[20..23] == ms
  {
    var s := date + "T" + time + "." + ms + "Z";
    assert s[..10] == date && s[11..19] == time;
    SubSlice(s, date, 0, 10, 0, 4);
    SubSlice(s, date, 0, 10, 5, 7);
    SubSlice(s, date, 0, 10, 8, 10);
    SubSlice(s, time, 11, 19, 0, 2);
    SubSlice(s, time, 11, 19, 3, 5);
    SubSlice(s, time, 11, 19, 6, 8);
  }

  /** A slice of a slice is a slice of the whole. */
  lemma SubSlice(s: string, t: string, i: nat, j: nat, k: nat, l: nat)
    requires i <= j <= |s| && s[i..j] == t && k <= l <= |t|
    ensures s[i + k..i + l] == t[k..l]
  {
    assert forall m :: 0 <= m < l - k ==> s[i + k..i + l][m] == t[k..l][m];
  }

  /** The `yyyy-MM-dd'T'HH:mm:ss` part. */
  function DateTimeText(d: DateFields): (s: string)
    ensures '.' !in s && 'Z' !in s
  {
    DateText(d) + "T" + TimeText(d)
  }

  /** The `yyyy-MM-dd` part. */
  function DateText(d: DateFields): (s: string)
    ensures '.' !in s && 'Z' !in s
  {
    ZeroPad(d.year, 4) + "-" + ZeroPad(d.month, 2) + "-" + ZeroPad(d.day, 2)
  }

  /** The `HH:mm:ss` part. */
  function TimeText(d: DateFields): (s: string)
    ensures '.' !in s && 'Z' !in s
  {
    ZeroPad(d.hour, 2) + ":" + ZeroPad(d.minute, 2) + ":" + ZeroPad(d.second, 2)
  }

  /** Milliseconds below 1000 are printed as exactly three digits that read back as the milliseconds. */
  lemma SerializedMilliseconds(d: DateFields)
    requires d.millis < 1000
    ensures var s := Serialize(d);
            && |s| >= 5 && s[|s| - 5] == '.'
            && IsDigits(s[|s| - 4..|s| - 1]) && DecimalValue(s[|s| - 4..|s| - 1]) == d.millis
  {
    var ms := ZeroPad(d.millis, 3);
    assert |ms| == 3;
    var s := Serialize(d);
    assert s[|s| - 4..|s| - 1] == ms;
  }

  /** Normalising what `serialize` printed only turns its final `Z` into `+0000`. */
  lemma NormalizeSerialized(d: DateFields)
    requires d.millis < 1000
    ensures var s := Serialize(d);
            NormalizeDateText(s) == Ok(s[..|s| - 1] + UtcOffset)
  {
    NormalizeMillisText(DateTimeText(d), ZeroPad(d.millis, 3));
  }

  /** A dot- and `Z`-free head, a dot, three plain digits and a `Z`: only the `Z` is rewritten. */
  lemma NormalizeMillisText(head: string, ms: string)
    requires '.' !in head && 'Z' !in head
    requires |ms| == 3 && 'Z' !in ms && '.' !in ms
    ensures var s := head + "." + ms + "Z";
            NormalizeDateText(s) == Ok(s[..|s| - 1] + UtcOffset)
  {
    ReplaceFinalZulu(ms, "");
    assert ms + "" == ms;
    NormalizeWithFraction(head, ms + "Z");
    ReplaceCharAbsent(head, 'Z', UtcOffset);
    var s := head + "." + ms + "Z";
    assert s == head + "." + (ms + "Z");
    assert s[..|s| - 1] == head + "." + ms;
  }

  /** In a `Z`-free text followed by `Z`, only that last `Z` is replaced. */
  lemma ReplaceFinalZulu(m: string, r: string)
    requires 'Z' !in m
    ensures Replace(m + "Z", "Z", r) == m + r
  {
    ReplaceCharAppend(m, "Z", 'Z', r);
    ReplaceCharAbsent(m, 'Z', r);
    ReplaceCharStep("Z", 'Z', r);
    assert Replace("Z"[1..], "Z", r) == [];
  }
}

=== FILE: filter_requests.dfy ===
/**
  `ServiceFilterRequestImpl`: an outgoing request as an immutable record.
  The factory functions fix the method and normalise the body; the
  accessors and the header/url updates return a new record where the Java
  object replaces its `okhttp3.Request`.
 */
module FilterRequests {
  import opened Outcomes
  import opened JavaStrings
  import opened Utf8
  import opened ServiceTypes

  /** The method, URL, headers (in the order added) and body bytes (`null` is `None`). */
  datatype FilterRequest = FilterRequest(httpMethod: string, url: string, headers: seq<Header>, content: Option<seq<byte>>)

  /** The shared shape of `post`, `put` and `patch`: a `null` body is sent as zero bytes. */
  function WithBody(httpMethod: string, url: string, content: Option<seq<byte>>): (r: FilterRequest)
    ensures r.httpMethod == httpMethod && r.url == url && r.headers == []
    ensures r.content.Some?
    ensures content.Some? ==> r.content == content
    ensures content.None? ==> r.content == Some([])
  {
    FilterRequest(httpMethod, url, [], Some(content.GetOr([])))
  }

  function Post(url: string, content: Option<seq<byte>>): (r: FilterRequest)
    ensures r.httpMethod == PostMethod && r.url == url && r.headers == []
    ensures r.content.Some? && (content.Some? ==> r.content == content) && (content.None? ==> r.content == Some([]))
  {
    WithBody(PostMethod, url, content)
  }

  function Put(url: string, content: Option<seq<byte>>): (r: FilterRequest)
    ensures r.httpMethod == PutMethod && r.url == url && r.headers == []
    ensures r.content.Some? && (content.Some? ==> r.content == content) && (content.None? ==> r.content == Some([]))
  {
    WithBody(PutMethod, url, content)
  }

  function Patch(url: string, content: Option<seq<byte>>): (r: FilterRequest)
    ensures r.httpMethod == PatchMethod && r.url == url && r.headers == []
    ensures r.content.Some? && (content.Some? ==> r.content == content) && (content.None? ==> r.content == Some([]))
  {
    WithBody(PatchMethod, url, content)
  }

  /** `get`: no body is stored. */
  function Get(url: string): (r: FilterRequest)
    ensures r.httpMethod == GetMethod && r.url == url && r.headers == [] && r.content.None?
  {
    FilterRequest(GetMethod, url, [], None)
  }

  /** Three-argument `delete`: the body, `null` included, is kept as given. */
  function Delete(url: string, content: Option<seq<byte>>): (r: FilterRequest)
    ensures r.httpMethod == DeleteMethod && r.url == url && r.headers == [] && r.content == content
  {
    FilterRequest(DeleteMethod, url, [], content)
  }

  /** Two-argument `delete`: a bodyless DELETE, the same as `delete(url, null)`. */
  function DeleteWithoutBody(url: string): (r: FilterRequest)
    ensures r.httpMethod == DeleteMethod && r.url == url && r.headers == [] && r.content.None?
  {
    Delete(url, None)
  }

  /** `getContent`: the body decoded as UTF-8, `null` when there is no body. */
  function GetContent(r: FilterRequest): (s: Option<string>)
    ensures s.None? <==> r.content.None?
    ensures r.content.Some? ==> s == Some(Utf8.Decode(r.content.value))
  {
    match r.content
    case None => None
    case Some(bs) => Some(Utf8.Decode(bs))
  }

  /** `getRawContent`: the stored bytes, of which `getContent` is the UTF-8 decoding. */
  function GetRawContent(r: FilterRequest): (bs: Option<seq<byte>>)
    ensures GetContent(r) == if bs.None? then None else Some(Utf8.Decode(bs.value))
  {
    r.content
  }

  /** `getMethod`. */
  function GetMethodName(r: FilterRequest): string {
    r.httpMethod
  }

  /** `addHeader`: appends one header after the existing ones. */
  function AddHeader(r: FilterRequest, name: string, value: string): (r': FilterRequest)
    ensures r'.httpMethod == r.httpMethod && r'.url == r.url && r'.content == r.content
    ensures HeaderValue(r'.headers, name) == Some(value)
  {
    r.(headers := r.headers + [Header(name, value)])
  }

  /** `removeHeader`: no header of that name, in any case, is left. */
  function RemoveHeader(r: FilterRequest, name: string): (r': FilterRequest)
    ensures r'.httpMethod == r.httpMethod && r'.url == r.url && r'.content == r.content
    ensures HeaderValue(r'.headers, name).None?
  {
    HeaderValueMeaning(WithoutNamed(r.headers, name), name);
    r.(headers := WithoutNamed(r.headers, name))
  }

  /** `setUrl`: only the URL changes. */
  function SetUrl(r: FilterRequest, url: string): (r': FilterRequest)
    ensures r'.url == url
    ensures r'.httpMethod == r.httpMethod && r'.headers == r.headers && r'.content == r.content
  {
    r.(url := url)
  }

  // ---------------------------------------------------------------------
  // properties
  // ---------------------------------------------------------------------

  /** A body built from a string's UTF-8 bytes reads back as that string. */
  lemma ContentRoundTrip(url: string, s: string)
    ensures GetContent(Post(url, Some(Utf8.Encode(s)))) == Some(s)
    ensures GetContent(Put(url, Some(Utf8.Encode(s)))) == Some(s)
    ensures GetContent(Patch(url, Some(Utf8.Encode(s)))) == Some(s)
    ensures GetContent(Delete(url, Some(Utf8.Encode(s)))) == Some(s)
  {
    DecodeEncode(s);
  }

  /**
    What the getters read from a freshly built request: the factory's method,
    and the bytes it stored, so a `null` body reads back as `null` only for
    GET and DELETE.
   */
  lemma FactoriesReadBack(url: string, content: Option<seq<byte>>)
    ensures GetMethodName(Post(url, content)) == PostMethod && GetMethodName(Put(url, content)) == PutMethod
    ensures GetMethodName(Patch(url, content)) == PatchMethod && GetMethodName(Get(url)) == GetMethod
    ensures GetMethodName(Delete(url, content)) == DeleteMethod && GetMethodName(DeleteWithoutBody(url)) == DeleteMethod
    ensures GetRawContent(Post(url, content)) == GetRawContent(Put(url, content)) == GetRawContent(Patch(url, content))
         == Some(content.GetOr([]))
    ensures GetRawContent(Get(url)).None? && GetRawContent(Delete(url, content)) == content
    ensures DeleteWithoutBody(url) == Delete(url, None)
    ensures GetContent(Get(url)).None? && GetContent(DeleteWithoutBody(url)).None?
  {
  }

  /** Adding a header keeps every existing header in place and puts the new one last. */
  lemma AddHeaderAppends(r: FilterRequest, name: string, value: string)
    ensures |AddHeader(r, name, value).headers| == |r.headers| + 1
    ensures AddHeader(r, name, value).headers[..|r.headers|] == r.headers
    ensures AddHeader(r, name, value).headers[|r.headers|] == Header(name, value)
  {
  }

  /** Adding a header leaves what every other header name reads as it was. */
  lemma AddHeaderKeepsOthers(r: FilterRequest, name: string, value: string, other: string)
    requires !EqualsIgnoreCase(name, other)
    ensures HeaderValue(AddHeader(r, name, value).headers, other) == HeaderValue(r.headers, other)
  {
    var hs := AddHeader(r, name, value).headers;
    assert hs[..|hs| - 1] == r.headers;
  }

  /** Removing a header leaves what every other header name reads as it was. */
  lemma RemoveHeaderKeepsOthers(r: FilterRequest, name: string, other: string)
    requires !EqualsIgnoreCase(other, name)
    ensures HeaderValue(RemoveHeader(r, name).headers, other) == HeaderValue(r.headers, other)
  {
    HeaderValueWithout(r.headers, name, other);
  }

  /** Removing a header that is absent changes nothing. */
  lemma {:induction false} RemoveAbsentHeader(hs: seq<Header>, name: string)
    requires HeaderValue(hs, name).None?
    ensures WithoutNamed(hs, name) == hs
    decreases |hs|
  {
    if hs != [] {
      var init := hs[..|hs| - 1];
      assert !EqualsIgnoreCase(hs[|hs| - 1].name, name);
      RemoveAbsentHeader(init, name);
      assert init + [hs[|hs| - 1]] == hs;
    }
  }

  /** Adding a fresh header and removing it again restores the request. */
  lemma AddThenRemove(r: FilterRequest, name: string, value: string)
    requires HeaderValue(r.headers, name).None?
    ensures RemoveHeader(AddHeader(r, name, value), name) == r
  {
    var hs := r.headers + [Header(name, value)];
    assert hs[..|hs| - 1] == r.headers;
    RemoveAbsentHeader(r.headers, name);
  }
}

=== FILE: http_clients.dfy ===
/**
  `MobileServiceHttpClient`: validates a request's path and method, builds
  the URI, picks the request factory for the method, adds the features
  header and the caller's headers, and hands the request to the connection.
 */
module HttpClients {
  import opened Outcomes
  import opened JavaStrings
  import opened Utf8
  import opened ServiceTypes
  import opened FilterRequests
  import Connections

  const FeaturesHeader := "X-ZUMO-FEATURES"
  const PathRequiredMessage := "request path cannot be null"
  const MethodRequiredMessage := "httpMethod cannot be null"
  const MethodUnsupportedMessage := "httpMethod not supported"

  /** A request URI before rendering: the application URL with its path replaced and query parameters appended. */
  datatype RequestUri = RequestUri(appUrl: string, path: string, query: seq<Param>)

  /**
    What the request builder takes from the client: the application URL,
    `Uri.Builder`'s rendering of a URI to text, and
    `MobileServiceFeatures.featuresToString`. The latter two live in code
    outside this model and are taken as given functions.
   */
  datatype HttpContext = HttpContext(appUrl: string, renderUri: RequestUri -> string, featuresText: set<Feature> -> Option<string>)

  /** The arguments of the byte-array `request` overload (`null` is `None`). */
  datatype Call = Call(
    path: Option<string>,
    content: Option<seq<byte>>,
    httpMethod: Option<string>,
    headers: Option<seq<Header>>,
    parameters: Option<seq<Param>>,
    features: set<Feature>)

  // ---------------------------------------------------------------------
  // the pieces of `request`
  // ---------------------------------------------------------------------

  /** `uriBuilder.appendQueryParameter` for each parameter, in list order. */
  function AppendQueryParameters(u: RequestUri, ps: seq<Param>): (u': RequestUri)
    ensures u'.appUrl == u.appUrl && u'.path == u.path
    ensures u'.query == u.query + ps
    decreases |ps|
  {
    if ps == [] then u
    else AppendQueryParameters(u.(query := u.query + [ps[0]]), ps[1..])
  }

  /** The URI the request is sent to: path replaced, parameters (none when `null`) in order. */
  function BuildUri(appUrl: string, path: string, parameters: Option<seq<Param>>): (u: RequestUri)
    ensures u.appUrl == appUrl && u.path == path
    ensures parameters.None? ==> u.query == []
    ensures parameters.Some? ==> u.query == parameters.value
  {
    var base := RequestUri(appUrl, path, []);
    if parameters.Some? && |parameters.value| > 0 then AppendQueryParameters(base, parameters.value) else base
  }

  /** The method names `request` knows, in the order it tries them. */
  predicate IsSupportedMethod(httpMethod: string) {
    || EqualsIgnoreCase(httpMethod, GetMethod)
    || EqualsIgnoreCase(httpMethod, PostMethod)
    || EqualsIgnoreCase(httpMethod, PutMethod)
    || EqualsIgnoreCase(httpMethod, PatchMethod)
    || EqualsIgnoreCase(httpMethod, DeleteMethod)
  }

  /** The body each factory stores: none for GET, `null` turned into zero bytes for POST/PUT/PATCH, as given for DELETE. */
  function StoredBody(httpMethod: string, content: Option<seq<byte>>): Option<seq<byte>> {
    if httpMethod == GetMethod then None
    else if httpMethod == DeleteMethod then content
    else Some(content.GetOr([]))
  }

  /** The factory chosen for a method name, compared ignoring case; `None` for any other name. */
  function DispatchMethod(httpMethod: string, url: string, content: Option<seq<byte>>): (r: Option<FilterRequest>)
    ensures r.Some? <==> IsSupportedMethod(httpMethod)
    ensures r.Some? ==> EqualsIgnoreCase(httpMethod, r.value.httpMethod) && r.value.url == url && r.value.headers == []
    ensures r.Some? ==> r.value.httpMethod in {GetMethod, PostMethod, PutMethod, PatchMethod, DeleteMethod}
    ensures r.Some? ==> r.value.content == StoredBody(r.value.httpMethod, content)
  {
    if EqualsIgnoreCase(httpMethod, GetMethod) then Some(Get(url))
    else if EqualsIgnoreCase(httpMethod, PostMethod) then Some(Post(url, content))
    else if EqualsIgnoreCase(httpMethod, PutMethod) then Some(Put(url, content))
    else if EqualsIgnoreCase(httpMethod, PatchMethod) then Some(Patch(url, content))
    else if EqualsIgnoreCase(httpMethod, DeleteMethod) then Some(Delete(url, content))
    else None
  }

  /** Whether a header list already carries the features header (compared with `equals`, so case-sensitively). */
  predicate ContainsFeatures(hs: seq<Header>) {
    CountNamed(hs, FeaturesHeader) > 0
  }

  /**
    The header list after the features step: with no features text the
    caller's list (possibly `null`) is used as is; otherwise a list that does
    not yet name the features header gets it appended, in a copy.
   */
  function HeadersWithFeatures(requestHeaders: Option<seq<Header>>, featuresText: Option<string>): (hs: Option<seq<Header>>)
    ensures featuresText.None? ==> hs == requestHeaders
    ensures featuresText.Some? ==> hs.Some?
    ensures requestHeaders.Some? ==> hs.Some? && |requestHeaders.value| <= |hs.value| && hs.value[..|requestHeaders.value|] == requestHeaders.value
    ensures hs.Some? ==> |hs.value| <= |requestHeaders.GetOr([])| + 1
    ensures featuresText.Some? && ContainsFeatures(requestHeaders.GetOr([])) ==> hs == Some(requestHeaders.GetOr([]))
    ensures featuresText.Some? && !ContainsFeatures(requestHeaders.GetOr([])) ==>
              hs == Some(requestHeaders.GetOr([]) + [Header(FeaturesHeader, featuresText.value)])
  {
    if featuresText.None? then requestHeaders
    else
      var base := requestHeaders.GetOr([]);
      if ContainsFeatures(base) then Some(base)
      else Some(base + [Header(FeaturesHeader, featuresText.value)])
  }

  /** `request.addHeader` for each header, in list order. */
  function AddHeaders(r: FilterRequest, hs: seq<Header>): (r': FilterRequest)
    ensures r'.httpMethod == r.httpMethod && r'.url == r.url && r'.content == r.content
    ensures r'.headers == r.headers + hs
    decreases |hs|
  {
    if hs == [] then r
    else
      var next := AddHeader(r, hs[0].name, hs[0].value);
      assert next.headers == r.headers + [hs[0]];
      AddHeaders(next, hs[1..])
  }

  // ---------------------------------------------------------------------
  // the three `request` overloads
  // ---------------------------------------------------------------------

  /** The byte-array `request` with features: the request it builds, or the error it reports. */
  function Request(ctx: HttpContext, call: Call): (r: Result<FilterRequest, Failure>)
    ensures (call.path.None? || IsBlank(call.path.value)) ==> r == Err(IllegalArgument(PathRequiredMessage))
    ensures (call.path.Some? && !IsBlank(call.path.value) && (call.httpMethod.None? || IsBlank(call.httpMethod.value)))
              ==> r == Err(IllegalArgument(MethodRequiredMessage))
    ensures (call.path.Some? && !IsBlank(call.path.value) && call.httpMethod.Some? && !IsBlank(call.httpMethod.value))
              ==> (r.Ok? <==> IsSupportedMethod(call.httpMethod.value))
    ensures r.Err? ==> r.error.IllegalArgument?
    ensures r.Ok? ==>
              && call.path.Some? && call.httpMethod.Some?
              && r.value.url == ctx.renderUri(RequestUri(ctx.appUrl, call.path.value, call.parameters.GetOr([])))
              && EqualsIgnoreCase(call.httpMethod.value, r.value.httpMethod)
              && r.value.httpMethod in {GetMethod, PostMethod, PutMethod, PatchMethod, DeleteMethod}
              && r.value.content == StoredBody(r.value.httpMethod, call.content)
              && r.value.headers == HeadersWithFeatures(call.headers, ctx.featuresText(call.features)).GetOr([])
  {
    if call.path.None? || IsBlank(call.path.value) then Err(IllegalArgument(PathRequiredMessage))
    else if call.httpMethod.None? || IsBlank(call.httpMethod.value) then Err(IllegalArgument(MethodRequiredMessage))
    else
      match Dispatched(ctx, call, call.path.value, call.httpMethod.value)
      case None => Err(IllegalArgument(MethodUnsupportedMessage))
      case Some(request) => Ok(request)
  }

  /** The part of `request` after its argument checks: the request for a supported method, with the features step's headers added. */
  function Dispatched(ctx: HttpContext, call: Call, path: string, httpMethod: string): (r: Option<FilterRequest>)
    ensures r.Some? <==> IsSupportedMethod(httpMethod)
    ensures r.Some? ==>
              && r.value.url == ctx.renderUri(RequestUri(ctx.appUrl, path, call.parameters.GetOr([])))
              && EqualsIgnoreCase(httpMethod, r.value.httpMethod)
              && r.value.httpMethod in {GetMethod, PostMethod, PutMethod, PatchMethod, DeleteMethod}
              && r.value.content == StoredBody(r.value.httpMethod, call.content)
              && r.value.headers == HeadersWithFeatures(call.headers, ctx.featuresText(call.features)).GetOr([])
  {
    var url := ctx.renderUri(BuildUri(ctx.appUrl, path, call.parameters));
    match DispatchMethod(httpMethod, url, call.content)
    case None => None
    case Some(request) =>
      var headers := HeadersWithFeatures(call.headers, ctx.featuresText(call.features));
      if headers.Some? && |headers.value| > 0 then Some(AddHeaders(request, headers.value)) else Some(request)
  }

  /**
    The byte-array `request` without features: the same checks, in the same
    order, as the overload with features, and with no features text the
    caller's headers exactly.
   */
  function RequestWithoutFeatures(ctx: HttpContext, path: Option<string>, content: Option<seq<byte>>, httpMethod: Option<string>,
                                  headers: Option<seq<Header>>, parameters: Option<seq<Param>>): (r: Result<FilterRequest, Failure>)
    ensures (path.None? || IsBlank(path.value)) ==> r == Err(IllegalArgument(PathRequiredMessage))
    ensures (path.Some? && !IsBlank(path.value) && (httpMethod.None? || IsBlank(httpMethod.value)))
              ==> r == Err(IllegalArgument(MethodRequiredMessage))
    ensures (path.Some? && !IsBlank(path.value) && httpMethod.Some? && !IsBlank(httpMethod.value))
              ==> (r.Ok? <==> IsSupportedMethod(httpMethod.value))
    ensures r.Ok? ==> r.value.content == StoredBody(r.value.httpMethod, content)
    ensures r.Ok? && ctx.featuresText({}).None? ==> r.value.headers == headers.GetOr([])
  {
    Request(ctx, Call(path, content, httpMethod, headers, parameters, {}))
  }

  /** The string `request`: the text is sent as its UTF-8 bytes, `null` as `null`. */
  function TextCall(path: Option<string>, content: Option<string>, httpMethod: Option<string>,
                    headers: Option<seq<Header>>, parameters: Option<seq<Param>>, features: set<Feature>): (c: Call)
    ensures content.None? <==> c.content.None?
    ensures content.Some? ==> c.content == Some(Utf8.Encode(content.value)) && Utf8.Decode(c.content.value) == content.value
    ensures c.path == path && c.httpMethod == httpMethod && c.headers == headers && c.parameters == parameters && c.features == features
  {
    var bytes := if content.Some? then Some(Utf8.Encode(content.value)) else None;
    assert content.Some? ==> Utf8.Decode(Utf8.Encode(content.value)) == content.value by {
      if content.Some? {
        DecodeEncode(content.value);
      }
    }
    Call(path, bytes, httpMethod, headers, parameters, features)
  }

  /** Everything a client needs to send a call: the request builder's context, the application key and the transport. */
  datatype Transport = Transport(http: HttpContext, appKey: Option<string>, execute: FilterRequest -> Executed)

  /** The transport answers the configured request a call builds with a 2xx `response`. */
  predicate Answered(t: Transport, call: Call, response: Response) {
    && Request(t.http, call).Ok?
    && t.execute(Connections.ConfigureHeaders(Request(t.http, call).value, t.appKey)) == Returned(response)
    && Connections.IsSuccessStatus(response.status)
  }

  /**
    `MobileServiceHttpClient.request` followed by `Request.create`: a call
    the builder refuses fails with its error; otherwise the answer is the
    transport's 2xx response to the configured request, and every other
    outcome is a `MobileServiceException`.
   */
  function Exchange(t: Transport, call: Call): (r: Result<Response, Failure>)
    ensures Request(t.http, call).Err? ==> r == Err(Request(t.http, call).error)
    ensures r.Ok? ==> Answered(t, call, r.value)
    ensures Request(t.http, call).Ok? ==>
              var e := t.execute(Connections.ConfigureHeaders(Request(t.http, call).value, t.appKey));
              && (e.Returned? && Connections.IsSuccessStatus(e.response.status) ==> r == Ok(e.response))
              && (e.Returned? && !Connections.IsSuccessStatus(e.response.status) ==> r == Err(Connections.StatusFailure(e.response)))
              && (e.Threw? ==> r.Err? && IsServiceException(r.error))
  {
    match Request(t.http, call)
    case Err(e) => Err(e)
    case Ok(request) => Connections.Create(request, t.appKey, t.execute)
  }

  // ---------------------------------------------------------------------
  // properties
  // ---------------------------------------------------------------------

  /** The features header is added once at most: a list that has it keeps its count, one that lacks it gains exactly one. */
  lemma FeaturesHeaderCount(requestHeaders: Option<seq<Header>>, featuresText: Option<string>)
    requires featuresText.Some?
    ensures var before := CountNamed(requestHeaders.GetOr([]), FeaturesHeader);
            var after := CountNamed(HeadersWithFeatures(requestHeaders, featuresText).value, FeaturesHeader);
            after == (if before == 0 then 1 else before)
  {
  }

  /** The features check compares names case-sensitively, so a lower-case copy gets a second, upper-case header. */
  lemma FeaturesCheckIsCaseSensitive(text: string)
    ensures var caller := [Header("x-zumo-features", "TU")];
            var hs := HeadersWithFeatures(Some(caller), Some(text)).value;
            && |hs| == 2
            && EqualsIgnoreCase(hs[0].name, FeaturesHeader) && EqualsIgnoreCase(hs[1].name, FeaturesHeader)
  {
    var lower := "x-zumo-features";
    var caller := [Header(lower, "TU")];
    assert lower[0] != FeaturesHeader[0];
    assert CountNamed(caller, FeaturesHeader) == 0 by {
      assert caller[..0] == [];
    }
    var hs := caller + [Header(FeaturesHeader, text)];
    assert HeadersWithFeatures(Some(caller), Some(text)) == Some(hs);
    assert EqualsIgnoreCase(lower, FeaturesHeader) by {
      forall i | 0 <= i < |lower|
        ensures UpperAscii(lower[i]) == UpperAscii(FeaturesHeader[i])
      {
        assert FeaturesHeader[i] == UpperAscii(lower[i]);
      }
    }
  }

  /** The string overload's body reads back, through `getContent`, as the text passed in. */
  lemma TextContentReadsBack(ctx: HttpContext, path: string, content: string, httpMethod: string,
                             headers: Option<seq<Header>>, parameters: Option<seq<Param>>, features: set<Feature>)
    requires Request(ctx, TextCall(Some(path), Some(content), Some(httpMethod), headers, parameters, features)).Ok?
    requires !EqualsIgnoreCase(httpMethod, GetMethod)
    ensures GetContent(Request(ctx, TextCall(Some(path), Some(content), Some(httpMethod), headers, parameters, features)).value)
         == Some(content)
  {
    DecodeEncode(content);
  }
}

=== FILE: java_strings.dfy ===
/**
  The java.lang.String operations the client relies on, stated over Dafny
  strings: `trim`, blank tests, `equalsIgnoreCase`, `replace`, `split` with a
  one-character separator, and decimal rendering of integers.
 */
module JavaStrings {

  // ---------------------------------------------------------------------
  // trim() and blank tests
  // ---------------------------------------------------------------------

  /** `String.trim` removes every code point up to and including U+0020. */
  predicate IsTrimmable(c: char) {
    c <= ' '
  }

  /** Drops the leading trimmable characters. */
  function TrimStart(s: string): (r: string)
    ensures |r| <= |s| && r == s[|s| - |r|..]
    ensures r != [] ==> !IsTrimmable(r[0])
    ensures forall i :: 0 <= i < |s| - |r| ==> IsTrimmable(s[i])
    decreases |s|
  {
    if s != [] && IsTrimmable(s[0]) then TrimStart(s[1..]) else s
  }

  /** Drops the trailing trimmable characters. */
  function TrimEnd(s: string): (r: string)
    ensures |r| <= |s| && r == s[..|r|]
    ensures r != [] ==> !IsTrimmable(r[|r| - 1])
    ensures forall i :: |r| <= i < |s| ==> IsTrimmable(s[i])
    decreases |s|
  {
    if s != [] && IsTrimmable(s[|s| - 1]) then TrimEnd(s[..|s| - 1]) else s
  }

  /** `String.trim()`. */
  function Trim(s: string): string {
    TrimEnd(TrimStart(s))
  }

  /**
    `s.trim().equals("")`, equivalently `s.trim().length() == 0`: the string
    holds nothing but trimmable characters.
   */
  predicate IsBlank(s: string)
    ensures IsBlank(s) <==> forall i :: 0 <= i < |s| ==> IsTrimmable(s[i])
  {
    TrimStartEmpty(s);
    TrimEndEmpty(TrimStart(s));
    Trim(s) == []
  }

  /** `TrimStart` leaves nothing exactly when every character is trimmable. */
  lemma TrimStartEmpty(s: string)
    ensures TrimStart(s) == [] <==> forall i :: 0 <= i < |s| ==> IsTrimmable(s[i])
  {
    var t := TrimStart(s);
    if t != [] {
      assert t[0] == s[|s| - |t|];
    }
  }

  /** `TrimEnd` leaves nothing exactly when every character is trimmable. */
  lemma TrimEndEmpty(s: string)
    ensures TrimEnd(s) == [] <==> forall i :: 0 <= i < |s| ==> IsTrimmable(s[i])
  {
    var t := TrimEnd(s);
    if t != [] {
      assert t[|t| - 1] == s[|t| - 1];
    }
  }

  // ---------------------------------------------------------------------
  // equalsIgnoreCase
  // ---------------------------------------------------------------------

  /** Upper-case mapping of the ASCII letters; every other character is kept. */
  function UpperAscii(c: char): char {
    if 'a' <= c <= 'z' then (c as int - 32) as char else c
  }

  /** `String.equalsIgnoreCase`, with case folding restricted to ASCII. */
  predicate EqualsIgnoreCase(a: string, b: string) {
    |a| == |b| && forall i :: 0 <= i < |a| ==> UpperAscii(a[i]) == UpperAscii(b[i])
  }

  // ---------------------------------------------------------------------
  // replace(CharSequence, CharSequence)
  // ---------------------------------------------------------------------

  /**
    `s.replace(target, replacement)`: scans left to right and replaces every
    non-overlapping occurrence of `target`.
   */
  function Replace(s: string, target: string, replacement: string): string
    requires target != []
    decreases |s|
  {
    if |s| < |target| then s
    else if s[..|target|] == target then replacement + Replace(s[|target|..], target, replacement)
    else [s[0]] + Replace(s[1..], target, replacement)
  }

  /** One step of replacing a single character. */
  lemma ReplaceCharStep(s: string, c: char, r: string)
    requires s != []
    ensures Replace(s, [c], r) == (if s[0] == c then r else [s[0]]) + Replace(s[1..], [c], r)
  {
    assert s[..1] == [c] <==> s[0] == c;
  }

  /** A character that does not occur is never replaced. */
  lemma {:induction false} ReplaceCharAbsent(s: string, c: char, r: string)
    requires c !in s
    ensures Replace(s, [c], r) == s
    decreases |s|
  {
    if s != [] {
      ReplaceCharStep(s, c, r);
      ReplaceCharAbsent(s[1..], c, r);
    }
  }

  /** After replacing `c` by a text without `c`, no `c` remains. */
  lemma {:induction false} ReplaceCharRemoves(s: string, c: char, r: string)
    requires c !in r
    ensures c !in Replace(s, [c], r)
    decreases |s|
  {
    if s != [] {
      ReplaceCharStep(s, c, r);
      ReplaceCharRemoves(s[1..], c, r);
    }
  }

  /** Replacing a single character distributes over concatenation. */
  lemma {:induction false} ReplaceCharAppend(a: string, b: string, c: char, r: string)
    ensures Replace(a + b, [c], r) == Replace(a, [c], r) + Replace(b, [c], r)
    decreases |a|
  {
    if a != [] {
      ReplaceCharStep(a + b, c, r);
      ReplaceCharStep(a, c, r);
      assert (a + b)[0] == a[0];
      assert (a + b)[1..] == a[1..] + b;
      ReplaceCharAppend(a[1..], b, c, r);
      var head := if a[0] == c then r else [a[0]];
      calc {
        Replace(a + b, [c], r);
        head + Replace(a[1..] + b, [c], r);
        head + (Replace(a[1..], [c], r) + Replace(b, [c], r));
        (head + Replace(a[1..], [c], r)) + Replace(b, [c], r);
      }
    } else {
      assert a + b == b;
    }
  }

  /** Two successive replacements of the same character compose into one. */
  lemma {:induction false} ReplaceCharTwice(s: string, c: char, r1: string, r2: string)
    ensures Replace(Replace(s, [c], r1), [c], r2) == Replace(s, [c], Replace(r1, [c], r2))
    decreases |s|
  {
    if s != [] {
      ReplaceCharStep(s, c, r1);
      ReplaceCharStep(s, c, Replace(r1, [c], r2));
      var head := if s[0] == c then r1 else [s[0]];
      ReplaceCharAppend(head, Replace(s[1..], [c], r1), c, r2);
      if s[0] != c {
        ReplaceCharAbsent([s[0]], c, r2);
      }
      ReplaceCharTwice(s[1..], c, r1, r2);
    }
  }

  /**
    A text ending in `target` whose earlier part never contains the first
    character of `target` loses exactly that ending.
   */
  lemma {:induction false} ReplaceTrailingTarget(u: string, target: string, r: string)
    requires target != []
    requires target[0] !in u
    ensures Replace(u + target, target, r) == u + r
    decreases |u|
  {
    var s := u + target;
    if u == [] {
      assert s == target;
      assert s[..|target|] == target;
      assert s[|target|..] == [];
      assert Replace(s, target, r) == r + Replace([], target, r);
    } else {
      assert s[0] == u[0] && s[0] != target[0];
      assert s[..|target|][0] == s[0];
      assert s[..|target|] != target;
      assert s[1..] == u[1..] + target;
      assert Replace(s, target, r) == [s[0]] + Replace(s[1..], target, r);
      ReplaceTrailingTarget(u[1..], target, r);
      assert [u[0]] + u[1..] == u;
    }
  }

  // ---------------------------------------------------------------------
  // split on a one-character separator
  // ---------------------------------------------------------------------

  /** Every piece between separators, empty pieces included. */
  function SplitAll(s: string, d: char): (parts: seq<string>)
    ensures |parts| >= 1
    ensures forall i :: 0 <= i < |parts| ==> d !in parts[i]
    decreases |s|
  {
    if s == [] then [[]]
    else
      var rest := SplitAll(s[1..], d);
      if s[0] == d then [[]] + rest
      else [[s[0]] + rest[0]] + rest[1..]
  }

  /** Glues pieces back together with the separator: the inverse of `SplitAll`. */
  function Join(parts: seq<string>, d: char): string
    requires |parts| >= 1
    decreases |parts|
  {
    if |parts| == 1 then parts[0] else parts[0] + [d] + Join(parts[1..], d)
  }

  /** Splitting and re-joining gives back the original text. */
  lemma {:induction false} JoinSplit(s: string, d: char)
    ensures Join(SplitAll(s, d), d) == s
    decreases |s|
  {
    if s != [] {
      var rest := SplitAll(s[1..], d);
      JoinSplit(s[1..], d);
      if s[0] == d {
        assert ([[]] + rest)[1..] == rest;
      } else {
        var parts := [[s[0]] + rest[0]] + rest[1..];
        if |rest| > 1 {
          assert parts[1..] == rest[1..];
        }
      }
    }
  }

  /** A text without the separator is a single piece. */
  lemma {:induction false} SplitAllNoSeparator(a: string, d: char)
    requires d !in a
    ensures SplitAll(a, d) == [a]
    decreases |a|
  {
    if a != [] {
      SplitAllNoSeparator(a[1..], d);
      assert [a[0]] + a[1..] == a;
    }
  }

  /** The first separator ends the first piece. */
  lemma {:induction false} SplitAllAtFirstSeparator(a: string, b: string, d: char)
    requires d !in a
    ensures SplitAll(a + [d] + b, d) == [a] + SplitAll(b, d)
    decreases |a|
  {
    var s := a + [d] + b;
    if a == [] {
      assert s[1..] == b;
    } else {
      assert s[1..] == a[1..] + [d] + b;
      SplitAllAtFirstSeparator(a[1..], b, d);
      assert [a[0]] + a[1..] == a;
    }
  }

  /** Pieces free of the separator survive a join followed by a split. */
  lemma {:induction false} SplitJoin(parts: seq<string>, d: char)
    requires |parts| >= 1
    requires forall i :: 0 <= i < |parts| ==> d !in parts[i]
    ensures SplitAll(Join(parts, d), d) == parts
    decreases |parts|
  {
    if |parts| == 1 {
      SplitAllNoSeparator(parts[0], d);
    } else {
      SplitAllAtFirstSeparator(parts[0], Join(parts[1..], d), d);
      SplitJoin(parts[1..], d);
    }
  }

  predicate AllEmpty(ps: seq<string>) {
    forall i :: 0 <= i < |ps| ==> ps[i] == []
  }

  predicate OnlyChar(s: string, d: char) {
    forall i :: 0 <= i < |s| ==> s[i] == d
  }

  /** All pieces are empty exactly when the text is nothing but separators. */
  lemma {:induction false} SplitAllEmptyPieces(s: string, d: char)
    ensures AllEmpty(SplitAll(s, d)) <==> OnlyChar(s, d)
    decreases |s|
  {
    if s != [] {
      SplitAllEmptyPieces(s[1..], d);
      var rest := SplitAll(s[1..], d);
      if s[0] == d {
        var parts := [[]] + rest;
        assert SplitAll(s, d) == parts;
        if forall i :: 0 <= i < |rest| ==> rest[i] == [] {
          forall i | 0 <= i < |parts| ensures parts[i] == [] {
            if i > 0 { assert parts[i] == rest[i - 1]; }
          }
        }
        if forall i :: 0 <= i < |parts| ==> parts[i] == [] {
          forall i | 0 <= i < |rest| ensures rest[i] == [] {
            assert parts[i + 1] == rest[i];
          }
        }
        if forall i :: 0 <= i < |s[1..]| ==> s[1..][i] == d {
          forall i | 0 <= i < |s| ensures s[i] == d {
            if i > 0 { assert s[i] == s[1..][i - 1]; }
          }
        }
      } else {
        assert SplitAll(s, d)[0] != [];
      }
    }
  }

  /** Removes the empty pieces at the end (what `split` does with limit 0). */
  function DropTrailingEmpty(ps: seq<string>): (r: seq<string>)
    ensures |r| <= |ps| && r == ps[..|r|]
    ensures r != [] ==> r[|r| - 1] != []
    ensures forall i :: |r| <= i < |ps| ==> ps[i] == []
    ensures r == [] <==> forall i :: 0 <= i < |ps| ==> ps[i] == []
    decreases |ps|
  {
    if ps != [] && ps[|ps| - 1] == [] then DropTrailingEmpty(ps[..|ps| - 1]) else ps
  }

  /**
    `s.split(regex)` where the regex matches one literal character `d`:
    a text without `d` yields itself as the only piece (even when empty);
    otherwise the pieces between separators, trailing empty pieces removed.
   */
  function JavaSplit(s: string, d: char): (parts: seq<string>)
    ensures forall i :: 0 <= i < |parts| ==> d !in parts[i]
  {
    if d !in s then [s] else DropTrailingEmpty(SplitAll(s, d))
  }

  /** `split` returns no piece at all exactly for a non-empty run of separators. */
  lemma JavaSplitEmptyIff(s: string, d: char)
    ensures JavaSplit(s, d) == [] <==> (s != [] && forall i :: 0 <= i < |s| ==> s[i] == d)
  {
    if d in s {
      SplitAllEmptyPieces(s, d);
      var ps := SplitAll(s, d);
      var r := DropTrailingEmpty(ps);
      assert JavaSplit(s, d) == r;
      assert r == [] <==> forall i :: 0 <= i < |ps| ==> ps[i] == [];
      assert AllEmpty(ps) <==> OnlyChar(s, d);
      assert s != [];
    } else if s != [] {
      assert s[0] != d;
    }
  }

  /** A separator splits the text into the pieces before it followed by the pieces after it. */
  lemma {:induction false} SplitAllConcat(a: string, b: string, d: char)
    ensures SplitAll(a + [d] + b, d) == SplitAll(a, d) + SplitAll(b, d)
    decreases |a|
  {
    var s := a + [d] + b;
    if a == [] {
      assert s[0] == d && s[1..] == b;
    } else {
      assert s[0] == a[0] && s[1..] == a[1..] + [d] + b;
      SplitAllConcat(a[1..], b, d);
      if a[0] != d {
        SplitAllHeadJoins(a[0], SplitAll(a[1..], d), SplitAll(b, d));
      }
    }
  }

  /** Gluing a character onto the first piece commutes with appending more pieces. */
  lemma SplitAllHeadJoins(c: char, tail: seq<string>, more: seq<string>)
    requires |tail| >= 1
    ensures [[c] + (tail + more)[0]] + (tail + more)[1..] == ([[c] + tail[0]] + tail[1..]) + more
  {
    assert (tail + more)[0] == tail[0];
    assert (tail + more)[1..] == tail[1..] + more;
  }

  /** Dropping trailing empty pieces stops at the last non-empty one. */
  lemma {:induction false} DropTrailingEmptyAfter(ps: seq<string>, q: string, empties: seq<string>)
    requires q != [] && AllEmpty(empties)
    ensures DropTrailingEmpty(ps + [q] + empties) == ps + [q]
    decreases |empties|
  {
    if empties != [] {
      var all := ps + [q] + empties;
      assert all[|all| - 1] == empties[|empties| - 1] == [];
      assert all[..|all| - 1] == ps + [q] + empties[..|empties| - 1];
      DropTrailingEmptyAfter(ps, q, empties[..|empties| - 1]);
    } else {
      assert ps + [q] + empties == ps + [q];
    }
  }

  /** A separator-free non-empty piece followed by separators splits into that piece and empty ones. */
  lemma SplitAllPieceThenSeparators(last: string, trailing: string, d: char)
    requires d !in last && last != [] && OnlyChar(trailing, d)
    ensures var ps := SplitAll(last + trailing, d);
            ps[0] == last && AllEmpty(ps[1..])
  {
    SplitAllNoSeparator(last, d);
    if trailing == [] {
      assert last + trailing == last;
    } else {
      assert last + trailing == last + [d] + trailing[1..];
      SplitAllConcat(last, trailing[1..], d);
      SplitAllEmptyPieces(trailing[1..], d);
      assert SplitAll(last + trailing, d)[1..] == SplitAll(trailing[1..], d);
    }
  }

  /** Text that is empty or ends in a separator contributes its own pieces, and the rest follows. */
  lemma SplitAllAfterSeparator(middle: string, rest: string, d: char)
    requires middle == [] || middle[|middle| - 1] == d
    ensures SplitAll(middle + rest, d) == (if middle == [] then [] else SplitAll(middle[..|middle| - 1], d)) + SplitAll(rest, d)
  {
    if middle == [] {
      assert middle + rest == rest;
    } else {
      assert middle + rest == middle[..|middle| - 1] + [d] + rest;
      SplitAllConcat(middle[..|middle| - 1], rest, d);
    }
  }

  /**
    Where `split` starts and ends: for a text made of a separator-free head,
    the separator, anything that ends in a separator (or nothing), a
    separator-free non-empty piece and a run of separators, the first piece
    is the head and the last is that piece; there are at least two.
   */
  lemma JavaSplitFirstAndLast(head: string, middle: string, last: string, trailing: string, d: char)
    requires d !in head && d !in last && last != [] && OnlyChar(trailing, d)
    requires middle == [] || middle[|middle| - 1] == d
    ensures var ps := JavaSplit(head + [d] + middle + last + trailing, d);
            |ps| >= 2 && ps[0] == head && ps[|ps| - 1] == last
  {
    var lt := last + trailing;
    var rest := middle + lt;
    var s := head + [d] + rest;
    assert head + [d] + middle + last + trailing == s;
    assert s[|head|] == d;
    var tail := SplitAll(lt, d);
    SplitAllPieceThenSeparators(last, trailing, d);
    var before: seq<string> := if middle == [] then [] else SplitAll(middle[..|middle| - 1], d);
    SplitAllAfterSeparator(middle, lt, d);
    SplitAllAtFirstSeparator(head, rest, d);
    assert SplitAll(s, d) == ([head] + before) + [last] + tail[1..];
    DropTrailingEmptyAfter([head] + before, last, tail[1..]);
  }

  /** A text with exactly one separator and a non-empty tail splits into two pieces. */
  lemma JavaSplitTwoPieces(a: string, b: string, d: char)
    requires d !in a && d !in b && b != []
    ensures JavaSplit(a + [d] + b, d) == [a, b]
  {
    var s := a + [d] + b;
    assert s[|a|] == d;
    SplitAllAtFirstSeparator(a, b, d);
    SplitAllNoSeparator(b, d);
  }

  // ---------------------------------------------------------------------
  // decimal rendering (Long.toString, String.format("%d"))
  // ---------------------------------------------------------------------

  predicate IsDigit(c: char) {
    '0' <= c <= '9'
  }

  predicate IsDigits(s: string) {
    forall i :: 0 <= i < |s| ==> IsDigit(s[i])
  }

  function DigitChar(n: nat): char
    requires n < 10
  {
    ('0' as int + n) as char
  }

  function DigitValue(c: char): nat
    requires IsDigit(c)
  {
    c as int - '0' as int
  }

  /** The value a string of decimal digits denotes. */
  function DecimalValue(s: string): nat
    requires IsDigits(s)
    decreases |s|
  {
    if s == [] then 0 else DecimalValue(s[..|s| - 1]) * 10 + DigitValue(s[|s| - 1])
  }

  /** Decimal digits of `n`, without leading zeros. */
  function NatToString(n: nat): (s: string)
    ensures |s| >= 1 && IsDigits(s)
    ensures s[0] == '0' ==> n == 0
    decreases n
  {
    if n < 10 then [DigitChar(n)] else NatToString(n / 10) + [DigitChar(n % 10)]
  }

  /** Decimal rendering of any integer, with a leading '-' when negative. */
  function IntToString(i: int): (s: string)
    ensures |s| >= 1
    ensures s[0] == '-' <==> i < 0
    ensures i >= 0 ==> IsDigits(s)
  {
    if i < 0 then "-" + NatToString(-i) else NatToString(i)
  }

  /** Rendering then reading back the digits gives the number again. */
  lemma {:induction false} DecimalRoundTrip(n: nat)
    ensures DecimalValue(NatToString(n)) == n
    decreases n
  {
    if n >= 10 {
      var s := NatToString(n);
      assert s[..|s| - 1] == NatToString(n / 10);
      DecimalRoundTrip(n / 10);
    }
  }

  /** Leading zeros do not change the value. */
  lemma {:induction false} DecimalLeadingZero(s: string)
    requires IsDigits(s)
    ensures IsDigits("0" + s) && DecimalValue("0" + s) == DecimalValue(s)
    decreases |s|
  {
    if s != [] {
      var z := "0" + s;
      assert z[..|z| - 1] == "0" + s[..|s| - 1];
      DecimalLeadingZero(s[..|s| - 1]);
    }
  }
}

=== FILE: json_model.dfy ===
/**
  The JSON values the client exchanges with the service (Gson's
  `JsonElement` tree). Object members are keyed by name; member order only
  matters for serialisation, which is outside this model.
 */
module JsonModel {

  datatype Json =
    | JNull
    | JBool(b: bool)
    | JNumber(n: int)
    | JString(s: string)
    | JArray(items: seq<Json>)
    | JObject(members: map<string, Json>)

  /** Gson's `JsonObject`. */
  type JsonObject = map<string, Json>

  /** Two's-complement truncation to 32 bits (Java `Number.intValue()` of an integral value). */
  function ToInt32(n: int): (r: int)
    ensures -0x8000_0000 <= r < 0x8000_0000
    ensures (r - n) % 0x1_0000_0000 == 0
    ensures -0x8000_0000 <= n < 0x8000_0000 ==> r == n
  {
    var m := n % 0x1_0000_0000;
    if m >= 0x8000_0000 then m - 0x1_0000_0000 else m
  }
}

=== FILE: json_tables.dfy ===
/**
  `MobileServiceJsonTable`: the untyped table. Each write builds one table
  call (path, body, method, headers, query parameters, features), sends it
  through the HTTP client and folds the answer back into the item; reads
  build a query URL, send a GET and wrap paged answers in a `nextLink`
  envelope.

  What the table inherits from its base class and what Gson, `URLEncoder`
  and `QueryODataWriter` compute lives outside this model; `TableContext`
  carries it as given values and functions.
 */
module JsonTables {
  import opened Outcomes
  import opened JavaStrings
  import opened JsonModel
  import opened ServiceTypes
  import opened FilterRequests
  import opened HttpClients
  import Connections

  /** The path prefix of every table request (the base class's `TABLES_URL`). */
  const TablesUrl := "tables/"
  const IfMatchHeader := "If-Match"
  const ETagHeader := "ETag"
  const LinkHeader := "Link"
  const NextLinkSuffix := "; rel=next"
  const NextLinkProperty := "nextLink"
  const ResultsProperty := "results"
  const QueryRequiredMessage := "Query must not be null"
  const RetrieveErrorMessage := "Error while retrieving data from response."

  /** The id spellings `validateIdOnInsert` looks for, in the order it tries them. */
  const IdProperties: seq<string> := ["id", "Id", "iD", "ID"]

  /** What `validateId` returns: a string id, or a numeric (`long`) one. */
  datatype IdValue = StringId(s: string) | NumericId(n: int)

  /**
    The table's own state and what it takes from its base class: the table
    name, its feature set, the version property's name, and the helpers for
    ids, system properties, ETags, patching the item with the server's copy
    and translating HTTP failures.
   */
  datatype TableContext = TableContext(
    name: string,
    features: set<Feature>,
    versionProperty: string,
    addSystemProperties: Option<seq<Param>> -> Option<seq<Param>>,
    isValidStringId: string -> bool,
    validateId: JsonObject -> Result<IdValue, Failure>,
    versionOf: JsonObject -> Option<string>,
    removeSystemProperties: JsonObject -> JsonObject,
    etagFromValue: string -> string,
    valueFromEtag: string -> string,
    patch: (JsonObject, Option<JsonObject>) -> JsonObject,
    transformFailure: Failure -> Failure)

  /** The arguments of `executeTableOperation` (`null` is `None`). */
  datatype TableCall = TableCall(
    path: string,
    content: Option<string>,
    httpMethod: string,
    headers: Option<seq<Header>>,
    parameters: Option<seq<Param>>,
    features: set<Feature>)

  /** What `executeTableOperation` yields: the returned object and its response, both `null` unless the body is a JSON object. */
  datatype OperationResult = OperationResult(item: Option<JsonObject>, response: Option<Response>)

  // ---------------------------------------------------------------------
  // ids on insert
  // ---------------------------------------------------------------------

  /** The first id spelling the object has, in `IdProperties` order. */
  function FirstIdProperty(json: JsonObject): (p: Option<string>)
    ensures p.None? <==> forall k :: 0 <= k < |IdProperties| ==> IdProperties[k] !in json
    ensures p.Some? ==>
              && p.value in json
              && exists k :: 0 <= k < |IdProperties| && IdProperties[k] == p.value
                             && forall j :: 0 <= j < k ==> IdProperties[j] !in json
  {
    assert IdProperties[0] == "id" && IdProperties[1] == "Id" && IdProperties[2] == "iD" && IdProperties[3] == "ID";
    if "id" in json then Some("id")
    else if "Id" in json then Some("Id")
    else if "iD" in json then Some("iD")
    else if "ID" in json then Some("ID")
    else None
  }

  /** What `validateIdOnInsert` does with the id found under `p`. */
  function CheckIdOnInsert(isValidStringId: string -> bool, json: JsonObject, p: string): Result<(JsonObject, Option<IdValue>), Failure>
    requires p in json
  {
    match json[p]
    case JString(id) =>
      if !isValidStringId(id) then Err(IllegalArgument("The entity to insert has an invalid string value on " + p + " property."))
      else Ok((json, Some(StringId(id))))
    case JNumber(n) =>
      if n != 0 then Err(IllegalArgument("The entity to insert should not have a numeric " + p + " property defined."))
      else Ok((json - {p}, Some(NumericId(n))))
    case JNull => Ok((json - {p}, None))
    case _ => Err(IllegalArgument("The entity to insert should not have an " + p + " defined with an invalid value"))
  }

  /** The loop of `validateIdOnInsert` from spelling `i` on: the first spelling present decides. */
  function ValidateIdFrom(isValidStringId: string -> bool, json: JsonObject, i: nat): Result<(JsonObject, Option<IdValue>), Failure>
    requires i <= |IdProperties|
    decreases |IdProperties| - i
  {
    if i == |IdProperties| then Ok((json, None))
    else if IdProperties[i] in json then CheckIdOnInsert(isValidStringId, json, IdProperties[i])
    else ValidateIdFrom(isValidStringId, json, i + 1)
  }

  /**
    `validateIdOnInsert`: the object as it is sent (a default numeric id or a
    `null` id removed) and the id it had, or the error for an id an insert
    may not carry. Only the first spelling present is examined.
   */
  function ValidateIdOnInsert(isValidStringId: string -> bool, json: JsonObject): (r: Result<(JsonObject, Option<IdValue>), Failure>)
    ensures FirstIdProperty(json).None? ==> r == Ok((json, None))
    ensures FirstIdProperty(json).Some? ==>
              var p := FirstIdProperty(json).value;
              && (json[p].JString? ==> (r.Ok? <==> isValidStringId(json[p].s)))
              && (json[p].JString? && r.Ok? ==> r.value == (json, Some(StringId(json[p].s))))
              && (json[p].JNumber? ==> (r.Ok? <==> json[p].n == 0))
              && (json[p].JNumber? && r.Ok? ==> r.value == (json - {p}, Some(NumericId(0))))
              && (json[p].JNull? ==> r == Ok((json - {p}, None)))
              && (!(json[p].JString? || json[p].JNumber? || json[p].JNull?) ==> r.Err?)
    ensures r.Err? ==> r.error.IllegalArgument?
  {
    ValidateIdFromFirst(isValidStringId, json, 0);
    ValidateIdFrom(isValidStringId, json, 0)
  }

  /** Starting the loop at `i` acts on the first spelling present at or after `i`. */
  lemma {:induction false} ValidateIdFromFirst(isValidStringId: string -> bool, json: JsonObject, i: nat)
    requires i <= |IdProperties|
    requires forall j :: 0 <= j < i ==> IdProperties[j] !in json
    ensures FirstIdProperty(json).None? ==> ValidateIdFrom(isValidStringId, json, i) == Ok((json, None))
    ensures FirstIdProperty(json).Some? ==>
              ValidateIdFrom(isValidStringId, json, i) == CheckIdOnInsert(isValidStringId, json, FirstIdProperty(json).value)
    decreases |IdProperties| - i
  {
    if i < |IdProperties| && IdProperties[i] !in json {
      ValidateIdFromFirst(isValidStringId, json, i + 1);
    }
  }

  /** Only the examined spelling can be removed: every other member is sent as it was. */
  lemma ValidateIdKeepsOtherMembers(isValidStringId: string -> bool, json: JsonObject, k: string)
    requires ValidateIdOnInsert(isValidStringId, json).Ok?
    requires FirstIdProperty(json) != Some(k)
    ensures k in ValidateIdOnInsert(isValidStringId, json).value.0 <==> k in json
    ensures k in json ==> ValidateIdOnInsert(isValidStringId, json).value.0[k] == json[k]
  {
  }

  /** An object that passed the check passes it again unchanged, when it carries a single id spelling. */
  lemma ValidateIdOnInsertStable(isValidStringId: string -> bool, json: JsonObject)
    requires ValidateIdOnInsert(isValidStringId, json).Ok?
    requires forall j, k :: 0 <= j < k < |IdProperties| ==> IdProperties[j] !in json || IdProperties[k] !in json
    ensures var sent := ValidateIdOnInsert(isValidStringId, json).value.0;
            ValidateIdOnInsert(isValidStringId, sent).Ok? && ValidateIdOnInsert(isValidStringId, sent).value.0 == sent
  {
    var sent := ValidateIdOnInsert(isValidStringId, json).value.0;
    if FirstIdProperty(json).Some? {
      var p := FirstIdProperty(json).value;
      if !json[p].JString? {
        assert forall k :: 0 <= k < |IdProperties| ==> IdProperties[k] !in sent by {
          forall k | 0 <= k < |IdProperties|
            ensures IdProperties[k] !in sent
          {
            if IdProperties[k] != p {
              var kp :| 0 <= kp < |IdProperties| && IdProperties[kp] == p;
              assert kp != k;
            }
          }
        }
      }
    }
  }

  /** A `null` id under the first spelling is removed and a later spelling is sent unexamined. */
  lemma OnlyFirstIdSpellingIsChecked(isValidStringId: string -> bool)
    ensures ValidateIdOnInsert(isValidStringId, map["id" := JNull, "Id" := JNumber(5)]) == Ok((map["Id" := JNumber(5)], None))
  {
    var json := map["id" := JNull, "Id" := JNumber(5)];
    assert json - {"id"} == map["Id" := JNumber(5)];
  }

  // ---------------------------------------------------------------------
  // the table calls
  // ---------------------------------------------------------------------

  /** The feature set with `AdditionalQueryParameters` added when the caller passed parameters. */
  function WithParameterFeature(features: set<Feature>, parameters: Option<seq<Param>>): (fs: set<Feature>)
    ensures AdditionalQueryParameters in fs <==> AdditionalQueryParameters in features || (parameters.Some? && |parameters.value| > 0)
    ensures fs - {AdditionalQueryParameters} == features - {AdditionalQueryParameters}
  {
    if parameters.Some? && |parameters.value| > 0 then features + {AdditionalQueryParameters} else features
  }

  /** `id.toString()` of a `String` or `Long` id. */
  function IdText(id: IdValue): string {
    match id
    case StringId(s) => s
    case NumericId(n) => IntToString(n)
  }

  /** The path of one item: `tables/<name>/<id>`. */
  function ItemPath(name: string, id: IdValue): string {
    TablesUrl + name + "/" + IdText(id)
  }

  /** A non-negative numeric id can be read back from the end of its item path. */
  lemma ItemPathNumericId(name: string, n: nat)
    ensures var p := ItemPath(name, NumericId(n));
            var prefix := TablesUrl + name + "/";
            && p[..|prefix|] == prefix
            && IsDigits(p[|prefix|..]) && DecimalValue(p[|prefix|..]) == n
  {
    var prefix := TablesUrl + name + "/";
    assert ItemPath(name, NumericId(n))[|prefix|..] == NatToString(n);
    DecimalRoundTrip(n);
  }

  /**
    The call `update`, `delete` and `undelete` share: the item path, an
    `If-Match` header and `OpportunisticConcurrency` exactly when a string
    id comes with a version, the caller's parameters with the system
    properties added.
   */
  function ItemCall(ctx: TableContext, element: JsonObject, id: IdValue, content: Option<string>,
                    httpMethod: string, parameters: Option<seq<Param>>): (c: TableCall)
    ensures c.path == ItemPath(ctx.name, id) && c.content == content && c.httpMethod == httpMethod
    ensures c.parameters == ctx.addSystemProperties(parameters)
    ensures c.headers.Some? <==> id.StringId? && ctx.versionOf(element).Some?
    ensures c.headers.Some? ==> c.headers.value == [Header(IfMatchHeader, ctx.etagFromValue(ctx.versionOf(element).value))]
    ensures OpportunisticConcurrency in c.features <==> OpportunisticConcurrency in ctx.features || c.headers.Some?
    ensures AdditionalQueryParameters in c.features <==>
              AdditionalQueryParameters in ctx.features || (parameters.Some? && |parameters.value| > 0)
    ensures c.features - {AdditionalQueryParameters, OpportunisticConcurrency} == ctx.features - {AdditionalQueryParameters, OpportunisticConcurrency}
  {
    var version := if id.NumericId? then None else ctx.versionOf(element);
    var features := WithParameterFeature(ctx.features, parameters);
    var systemParameters := ctx.addSystemProperties(parameters);
    if version.Some? then
      TableCall(ItemPath(ctx.name, id), content, httpMethod, Some([Header(IfMatchHeader, ctx.etagFromValue(version.value))]),
                systemParameters, features + {OpportunisticConcurrency})
    else
      TableCall(ItemPath(ctx.name, id), content, httpMethod, None, systemParameters, features)
  }

  /** The POST `insert` sends: the checked object as its body, to `tables/<name>`; with the object it patches afterwards. */
  function InsertCall(ctx: TableContext, codec: JsonCodec, element: JsonObject, parameters: Option<seq<Param>>): (r: Result<(JsonObject, TableCall), Failure>)
    ensures ValidateIdOnInsert(ctx.isValidStringId, element).Err? ==> r == Err(ValidateIdOnInsert(ctx.isValidStringId, element).error)
    ensures r.Ok? ==>
              var sent := ValidateIdOnInsert(ctx.isValidStringId, element).value.0;
              && r.value.0 == sent
              && r.value.1.path == TablesUrl + ctx.name
              && r.value.1.httpMethod == PostMethod
              && r.value.1.content == Some(codec.serialize(JObject(sent)))
              && r.value.1.headers.None?
              && r.value.1.parameters == ctx.addSystemProperties(parameters)
              && r.value.1.features == WithParameterFeature(ctx.features, parameters)
  {
    match ValidateIdOnInsert(ctx.isValidStringId, element)
    case Err(e) => Err(e)
    case Ok((sent, _)) =>
      Ok((sent, TableCall(TablesUrl + ctx.name, Some(codec.serialize(JObject(sent))), PostMethod, None,
                          ctx.addSystemProperties(parameters), WithParameterFeature(ctx.features, parameters))))
  }

  /** The PATCH `update` sends: a string-id item without its system properties, a numeric-id item whole. */
  function UpdateCall(ctx: TableContext, codec: JsonCodec, element: JsonObject, parameters: Option<seq<Param>>): (r: Result<TableCall, Failure>)
    ensures ctx.validateId(element).Err? ==> r == Err(ctx.validateId(element).error)
    ensures ctx.validateId(element).Ok? ==> r.Ok?
    ensures r.Ok? ==>
              var id := ctx.validateId(element).value;
              && r.value.httpMethod == PatchMethod
              && r.value.path == ItemPath(ctx.name, id)
              && (id.StringId? ==> r.value.content == Some(codec.serialize(JObject(ctx.removeSystemProperties(element)))))
              && (id.NumericId? ==> r.value.content == Some(codec.serialize(JObject(element))))
              && (r.value.headers.Some? <==> id.StringId? && ctx.versionOf(element).Some?)
              && r.value == ItemCall(ctx, element, id, r.value.content, PatchMethod, parameters)
  {
    match ctx.validateId(element)
    case Err(e) => Err(e)
    case Ok(id) =>
      var content := if id.NumericId? then codec.serialize(JObject(element)) else codec.serialize(JObject(ctx.removeSystemProperties(element)));
      Ok(ItemCall(ctx, element, id, Some(content), PatchMethod, parameters))
  }

  /** The bodiless DELETE `delete` sends. */
  function DeleteCall(ctx: TableContext, element: JsonObject, parameters: Option<seq<Param>>): (r: Result<TableCall, Failure>)
    ensures ctx.validateId(element).Err? ==> r == Err(ctx.validateId(element).error)
    ensures ctx.validateId(element).Ok? ==> r.Ok?
    ensures r.Ok? ==>
              var id := ctx.validateId(element).value;
              && r.value.httpMethod == DeleteMethod && r.value.path == ItemPath(ctx.name, id) && r.value.content.None?
              && (r.value.headers.Some? <==> id.StringId? && ctx.versionOf(element).Some?)
              && r.value == ItemCall(ctx, element, id, None, DeleteMethod, parameters)
  {
    match ctx.validateId(element)
    case Err(e) => Err(e)
    case Ok(id) => Ok(ItemCall(ctx, element, id, None, DeleteMethod, parameters))
  }

  /** The bodiless POST `undelete` sends to the item's path. */
  function UndeleteCall(ctx: TableContext, element: JsonObject, parameters: Option<seq<Param>>): (r: Result<TableCall, Failure>)
    ensures ctx.validateId(element).Err? ==> r == Err(ctx.validateId(element).error)
    ensures ctx.validateId(element).Ok? ==> r.Ok?
    ensures r.Ok? ==>
              var id := ctx.validateId(element).value;
              && r.value.httpMethod == PostMethod && r.value.path == ItemPath(ctx.name, id) && r.value.content.None?
              && (r.value.headers.Some? <==> id.StringId? && ctx.versionOf(element).Some?)
              && r.value == ItemCall(ctx, element, id, None, PostMethod, parameters)
  {
    match ctx.validateId(element)
    case Err(e) => Err(e)
    case Ok(id) => Ok(ItemCall(ctx, element, id, None, PostMethod, parameters))
  }

  /** Update, delete and undelete of the same item differ only in method and body. */
  lemma ItemCallsAgree(ctx: TableContext, codec: JsonCodec, element: JsonObject, parameters: Option<seq<Param>>)
    requires ctx.validateId(element).Ok?
    ensures var u := UpdateCall(ctx, codec, element, parameters).value;
            var d := DeleteCall(ctx, element, parameters).value;
            var n := UndeleteCall(ctx, element, parameters).value;
            && u.(httpMethod := DeleteMethod, content := None) == d
            && d.(httpMethod := PostMethod) == n
  {
  }

  // ---------------------------------------------------------------------
  // executeTableOperation
  // ---------------------------------------------------------------------

  /** The headers a table call is sent with: the caller's, then `Content-Type: application/json` when there is a body. */
  function OperationHeaders(call: TableCall): (hs: seq<Header>)
    ensures |hs| == |call.headers.GetOr([])| + (if call.content.Some? then 1 else 0)
    ensures hs[..|call.headers.GetOr([])|] == call.headers.GetOr([])
    ensures call.content.Some? ==> HeaderValue(hs, ContentTypeHeader) == Some(JsonContentType)
    ensures call.content.None? ==> HeaderValue(hs, ContentTypeHeader) == HeaderValue(call.headers.GetOr([]), ContentTypeHeader)
  {
    var hs := call.headers.GetOr([]);
    if call.content.Some? then
      assert (hs + [Header(ContentTypeHeader, JsonContentType)])[..|hs|] == hs;
      hs + [Header(ContentTypeHeader, JsonContentType)]
    else hs
  }

  /** The answer of a table call: the object and response when the body is a JSON object, `(null, null)` otherwise. */
  function ShapeOperationResponse(codec: JsonCodec, response: Response): (r: Result<OperationResult, Failure>)
    ensures (response.content.None? || response.content.value == []) ==> r == Ok(OperationResult(None, None))
    ensures response.content.Some? && response.content.value != [] ==>
              (r.Err? <==> codec.parse(response.content.value).Err?)
    ensures r.Ok? ==> (r.value.item.Some? <==> r.value.response.Some?)
    ensures r.Ok? && r.value.item.Some? ==>
              && response.content.Some?
              && codec.parse(response.content.value) == Ok(JObject(r.value.item.value))
              && r.value.response == Some(response)
    ensures response.content.Some? && codec.parse(response.content.value).Ok? && codec.parse(response.content.value).value.JObject? && response.content.value != [] ==>
              r == Ok(OperationResult(Some(codec.parse(response.content.value).value.members), Some(response)))
  {
    match response.content
    case None => Ok(OperationResult(None, None))
    case Some(text) =>
      if text == [] then Ok(OperationResult(None, None))
      else
        match codec.parse(text)
        case Err(e) => Err(e)
        case Ok(json) =>
          if json.JObject? then Ok(OperationResult(Some(json.members), Some(response)))
          else Ok(OperationResult(None, None))
  }

  /** The HTTP call a table call is sent as. */
  function OperationCall(call: TableCall): Call {
    TextCall(Some(call.path), call.content, Some(call.httpMethod), Some(OperationHeaders(call)), call.parameters, call.features)
  }

  /**
    `executeTableOperation`: send the call and shape the answer; a result
    comes exactly from a 2xx answer whose body can be read, and every
    failure, of the exchange or of reading the body, goes through
    `transformHttpException`.
   */
  function ExecuteTableOperation(t: Transport, codec: JsonCodec, ctx: TableContext, call: TableCall): (r: Result<OperationResult, Failure>)
    ensures r.Err? ==> exists e :: r.error == ctx.transformFailure(e)
    ensures r.Ok? ==>
              && Exchange(t, OperationCall(call)).Ok?
              && Connections.IsSuccessStatus(Exchange(t, OperationCall(call)).value.status)
              && ShapeOperationResponse(codec, Exchange(t, OperationCall(call)).value) == r
    ensures Exchange(t, OperationCall(call)).Err? ==> r == Err(ctx.transformFailure(Exchange(t, OperationCall(call)).error))
    ensures Exchange(t, OperationCall(call)).Ok? ==>
              var shaped := ShapeOperationResponse(codec, Exchange(t, OperationCall(call)).value);
              && (shaped.Ok? ==> r == shaped)
              && (shaped.Err? ==> r == Err(ctx.transformFailure(shaped.error)))
  {
    match Exchange(t, OperationCall(call))
    case Err(e) => Err(ctx.transformFailure(e))
    case Ok(response) =>
      match ShapeOperationResponse(codec, response)
      case Err(e) => Err(ctx.transformFailure(e))
      case Ok(result) => Ok(result)
  }

  /**
    A table call the transport answers with 2xx: no body, an empty one or a
    JSON non-object gives `(null, null)`; a JSON object gives the object and
    the response; an unreadable body the transformed parse error. Any other
    status gives the transformed status exception.
   */
  lemma ExecuteTableOperationAnswers(t: Transport, codec: JsonCodec, ctx: TableContext, call: TableCall, response: Response)
    requires Request(t.http, OperationCall(call)).Ok?
    requires t.execute(Connections.ConfigureHeaders(Request(t.http, OperationCall(call)).value, t.appKey)) == Returned(response)
    ensures var r := ExecuteTableOperation(t, codec, ctx, call);
            && (!Connections.IsSuccessStatus(response.status) ==> r == Err(ctx.transformFailure(Connections.StatusFailure(response))))
            && (Connections.IsSuccessStatus(response.status) ==>
                  && (response.content.None? || response.content.value == [] ==> r == Ok(OperationResult(None, None)))
                  && (response.content.Some? && response.content.value != [] ==>
                        match codec.parse(response.content.value)
                        case Err(e) => r == Err(ctx.transformFailure(e))
                        case Ok(json) =>
                          r == Ok(if json.JObject? then OperationResult(Some(json.members), Some(response)) else OperationResult(None, None))))
  {
  }

  /** The HTTP call a table call turns into: its body as UTF-8 and the operation headers. */
  lemma TableCallRequest(call: TableCall)
    ensures var c := OperationCall(call);
            && c.path == Some(call.path) && c.httpMethod == Some(call.httpMethod)
            && (c.content.Some? <==> call.content.Some?)
            && (call.content.Some? ==> Utf8.Decode(c.content.value) == call.content.value)
            && (call.content.Some? ==> HeaderValue(c.headers.value, ContentTypeHeader) == Some(JsonContentType))
  {
  }

  /** `updateVersionFromETag`: an `ETag` header on the response overwrites the version property with its value. */
  function UpdateVersionFromEtag(ctx: TableContext, response: Option<Response>, json: JsonObject): (r: JsonObject)
    ensures (response.None? || HeaderValue(response.value.headers, ETagHeader).None?) ==> r == json
    ensures response.Some? && HeaderValue(response.value.headers, ETagHeader).Some? ==>
              && r.Keys == json.Keys + {ctx.versionProperty}
              && r[ctx.versionProperty] == JString(ctx.valueFromEtag(HeaderValue(response.value.headers, ETagHeader).value))
              && forall k :: k in json && k != ctx.versionProperty ==> r[k] == json[k]
  {
    if response.None? then json
    else
      match HeaderValue(response.value.headers, ETagHeader)
      case None => json
      case Some(etag) => (json - {ctx.versionProperty})[ctx.versionProperty := JString(ctx.valueFromEtag(etag))]
  }

  /** Applying the same response's ETag twice is the same as applying it once. */
  lemma UpdateVersionFromEtagIdempotent(ctx: TableContext, response: Option<Response>, json: JsonObject)
    ensures UpdateVersionFromEtag(ctx, response, UpdateVersionFromEtag(ctx, response, json)) == UpdateVersionFromEtag(ctx, response, json)
  {
  }

  /** What a write returns once the call came back: the item patched with the server's copy, then its version refreshed. */
  function FinishWrite(ctx: TableContext, element: JsonObject, result: OperationResult): JsonObject {
    UpdateVersionFromEtag(ctx, result.response, ctx.patch(element, result.item))
  }

  /** `insert`: a rejected id fails before anything is sent; otherwise the checked object is posted and patched. */
  function Insert(t: Transport, codec: JsonCodec, ctx: TableContext, element: JsonObject, parameters: Option<seq<Param>>): (r: Result<JsonObject, Failure>)
    ensures ValidateIdOnInsert(ctx.isValidStringId, element).Err? ==> r == Err(ValidateIdOnInsert(ctx.isValidStringId, element).error)
    ensures ValidateIdOnInsert(ctx.isValidStringId, element).Ok? ==>
              var sent := ValidateIdOnInsert(ctx.isValidStringId, element).value.0;
              var call := InsertCall(ctx, codec, element, parameters).value.1;
              && (r.Err? <==> ExecuteTableOperation(t, codec, ctx, call).Err?)
              && (r.Ok? ==> r.value == FinishWrite(ctx, sent, ExecuteTableOperation(t, codec, ctx, call).value))
  {
    match InsertCall(ctx, codec, element, parameters)
    case Err(e) => Err(e)
    case Ok((sent, call)) =>
      match ExecuteTableOperation(t, codec, ctx, call)
      case Err(e) => Err(e)
      case Ok(result) => Ok(FinishWrite(ctx, sent, result))
  }

  /** `update`: the item as it was given, patched with the server's copy. */
  function Update(t: Transport, codec: JsonCodec, ctx: TableContext, element: JsonObject, parameters: Option<seq<Param>>): (r: Result<JsonObject, Failure>)
    ensures ctx.validateId(element).Err? ==> r == Err(ctx.validateId(element).error)
    ensures ctx.validateId(element).Ok? ==>
              var call := UpdateCall(ctx, codec, element, parameters).value;
              && (r.Err? <==> ExecuteTableOperation(t, codec, ctx, call).Err?)
              && (r.Ok? ==> r.value == FinishWrite(ctx, element, ExecuteTableOperation(t, codec, ctx, call).value))
  {
    match UpdateCall(ctx, codec, element, parameters)
    case Err(e) => Err(e)
    case Ok(call) =>
      match ExecuteTableOperation(t, codec, ctx, call)
      case Err(e) => Err(e)
      case Ok(result) => Ok(FinishWrite(ctx, element, result))
  }

  /** `delete`: completes when the call succeeds; the answer is dropped. */
  function Delete(t: Transport, codec: JsonCodec, ctx: TableContext, element: JsonObject, parameters: Option<seq<Param>>): (r: Result<(), Failure>)
    ensures ctx.validateId(element).Err? ==> r == Err(ctx.validateId(element).error)
    ensures ctx.validateId(element).Ok? ==>
              (r.Ok? <==> ExecuteTableOperation(t, codec, ctx, DeleteCall(ctx, element, parameters).value).Ok?)
  {
    match DeleteCall(ctx, element, parameters)
    case Err(e) => Err(e)
    case Ok(call) =>
      match ExecuteTableOperation(t, codec, ctx, call)
      case Err(e) => Err(e)
      case Ok(_) => Ok(())
  }

  /** `undelete`: like `update`, with a bodiless POST. */
  function Undelete(t: Transport, codec: JsonCodec, ctx: TableContext, element: JsonObject, parameters: Option<seq<Param>>): (r: Result<JsonObject, Failure>)
    ensures ctx.validateId(element).Err? ==> r == Err(ctx.validateId(element).error)
    ensures ctx.validateId(element).Ok? ==>
              var call := UndeleteCall(ctx, element, parameters).value;
              && (r.Err? <==> ExecuteTableOperation(t, codec, ctx, call).Err?)
              && (r.Ok? ==> r.value == FinishWrite(ctx, element, ExecuteTableOperation(t, codec, ctx, call).value))
  {
    match UndeleteCall(ctx, element, parameters)
    case Err(e) => Err(e)
    case Ok(call) =>
      match ExecuteTableOperation(t, codec, ctx, call)
      case Err(e) => Err(e)
      case Ok(result) => Ok(FinishWrite(ctx, element, result))
  }

  // ---------------------------------------------------------------------
  // reads
  // ---------------------------------------------------------------------

  /** What the table reads off a `Query` through `QueryODataWriter`: the row filter, the row-set modifiers and the user parameters. */
  datatype QueryForm = QueryForm(filter: string, modifiers: string, userParameters: Option<seq<Param>>)

  /**
    The URL `execute(Query)` reads: the table's address, then the filter
    followed by the modifiers, or the modifiers alone without their leading
    separator, or nothing.
   */
  function QueryUrl(appUrl: string, tableName: string, urlEncode: string -> string, filter: string, modifiers: string): (url: string)
    ensures var base := appUrl + TablesUrl + urlEncode(tableName);
            && |base| <= |url| && url[..|base|] == base
            && (url == base <==> filter == [] && modifiers == [])
            && (filter != [] ==> url[|base|..] == "?$filter=" + filter + modifiers)
            && (filter == [] && modifiers != [] ==> url[|base|..] == "?" + modifiers[1..])
  {
    var base := appUrl + TablesUrl + urlEncode(tableName);
    if |filter| > 0 then base + ("?$filter=" + filter + modifiers)
    else if |modifiers| > 0 then base + ("?" + modifiers[1..])
    else base
  }

  /** The modifiers start with `&`: the query string carries them with or without a filter, after one `?`. */
  lemma QueryUrlJoinsModifiers(appUrl: string, tableName: string, urlEncode: string -> string, filter: string, rest: string)
    ensures var base := appUrl + TablesUrl + urlEncode(tableName);
            && QueryUrl(appUrl, tableName, urlEncode, [], "&" + rest) == base + "?" + rest
            && (filter != [] ==> QueryUrl(appUrl, tableName, urlEncode, filter, "&" + rest) == base + "?$filter=" + filter + "&" + rest)
  {
    assert ("&" + rest)[1..] == rest;
  }

  /** The request `executeGetRecords` sends: a GET, with `X-ZUMO-FEATURES` when the features render to a value. */
  function GetRecordsRequest(http: HttpContext, url: string, features: set<Feature>): (r: FilterRequest)
    ensures r.httpMethod == GetMethod && r.url == url && r.content.None?
    ensures HeaderValue(r.headers, FeaturesHeader) == http.featuresText(features)
    ensures |r.headers| == if http.featuresText(features).Some? then 1 else 0
  {
    match http.featuresText(features)
    case None => Get(url)
    case Some(text) => AddHeader(Get(url), FeaturesHeader, text)
  }

  /** What the transport does with the configured `executeGetRecords` request. */
  function Fetched(t: Transport, url: string, features: set<Feature>): Executed {
    t.execute(Connections.ConfigureHeaders(GetRecordsRequest(t.http, url, features), t.appKey))
  }

  /** `executeGetRecords`: the parsed body and the response; a body that does not parse is reported with the response. */
  function GetRecords(t: Transport, codec: JsonCodec, url: string, features: set<Feature>): (r: Result<(Json, Response), Failure>)
    ensures var sent := Connections.Create(GetRecordsRequest(t.http, url, features), t.appKey, t.execute);
            && (sent.Err? ==> r == Err(sent.error))
            && (sent.Ok? && sent.value.content.Some? && codec.parse(sent.value.content.value).Ok? ==>
                  r == Ok((codec.parse(sent.value.content.value).value, sent.value)))
            && (sent.Ok? && (sent.value.content.None? || codec.parse(sent.value.content.value).Err?) ==>
                  r.Err? && r.error.ServiceFailure? && r.error.message == RetrieveErrorMessage && r.error.response == Some(sent.value))
  {
    match Connections.Create(GetRecordsRequest(t.http, url, features), t.appKey, t.execute)
    case Err(e) => Err(e)
    case Ok(response) =>
      match response.content
      case None => Err(ServiceFailure(RetrieveErrorMessage, Some(RuntimeFailure("NullPointerException", "")), Some(response)))
      case Some(text) =>
        match codec.parse(text)
        case Err(e) => Err(ServiceFailure(RetrieveErrorMessage, Some(e), Some(response)))
        case Ok(json) => Ok((json, response))
  }

  /** The result of a read: with a `Link` header, an envelope holding the next link and the results; otherwise the body itself. */
  function LinkEnvelope(body: Json, headers: seq<Header>): (r: Json)
    ensures HeaderValue(headers, LinkHeader).None? ==> r == body
    ensures HeaderValue(headers, LinkHeader).Some? ==>
              && r.JObject? && r.members.Keys == {NextLinkProperty, ResultsProperty}
              && r.members[ResultsProperty] == body
              && r.members[NextLinkProperty] == JString(Replace(HeaderValue(headers, LinkHeader).value, NextLinkSuffix, ""))
  {
    match HeaderValue(headers, LinkHeader)
    case None => body
    case Some(link) => JObject(map[NextLinkProperty := JString(Replace(link, NextLinkSuffix, "")), ResultsProperty := body])
  }

  /** A `Link: <url>; rel=next` header yields `<url>` as the next link. */
  lemma NextLinkRecovered(body: Json, headers: seq<Header>, url: string)
    requires HeaderValue(headers, LinkHeader) == Some(url + NextLinkSuffix)
    requires ';' !in url
    ensures LinkEnvelope(body, headers).members[NextLinkProperty] == JString(url)
  {
    ReplaceTrailingTarget(url, NextLinkSuffix, "");
    assert url + "" == url;
  }

  /** The transport answered the read of `url` with a 2xx response whose content parses. */
  predicate PageRead(t: Transport, codec: JsonCodec, url: string, features: set<Feature>) {
    var e := Fetched(t, url, features);
    e.Returned? && Connections.IsSuccessStatus(e.response.status) && e.response.content.Some? && codec.parse(e.response.content.value).Ok?
  }

  /**
    How a read's result follows from the transport's answer: the Link
    envelope of the parsed content for a readable 2xx answer, the wrapped
    status exception for any other status, and the "Error while retrieving
    data from response." exception, with the response, for a 2xx answer
    that cannot be read.
   */
  predicate ReadsAs(t: Transport, codec: JsonCodec, url: string, features: set<Feature>, r: Result<Json, Failure>) {
    var e := Fetched(t, url, features);
    && (r.Ok? <==> PageRead(t, codec, url, features))
    && (r.Ok? ==> r.value == LinkEnvelope(codec.parse(e.response.content.value).value, e.response.headers))
    && (e.Returned? && !Connections.IsSuccessStatus(e.response.status) ==> r == Err(Connections.StatusFailure(e.response)))
    && (e.Returned? && Connections.IsSuccessStatus(e.response.status) && !PageRead(t, codec, url, features) ==>
          r.Err? && r.error.ServiceFailure? && r.error.message == RetrieveErrorMessage && r.error.response == Some(e.response))
    && (e.Threw? ==> r.Err? && IsServiceException(r.error))
  }

  /** `executeUrlQuery`: fetch the URL and wrap a paged answer. */
  function ExecuteUrlQuery(t: Transport, codec: JsonCodec, url: string, features: set<Feature>): (r: Result<Json, Failure>)
    ensures ReadsAs(t, codec, url, features, r)
  {
    match GetRecords(t, codec, url, features)
    case Err(e) => Err(e)
    case Ok((json, response)) => Ok(LinkEnvelope(json, response.headers))
  }

  /**
    `execute(Query)`: the query's URL, with the table's features and
    `AdditionalQueryParameters` when the query carries user parameters.
   */
  function ExecuteQuery(t: Transport, codec: JsonCodec, ctx: TableContext, urlEncode: string -> string, query: QueryForm): (r: Result<Json, Failure>)
    ensures ReadsAs(t, codec, QueryUrl(t.http.appUrl, ctx.name, urlEncode, query.filter, query.modifiers),
                    WithParameterFeature(ctx.features, query.userParameters), r)
  {
    ExecuteUrlQuery(t, codec, QueryUrl(t.http.appUrl, ctx.name, urlEncode, query.filter, query.modifiers),
                    WithParameterFeature(ctx.features, query.userParameters))
  }

  /** `execute(String nextLink)`: the link is fetched as given, with the table's features. */
  function ExecuteNextLink(t: Transport, codec: JsonCodec, ctx: TableContext, nextLink: string): (r: Result<Json, Failure>)
    ensures ReadsAs(t, codec, nextLink, ctx.features, r)
  {
    ExecuteUrlQuery(t, codec, nextLink, ctx.features)
  }

  /**
    A query without user parameters fetches exactly what following a link
    to its URL fetches, and both answer the Link envelope of that page.
   */
  lemma QueryAsNextLink(t: Transport, codec: JsonCodec, ctx: TableContext, urlEncode: string -> string, query: QueryForm)
    requires query.userParameters.None? || query.userParameters.value == []
    ensures var url := QueryUrl(t.http.appUrl, ctx.name, urlEncode, query.filter, query.modifiers);
            && ExecuteQuery(t, codec, ctx, urlEncode, query) == ExecuteNextLink(t, codec, ctx, url)
            && (ExecuteNextLink(t, codec, ctx, url).Err? <==> GetRecords(t, codec, url, ctx.features).Err?)
  {
  }

  /** `where(Query)`: a query is required. */
  function Where<Q>(query: Option<Q>): (r: Result<Q, Failure>)
    ensures r.Ok? <==> query.Some?
    ensures query.Some? ==> r.value == query.value
    ensures query.None? ==> r.error == IllegalArgument(QueryRequiredMessage)
  {
    match query
    case None => Err(IllegalArgument(QueryRequiredMessage))
    case Some(q) => Ok(q)
  }
}

=== FILE: outcomes.dfy ===
/**
  Option and Result: the model's stand-ins for Java's `null` and for
  exceptions that a call either throws or hands to an RxJava `Single.error`.
 */
module Outcomes {

  /** A value that may be absent (Java `null`). */
  datatype Option<+T> = None | Some(value: T) {

    /** The wrapped value, or `default` when absent. */
    function GetOr(default: T): T {
      match this
      case Some(v) => v
      case None => default
    }
  }

  /** The outcome of an operation that may fail with an error of type `E`. */
  datatype Result<+T, +E> = Ok(value: T) | Err(error: E)
}

=== FILE: service_client.dfy ===
/**
  `MobileServiceClient`: application-URL normalisation and validation, the
  table-class rule, and the custom-API calls (byte, JSON and typed).
 */
module ServiceClient {
  import opened Outcomes
  import opened JavaStrings
  import opened Utf8
  import opened JsonModel
  import opened ServiceTypes
  import opened HttpClients

  const CustomApiUrl := "api/"
  const InvalidUrlMessage := "Invalid Application URL"
  const ConcreteClassMessage := "The class type used for creating a MobileServiceTable must be a concrete class"
  const SingleIdMessage := "The class representing the MobileServiceTable must have a single id property defined"
  const ApiNameRequiredMessage := "apiName cannot be null"
  const ClassRequiredMessage := "clazz cannot be null"

  // ---------------------------------------------------------------------
  // application URL
  // ---------------------------------------------------------------------

  /**
    A parsed `java.net.URL`: everything up to the path (scheme and
    authority), the path, and the optional query and fragment.
   */
  datatype Url = Url(origin: string, path: string, query: Option<string>, ref: Option<string>)

  /** `URL.toString()`. */
  function ExternalForm(u: Url): string {
    u.origin + u.path
    + (if u.query.Some? then "?" + u.query.value else "")
    + (if u.ref.Some? then "#" + u.ref.value else "")
  }

  /**
    `new URL(u.toString() + "/")`: the appended slash ends up in the last
    part of the text, which is the fragment if there is one, else the query
    if there is one, else the path.
   */
  function AppendSlash(u: Url): (v: Url)
    ensures ExternalForm(v) == ExternalForm(u) + "/"
    ensures v.origin == u.origin
  {
    if u.ref.Some? then u.(ref := Some(u.ref.value + "/"))
    else if u.query.Some? then u.(query := Some(u.query.value + "/"))
    else u.(path := u.path + "/")
  }

  /** `normalizeUrl` as written: a URL with an empty path is re-parsed with "/" appended to its text. */
  function NormalizeUrlAsWritten(u: Url): (v: Url)
    ensures u.path != [] ==> v == u
    ensures u.path == [] ==> ExternalForm(v) == ExternalForm(u) + "/"
  {
    if u.path == [] then AppendSlash(u) else u
  }

  /** With a query and an empty path the slash lands in the query: the path stays empty and a second pass adds another. */
  lemma NormalizeUrlAsWrittenMissesQuery()
    ensures var u := Url("https://contoso.azurewebsites.net", "", Some("zumo=1"), None);
            && NormalizeUrlAsWritten(u).path == ""
            && NormalizeUrlAsWritten(u).query == Some("zumo=1/")
            && NormalizeUrlAsWritten(NormalizeUrlAsWritten(u)) != NormalizeUrlAsWritten(u)
  {
    var u := Url("https://contoso.azurewebsites.net", "", Some("zumo=1"), None);
    var once := NormalizeUrlAsWritten(u);
    assert "zumo=1" + "/" == "zumo=1/";
    assert |NormalizeUrlAsWritten(once).query.value| == |once.query.value| + 1;
  }

  /** `normalizeUrl` as intended: an empty path becomes "/", and nothing else changes. */
  function NormalizeUrl(u: Url): (v: Url)
    ensures v.path != []
    ensures u.path != [] ==> v == u
    ensures v.origin == u.origin && v.query == u.query && v.ref == u.ref
  {
    if u.path == [] then u.(path := "/") else u
  }

  /** Normalising twice is normalising once. */
  lemma NormalizeUrlIdempotent(u: Url)
    ensures NormalizeUrl(NormalizeUrl(u)) == NormalizeUrl(u)
  {
  }

  /** Without a query or fragment the intended and the written normalisation agree, and the text gains one "/". */
  lemma NormalizeUrlAgreesWithoutQuery(u: Url)
    requires u.query.None? && u.ref.None?
    ensures NormalizeUrl(u) == NormalizeUrlAsWritten(u)
    ensures u.path == [] ==> ExternalForm(NormalizeUrl(u)) == ExternalForm(u) + "/"
  {
  }

  /** The settings `initialize` stores. */
  datatype ClientConfig = ClientConfig(appUrl: Url, appKey: Option<string>)

  /** `initialize`: a missing or blank application URL is refused; otherwise the URL is normalised and stored with the key. */
  function Initialize(appUrl: Option<Url>, appKey: Option<string>): (r: Result<ClientConfig, Failure>)
    ensures (appUrl.None? || IsBlank(ExternalForm(appUrl.value))) <==> r.Err?
    ensures r.Err? ==> r.error == IllegalArgument(InvalidUrlMessage)
    ensures r.Ok? ==> r.value.appUrl == NormalizeUrl(appUrl.value) && r.value.appKey == appKey && r.value.appUrl.path != []
  {
    if appUrl.None? || IsBlank(ExternalForm(appUrl.value)) then Err(IllegalArgument(InvalidUrlMessage))
    else Ok(ClientConfig(NormalizeUrl(appUrl.value), appKey))
  }

  // ---------------------------------------------------------------------
  // table classes
  // ---------------------------------------------------------------------

  /** A declared field and the value of its `@SerializedName` annotation, if any. */
  datatype FieldInfo = FieldInfo(name: string, serializedName: Option<string>)

  /** What reflection reports about a class. */
  datatype ClassInfo = ClassInfo(simpleName: string, isInterface: bool, isAbstract: bool, fields: seq<FieldInfo>)

  /** The name a field has in JSON: the annotation's value if present, else the field's own name. */
  function EffectiveName(f: FieldInfo): string {
    if f.serializedName.Some? then f.serializedName.value else f.name
  }

  predicate IsIdField(f: FieldInfo) {
    EqualsIgnoreCase(EffectiveName(f), "id")
  }

  /** How many fields are id fields. */
  function IdFieldCount(fs: seq<FieldInfo>): (n: nat)
    ensures n <= |fs|
    decreases |fs|
  {
    if fs == [] then 0 else (if IsIdField(fs[0]) then 1 else 0) + IdFieldCount(fs[1..])
  }

  /** Exactly one field, at index `i`, is an id field. */
  predicate OnlyIdFieldAt(fs: seq<FieldInfo>, i: int) {
    0 <= i < |fs| && IsIdField(fs[i]) && forall j :: 0 <= j < |fs| && IsIdField(fs[j]) ==> j == i
  }

  /** No field is an id field exactly when the count is zero. */
  lemma {:induction false} IdFieldCountZero(fs: seq<FieldInfo>)
    ensures IdFieldCount(fs) == 0 <==> forall j :: 0 <= j < |fs| ==> !IsIdField(fs[j])
    decreases |fs|
  {
    if fs != [] {
      IdFieldCountZero(fs[1..]);
      assert forall j :: 1 <= j < |fs| ==> fs[j] == fs[1..][j - 1];
    }
  }

  /** The count is one exactly when a single field is an id field. */
  lemma {:induction false} IdFieldCountOne(fs: seq<FieldInfo>)
    ensures IdFieldCount(fs) == 1 <==> exists i :: OnlyIdFieldAt(fs, i)
    decreases |fs|
  {
    if fs != [] {
      var tail := fs[1..];
      IdFieldCountOne(tail);
      IdFieldCountZero(tail);
      assert forall j :: 1 <= j < |fs| ==> fs[j] == tail[j - 1];
      if IdFieldCount(fs) == 1 {
        if IsIdField(fs[0]) {
          assert OnlyIdFieldAt(fs, 0);
        } else {
          var k :| OnlyIdFieldAt(tail, k);
          assert OnlyIdFieldAt(fs, k + 1);
        }
      }
      if i :| OnlyIdFieldAt(fs, i) {
        if i == 0 {
          assert forall j :: 0 <= j < |tail| ==> !IsIdField(tail[j]);
        } else {
          assert !IsIdField(fs[0]);
          assert OnlyIdFieldAt(tail, i - 1);
        }
      }
    }
  }

  /** `validateClass`: interfaces and abstract classes are refused, and so is any class without exactly one id field. */
  function ValidateClass(c: ClassInfo): (r: Result<(), Failure>)
    ensures (c.isInterface || c.isAbstract) ==> r == Err(IllegalArgument(ConcreteClassMessage))
    ensures !(c.isInterface || c.isAbstract) && IdFieldCount(c.fields) != 1 ==> r == Err(IllegalArgument(SingleIdMessage))
    ensures r.Ok? <==> !c.isInterface && !c.isAbstract && exists i :: OnlyIdFieldAt(c.fields, i)
  {
    IdFieldCountOne(c.fields);
    if c.isInterface || c.isAbstract then Err(IllegalArgument(ConcreteClassMessage))
    else if IdFieldCount(c.fields) != 1 then Err(IllegalArgument(SingleIdMessage))
    else Ok(())
  }

  /** The annotation decides: a field named "id" renamed to something else is not an id field, and vice versa. */
  lemma SerializedNameDecides(name: string, serialized: string)
    ensures IsIdField(FieldInfo(name, Some(serialized))) <==> EqualsIgnoreCase(serialized, "id")
  {
  }

  /** A typed table: its name and the class of its rows. */
  datatype TypedTableRef = TypedTableRef(name: string, clazz: ClassInfo)

  /** `getTable(name, clazz)`: the class is validated first. */
  function GetTableNamed(name: string, c: ClassInfo): (r: Result<TypedTableRef, Failure>)
    ensures r.Ok? <==> ValidateClass(c).Ok?
    ensures r.Err? ==> r.error == ValidateClass(c).error
    ensures r.Ok? ==> r.value.name == name && r.value.clazz == c
  {
    match ValidateClass(c)
    case Err(e) => Err(e)
    case Ok(_) => Ok(TypedTableRef(name, c))
  }

  /** `getTable(clazz)`: the table is named after the class's simple name. */
  function GetTable(c: ClassInfo): (r: Result<TypedTableRef, Failure>)
    ensures r.Ok? <==> ValidateClass(c).Ok?
    ensures r.Ok? ==> r.value.name == c.simpleName
  {
    GetTableNamed(c.simpleName, c)
  }

  // ---------------------------------------------------------------------
  // custom APIs
  // ---------------------------------------------------------------------

  /** The byte-array `invokeApiInternal`: a blank API name is refused; otherwise the request goes to "api/" + name. */
  function ApiCall(apiName: Option<string>, content: Option<seq<byte>>, httpMethod: Option<string>,
                   headers: Option<seq<Header>>, parameters: Option<seq<Param>>, features: set<Feature>): (r: Result<Call, Failure>)
    ensures (apiName.None? || IsBlank(apiName.value)) <==> r.Err?
    ensures r.Err? ==> r.error == IllegalArgument(ApiNameRequiredMessage)
    ensures r.Ok? ==> r.value.path == Some(CustomApiUrl + apiName.value)
                      && r.value.content == content && r.value.httpMethod == httpMethod && r.value.headers == headers
                      && r.value.parameters == parameters && r.value.features == features
  {
    if apiName.None? || IsBlank(apiName.value) then Err(IllegalArgument(ApiNameRequiredMessage))
    else Ok(Call(Some(CustomApiUrl + apiName.value), content, httpMethod, headers, parameters, features))
  }

  /** The public byte-array `invokeApi`: the caller's headers, flagged as a generic API call. */
  function GenericApiCallOf(apiName: Option<string>, content: Option<seq<byte>>, httpMethod: Option<string>,
                            headers: Option<seq<Header>>, parameters: Option<seq<Param>>): (r: Result<Call, Failure>)
    ensures r.Ok? ==> r.value.features == {GenericApiCall} && r.value.headers == headers && r.value.content == content
    ensures r.Err? <==> (apiName.None? || IsBlank(apiName.value))
  {
    ApiCall(apiName, content, httpMethod, headers, parameters, {GenericApiCall})
  }

  /**
    The byte-array `invokeApi` end to end: a blank name is refused before
    anything is sent; otherwise the call to `api/<name>` with the caller's
    method, body, headers and parameters is sent with the generic-API
    feature, and the answer is the transport's 2xx response to it.
   */
  function InvokeApiBytes(t: Transport, apiName: Option<string>, content: Option<seq<byte>>, httpMethod: Option<string>,
                          headers: Option<seq<Header>>, parameters: Option<seq<Param>>): (r: Result<Response, Failure>)
    ensures (apiName.None? || IsBlank(apiName.value)) ==> r == Err(IllegalArgument(ApiNameRequiredMessage))
    ensures apiName.Some? && !IsBlank(apiName.value) ==>
              var call := Call(Some(CustomApiUrl + apiName.value), content, httpMethod, headers, parameters, {GenericApiCall});
              && r == Exchange(t, call)
              && (r.Ok? ==> Answered(t, call, r.value))
  {
    match GenericApiCallOf(apiName, content, httpMethod, headers, parameters)
    case Err(e) => Err(e)
    case Ok(call) => Exchange(t, call)
  }

  /**
    The JSON `invokeApiInternal`: the body is sent as the UTF-8 bytes of its
    text with a JSON Content-Type, and a non-empty parameter list adds the
    AdditionalQueryParameters feature.
   */
  function JsonApiCallOf(codec: JsonCodec, apiName: Option<string>, body: Option<Json>, httpMethod: Option<string>,
                       parameters: Option<seq<Param>>, features: set<Feature>): (r: Result<Call, Failure>)
    ensures (apiName.None? || IsBlank(apiName.value)) <==> r.Err?
    ensures r.Ok? ==> r.value.path == Some(CustomApiUrl + apiName.value) && r.value.httpMethod == httpMethod
    ensures r.Ok? ==> (body.None? <==> r.value.content.None?)
    ensures r.Ok? && body.Some? ==> Utf8.Decode(r.value.content.value) == codec.serialize(body.value)
    ensures r.Ok? ==> r.value.headers.Some?
                      && (HeaderValue(r.value.headers.value, ContentTypeHeader) == (if body.Some? then Some(JsonContentType) else None))
                      && |r.value.headers.value| <= 1
    ensures r.Ok? ==> (AdditionalQueryParameters in r.value.features <==>
                         AdditionalQueryParameters in features || (parameters.Some? && |parameters.value| > 0))
    ensures r.Ok? ==> features <= r.value.features && r.value.features <= features + {AdditionalQueryParameters}
  {
    var content := if body.Some? then Some(Utf8.Encode(codec.serialize(body.value))) else None;
    var headers := if body.Some? then [Header(ContentTypeHeader, JsonContentType)] else [];
    var allFeatures := if parameters.Some? && |parameters.value| > 0 then features + {AdditionalQueryParameters} else features;
    assert body.Some? ==> Utf8.Decode(content.value) == codec.serialize(body.value) by {
      if body.Some? {
        DecodeEncode(codec.serialize(body.value));
      }
    }
    assert body.Some? ==> HeaderValue(headers, ContentTypeHeader) == Some(JsonContentType) by {
      if body.Some? {
        assert headers[..0] == [];
      }
    }
    ApiCall(apiName, content, httpMethod, Some(headers), parameters, allFeatures)
  }

  /** The service's answer to a JSON call: no content is JSON null, anything else is parsed. */
  function JsonResult(codec: JsonCodec, content: Option<string>): (r: Result<Json, Failure>)
    ensures content.None? ==> r == Ok(JNull)
    ensures content.Some? ==> r == codec.parse(content.value)
  {
    if content.None? then Ok(JNull) else codec.parse(content.value)
  }

  /**
    The JSON `invokeApi` end to end, flagged as a JSON API call: a failed
    exchange is passed on, and a successful one answers its content read as
    JSON (no content is JSON null).
   */
  function InvokeApiJson(t: Transport, codec: JsonCodec, apiName: Option<string>, body: Option<Json>,
                         httpMethod: Option<string>, parameters: Option<seq<Param>>): (r: Result<Json, Failure>)
    ensures (apiName.None? || IsBlank(apiName.value)) ==> r == Err(IllegalArgument(ApiNameRequiredMessage))
    ensures JsonApiCallOf(codec, apiName, body, httpMethod, parameters, {JsonApiCall}).Ok? ==>
              var answer := Exchange(t, JsonApiCallOf(codec, apiName, body, httpMethod, parameters, {JsonApiCall}).value);
              && (answer.Err? ==> r == Err(answer.error))
              && (answer.Ok? && answer.value.content.None? ==> r == Ok(JNull))
              && (answer.Ok? && answer.value.content.Some? ==> r == codec.parse(answer.value.content.value))
  {
    match JsonApiCallOf(codec, apiName, body, httpMethod, parameters, {JsonApiCall})
    case Err(e) => Err(e)
    case Ok(call) =>
      match Exchange(t, call)
      case Err(e) => Err(e)
      case Ok(response) => JsonResult(codec, response.content)
  }

  /**
    The JSON `invokeApi` against the transport's answer to the configured
    request: a 2xx response gives its content read as JSON, any other status
    the wrapped service exception carrying that response.
   */
  lemma InvokeApiJsonAnswers(t: Transport, codec: JsonCodec, apiName: string, body: Option<Json>,
                             httpMethod: Option<string>, parameters: Option<seq<Param>>, response: Response)
    requires !IsBlank(apiName)
    requires var call := JsonApiCallOf(codec, Some(apiName), body, httpMethod, parameters, {JsonApiCall}).value;
             && Request(t.http, call).Ok?
             && t.execute(Connections.ConfigureHeaders(Request(t.http, call).value, t.appKey)) == Returned(response)
    ensures Connections.IsSuccessStatus(response.status) ==>
              InvokeApiJson(t, codec, Some(apiName), body, httpMethod, parameters)
              == (if response.content.None? then Ok(JNull) else codec.parse(response.content.value))
    ensures !Connections.IsSuccessStatus(response.status) ==>
              InvokeApiJson(t, codec, Some(apiName), body, httpMethod, parameters) == Err(Connections.StatusFailure(response))
  {
  }

  /** A typed call's body: a `JsonElement` is sent as is, any other object through Gson's `toJsonTree`. */
  datatype ApiBody<T> = JsonBody(json: Json) | ObjectBody(obj: T)

  function BodyJson<T>(body: Option<ApiBody<T>>, toJsonTree: T -> Json): (j: Option<Json>)
    ensures body.None? <==> j.None?
    ensures body.Some? && body.value.JsonBody? ==> j == Some(body.value.json)
    ensures body.Some? && body.value.ObjectBody? ==> j == Some(toJsonTree(body.value.obj))
  {
    match body
    case None => None
    case Some(JsonBody(json)) => Some(json)
    case Some(ObjectBody(obj)) => Some(toJsonTree(obj))
  }

  /** A typed call's result: an array of every entity for an array class, else the first entity. */
  datatype TypedValue<E> = Entities(items: seq<E>) | Entity(item: E)

  /** The result of a typed call from the parsed entities; taking the first of none fails as `List.get(0)` does. */
  function TypedResult<E>(isArray: bool, entities: seq<E>): (r: Result<TypedValue<E>, Failure>)
    ensures isArray ==> r == Ok(Entities(entities))
    ensures !isArray && |entities| > 0 ==> r == Ok(Entity(entities[0]))
    ensures r.Err? <==> !isArray && entities == []
  {
    if isArray then Ok(Entities(entities))
    else if |entities| > 0 then Ok(Entity(entities[0]))
    else Err(RuntimeFailure("IndexOutOfBoundsException", "Index: 0, Size: 0"))
  }

  /** The class a typed call asks for: whether it is an array class. `None` is a `null` class. */
  datatype ResultClass = ResultClass(isArray: bool)

  /**
    The typed `invokeApi` end to end, flagged as a typed API call. A `null`
    class is refused before anything is sent; `parseResults` stands for
    `JsonEntityParser.parseResults` on the component class, which fails when
    Gson cannot bind the JSON to that class.
   */
  function InvokeApiTyped<T, E>(t: Transport, codec: JsonCodec, apiName: Option<string>, body: Option<ApiBody<T>>,
                                httpMethod: Option<string>, parameters: Option<seq<Param>>, clazz: Option<ResultClass>,
                                toJsonTree: T -> Json, parseResults: Json -> Result<seq<E>, Failure>): (r: Result<TypedValue<E>, Failure>)
    ensures clazz.None? ==> r == Err(IllegalArgument(ClassRequiredMessage))
    ensures clazz.Some? && (apiName.None? || IsBlank(apiName.value)) ==> r == Err(IllegalArgument(ApiNameRequiredMessage))
    ensures clazz.Some? && clazz.value.isArray && r.Ok? ==> r.value.Entities?
    ensures clazz.Some? && !clazz.value.isArray && r.Ok? ==> r.value.Entity?
    ensures clazz.Some? && JsonApiCallOf(codec, apiName, BodyJson(body, toJsonTree), httpMethod, parameters, {TypedApiCall}).Ok? ==>
              var answer := Exchange(t, JsonApiCallOf(codec, apiName, BodyJson(body, toJsonTree), httpMethod, parameters, {TypedApiCall}).value);
              && (answer.Err? ==> r == Err(answer.error))
              && (answer.Ok? && JsonResult(codec, answer.value.content).Err? ==> r == Err(JsonResult(codec, answer.value.content).error))
              && (answer.Ok? && JsonResult(codec, answer.value.content).Ok? ==>
                    var parsed := parseResults(JsonResult(codec, answer.value.content).value);
                    && (parsed.Err? ==> r == Err(parsed.error))
                    && (parsed.Ok? ==> r == TypedResult(clazz.value.isArray, parsed.value)))
  {
    if clazz.None? then Err(IllegalArgument(ClassRequiredMessage))
    else
      var json := BodyJson(body, toJsonTree);
      match JsonApiCallOf(codec, apiName, json, httpMethod, parameters, {TypedApiCall})
      case Err(e) => Err(e)
      case Ok(call) =>
        match Exchange(t, call)
        case Err(e) => Err(e)
        case Ok(response) =>
          match JsonResult(codec, response.content)
          case Err(e) => Err(e)
          case Ok(value) =>
            match parseResults(value)
            case Err(e) => Err(e)
            case Ok(entities) => TypedResult(clazz.value.isArray, entities)
  }

  /**
    The typed `invokeApi` against the transport's answer: a 2xx response
    whose content reads as JSON gives the entities parsed from it, all of
    them for an array class and the first otherwise, or the binding error
    when they cannot be parsed; any other status the
    wrapped service exception carrying that response.
   */
  lemma InvokeApiTypedAnswers<T, E>(t: Transport, codec: JsonCodec, apiName: string, body: Option<ApiBody<T>>,
                                    httpMethod: Option<string>, parameters: Option<seq<Param>>, clazz: ResultClass,
                                    toJsonTree: T -> Json, parseResults: Json -> Result<seq<E>, Failure>, response: Response, value: Json)
    requires !IsBlank(apiName)
    requires var call := JsonApiCallOf(codec, Some(apiName), BodyJson(body, toJsonTree), httpMethod, parameters, {TypedApiCall}).value;
             && Request(t.http, call).Ok?
             && t.execute(Connections.ConfigureHeaders(Request(t.http, call).value, t.appKey)) == Returned(response)
    requires JsonResult(codec, response.content) == Ok(value)
    ensures Connections.IsSuccessStatus(response.status) && parseResults(value).Ok? ==>
              InvokeApiTyped(t, codec, Some(apiName), body, httpMethod, parameters, Some(clazz), toJsonTree, parseResults)
              == TypedResult(clazz.isArray, parseResults(value).value)
    ensures Connections.IsSuccessStatus(response.status) && parseResults(value).Err? ==>
              InvokeApiTyped(t, codec, Some(apiName), body, httpMethod, parameters, Some(clazz), toJsonTree, parseResults)
              == Err(parseResults(value).error)
    ensures !Connections.IsSuccessStatus(response.status) ==>
              InvokeApiTyped(t, codec, Some(apiName), body, httpMethod, parameters, Some(clazz), toJsonTree, parseResults)
              == Err(Connections.StatusFailure(response))
  {
  }
}

=== FILE: service_types.dfy ===
/**
  Vocabulary shared by the HTTP layer and the tables: header and query
  parameter pairs, responses, SDK feature flags, the HTTP constants, and the
  exceptions the client raises.
 */
module ServiceTypes {
  import opened Outcomes
  import opened JavaStrings
  import opened JsonModel

  /** One request or response header, in the order it was added. */
  datatype Header = Header(name: string, value: string)

  /** One user-defined query-string parameter (`Pair<String, String>`). */
  datatype Param = Param(name: string, value: string)

  /** What the transport hands back: status code, headers and the body as text. */
  datatype Response = Response(status: int, headers: seq<Header>, content: Option<string>)

  /** The SDK features that are reported to the service in `X-ZUMO-FEATURES`. */
  datatype Feature =
    | UntypedTable
    | TypedTable
    | AdditionalQueryParameters
    | OpportunisticConcurrency
    | TypedApiCall
    | JsonApiCall
    | GenericApiCall

  // HttpConstants and the content type of MobileServiceConnection
  const PostMethod := "POST"
  const GetMethod := "GET"
  const DeleteMethod := "DELETE"
  const PatchMethod := "PATCH"
  const PutMethod := "PUT"
  const ContentTypeHeader := "Content-Type"
  const JsonContentType := "application/json"

  /** The payload of `MobileServiceExceptionBase`: message, cause and response copied from the exception it wraps, and the server's copy of the item. */
  datatype ExceptionInfo = ExceptionInfo(message: string, cause: Option<Failure>, response: Option<Response>, value: Option<JsonObject>)

  /** The exceptions the client raises or passes on. */
  datatype Failure =
    | IllegalArgument(message: string)
      /** `MobileServiceException` */
    | ServiceFailure(message: string, cause: Option<Failure>, response: Option<Response>)
      /**
        `new MobileServiceException(throwable)`: a service exception around
        another one; its message and response come from a constructor that is
        not part of this model
       */
    | WrappedFailure(inner: Failure)
      /** `MobileServicePreconditionFailedExceptionJson` (HTTP 412) */
    | PreconditionFailedJson(info: ExceptionInfo)
      /** `MobileServiceConflictExceptionJson` (HTTP 409) */
    | ConflictJson(info: ExceptionInfo)
      /** Gson's `JsonParseException` and `JsonSyntaxException` */
    | JsonParseFailure(message: string)
      /** any other runtime exception, named by its Java class */
    | RuntimeFailure(kind: string, message: string)

  /** `instanceof MobileServiceException`: the base class and its subclasses. */
  predicate IsServiceException(f: Failure) {
    f.ServiceFailure? || f.WrappedFailure? || f.PreconditionFailedJson? || f.ConflictJson?
  }

  /**
    `Throwable.getCause()` of a service exception. The other exceptions only
    ever reach the client from code outside this model, and are taken to
    carry no cause.
   */
  function CauseOf(f: Failure): (c: Option<Failure>)
    ensures !IsServiceException(f) ==> c.None?
  {
    match f
    case ServiceFailure(_, cause, _) => cause
    case WrappedFailure(inner) => Some(inner)
    case PreconditionFailedJson(info) => info.cause
    case ConflictJson(info) => info.cause
    case _ => None
  }

  /**
    Gson as the client uses it: `JsonElement.toString()` and
    `new JsonParser().parse(text)`, which may throw. Both live outside this
    model and are taken as given functions.
   */
  datatype JsonCodec = JsonCodec(serialize: Json -> string, parse: string -> Result<Json, Failure>)

  /** What executing a request against the transport does: answer, or throw. */
  datatype Executed = Returned(response: Response) | Threw(failure: Failure)

  // ---------------------------------------------------------------------
  // header lists (okhttp3.Headers)
  // ---------------------------------------------------------------------

  /** `Headers.get(name)`: the value of the LAST header whose name matches ignoring case. */
  function HeaderValue(hs: seq<Header>, name: string): Option<string>
    decreases |hs|
  {
    if hs == [] then None
    else if EqualsIgnoreCase(hs[|hs| - 1].name, name) then Some(hs[|hs| - 1].value)
    else HeaderValue(hs[..|hs| - 1], name)
  }

  /** `Headers.get` finds nothing exactly when no name matches, and otherwise the value of the last match. */
  lemma {:induction false} HeaderValueMeaning(hs: seq<Header>, name: string)
    ensures HeaderValue(hs, name).None? <==> forall i :: 0 <= i < |hs| ==> !EqualsIgnoreCase(hs[i].name, name)
    ensures HeaderValue(hs, name).Some? ==>
              exists i :: 0 <= i < |hs| && EqualsIgnoreCase(hs[i].name, name) && hs[i].value == HeaderValue(hs, name).value
                          && forall j :: i < j < |hs| ==> !EqualsIgnoreCase(hs[j].name, name)
    decreases |hs|
  {
    if hs != [] {
      var init := hs[..|hs| - 1];
      var k := |hs| - 1;
      HeaderValueMeaning(init, name);
      if EqualsIgnoreCase(hs[k].name, name) {
        assert HeaderValue(hs, name) == Some(hs[k].value);
      } else {
        assert HeaderValue(hs, name) == HeaderValue(init, name);
        assert forall i :: 0 <= i < k ==> hs[i] == init[i];
        if HeaderValue(init, name).Some? {
          var i :| 0 <= i < |init| && EqualsIgnoreCase(init[i].name, name) && init[i].value == HeaderValue(init, name).value
                   && forall j :: i < j < |init| ==> !EqualsIgnoreCase(init[j].name, name);
          assert hs[i] == init[i];
        }
      }
    }
  }

  /** Headers added after the last match of `name` do not change what `Headers.get(name)` sees. */
  lemma {:induction false} HeaderValueAppend(hs: seq<Header>, more: seq<Header>, name: string)
    requires forall i :: 0 <= i < |more| ==> !EqualsIgnoreCase(more[i].name, name)
    ensures HeaderValue(hs + more, name) == HeaderValue(hs, name)
    decreases |more|
  {
    if more != [] {
      var all := hs + more;
      assert all[..|all| - 1] == hs + more[..|more| - 1];
      HeaderValueAppend(hs, more[..|more| - 1], name);
    } else {
      assert hs + more == hs;
    }
  }

  /** Number of headers whose name is exactly `name` (case-sensitive `String.equals`). */
  function CountNamed(hs: seq<Header>, name: string): (n: nat)
    ensures n <= |hs|
    ensures n == 0 <==> forall i :: 0 <= i < |hs| ==> hs[i].name != name
    decreases |hs|
  {
    if hs == [] then 0
    else (if hs[|hs| - 1].name == name then 1 else 0) + CountNamed(hs[..|hs| - 1], name)
  }

  /** `Request.Builder.removeHeader(name)`: drops every header whose name matches ignoring case. */
  function WithoutNamed(hs: seq<Header>, name: string): (r: seq<Header>)
    ensures |r| <= |hs|
    ensures forall i :: 0 <= i < |r| ==> r[i] in hs && !EqualsIgnoreCase(r[i].name, name)
    ensures forall i :: 0 <= i < |hs| && !EqualsIgnoreCase(hs[i].name, name) ==> hs[i] in r
    decreases |hs|
  {
    if hs == [] then []
    else
      var last := hs[|hs| - 1];
      var rest := WithoutNamed(hs[..|hs| - 1], name);
      if EqualsIgnoreCase(last.name, name) then rest else rest + [last]
  }

  /** `removeHeader` on one header: it stays exactly when its name differs from the removed one. */
  lemma WithoutNamedSingle(h: Header, name: string)
    ensures WithoutNamed([h], name) == if EqualsIgnoreCase(h.name, name) then [] else [h]
  {
  }

  /**
    `removeHeader` keeps every other header in order and with repeats: it
    distributes over concatenation, so with `WithoutNamedSingle` it is a
    filter of the list.
   */
  lemma {:induction false} WithoutNamedKeepsOrder(a: seq<Header>, b: seq<Header>, name: string)
    ensures WithoutNamed(a + b, name) == WithoutNamed(a, name) + WithoutNamed(b, name)
    decreases |b|
  {
    if b == [] {
      assert a + b == a;
    } else {
      var init := b[..|b| - 1];
      var last := b[|b| - 1];
      assert b == init + [last];
      assert a + b == (a + init) + [last];
      WithoutNamedKeepsOrder(a, init, name);
      WithoutNamedSnoc(a + init, last, name);
      WithoutNamedSnoc(init, last, name);
    }
  }

  /** Removing from a list with one more header at the end. */
  lemma WithoutNamedSnoc(hs: seq<Header>, h: Header, name: string)
    ensures WithoutNamed(hs + [h], name) == WithoutNamed(hs, name) + (if EqualsIgnoreCase(h.name, name) then [] else [h])
  {
    assert (hs + [h])[..|hs|] == hs;
  }

  /** Matching names ignoring case is transitive. */
  lemma EqualsIgnoreCaseTransitive(a: string, b: string, c: string)
    requires EqualsIgnoreCase(a, b) && EqualsIgnoreCase(b, c)
    ensures EqualsIgnoreCase(a, c)
  {
  }

  /** Removing one name leaves what `Headers.get` reports for every other name unchanged. */
  lemma {:induction false} HeaderValueWithout(hs: seq<Header>, name: string, other: string)
    requires !EqualsIgnoreCase(other, name)
    ensures HeaderValue(WithoutNamed(hs, name), other) == HeaderValue(hs, other)
    decreases |hs|
  {
    if hs != [] {
      var init := hs[..|hs| - 1];
      var last := hs[|hs| - 1];
      var rest := WithoutNamed(init, name);
      HeaderValueWithout(init, name, other);
      if EqualsIgnoreCase(last.name, other) {
        if EqualsIgnoreCase(last.name, name) {
          EqualsIgnoreCaseSymmetric(last.name, other);
          EqualsIgnoreCaseTransitive(other, last.name, name);
        }
        assert (rest + [last])[..|rest + [last]| - 1] == rest;
      } else if !EqualsIgnoreCase(last.name, name) {
        assert (rest + [last])[..|rest + [last]| - 1] == rest;
      }
    }
  }

  /** Matching names ignoring case is symmetric. */
  lemma EqualsIgnoreCaseSymmetric(a: string, b: string)
    requires EqualsIgnoreCase(a, b)
    ensures EqualsIgnoreCase(b, a)
  {
  }
}

=== FILE: table_operations.dfy ===
/**
  `AbstractTableOperation`: the record of one offline table operation. Its
  id, table name, item id and creation time are fixed when it is built; its
  state and its item are the only parts that change. The setters return the
  updated record.

  The operation states are an enum outside this model (`S` here); a `Date`
  is its time in milliseconds; the generated id and the clock reading of the
  two-argument constructor are parameters.
 */
module TableOperations {
  import opened Outcomes
  import opened JsonModel

  datatype TableOperation<S> = TableOperation(
    id: string,
    tableName: string,
    itemId: string,
    createdAt: int,
    state: Option<S>,
    item: Option<JsonObject>)
  {
    /** The parts no setter touches. */
    predicate SameIdentity(other: TableOperation<S>) {
      id == other.id && tableName == other.tableName && itemId == other.itemId && createdAt == other.createdAt
    }
  }

  /** The four-argument constructor: the identity as given, no state and no item yet. */
  function Create<S>(id: string, tableName: string, itemId: string, createdAt: int): (op: TableOperation<S>)
    ensures op.id == id && op.tableName == tableName && op.itemId == itemId && op.createdAt == createdAt
    ensures op.state.None? && op.item.None?
  {
    TableOperation(id, tableName, itemId, createdAt, None, None)
  }

  /** The two-argument constructor: a freshly generated id and the current time, the rest as the four-argument one. */
  function CreateNew<S>(tableName: string, itemId: string, generatedId: string, now: int): (op: TableOperation<S>)
    ensures op.tableName == tableName && op.itemId == itemId
    ensures op.id == generatedId && op.createdAt == now
    ensures op.state.None? && op.item.None?
  {
    Create(generatedId, tableName, itemId, now)
  }

  /** `setOperationState`: only the state changes (`null` is allowed and resets it). */
  function SetOperationState<S>(op: TableOperation<S>, state: Option<S>): (op': TableOperation<S>)
    ensures op'.SameIdentity(op) && op'.item == op.item
    ensures op'.state == state
  {
    op.(state := state)
  }

  /** `setItem`: only the item changes (`null` is allowed). */
  function SetItem<S>(op: TableOperation<S>, item: Option<JsonObject>): (op': TableOperation<S>)
    ensures op'.SameIdentity(op) && op'.state == op.state
    ensures op'.item == item
  {
    op.(item := item)
  }

  /** One call to a setter. */
  datatype Change<S> = StateSet(state: Option<S>) | ItemSet(item: Option<JsonObject>)

  /** The record after a series of setter calls, in order. */
  function ApplyAll<S>(op: TableOperation<S>, changes: seq<Change<S>>): (op': TableOperation<S>)
    ensures op'.SameIdentity(op)
    decreases |changes|
  {
    if changes == [] then op
    else
      var before := ApplyAll(op, changes[..|changes| - 1]);
      match changes[|changes| - 1]
      case StateSet(s) => SetOperationState(before, s)
      case ItemSet(i) => SetItem(before, i)
  }

  /** The state the last `setOperationState` call set, if any (the outer `None`: no call). */
  function LastState<S>(changes: seq<Change<S>>): (s: Option<Option<S>>)
    ensures s.None? <==> forall k :: 0 <= k < |changes| ==> !changes[k].StateSet?
    decreases |changes|
  {
    if changes == [] then None
    else if changes[|changes| - 1].StateSet? then Some(changes[|changes| - 1].state)
    else LastState(changes[..|changes| - 1])
  }

  /** The item the last `setItem` call set, if any (the outer `None`: no call). */
  function LastItem<S>(changes: seq<Change<S>>): (i: Option<Option<JsonObject>>)
    ensures i.None? <==> forall k :: 0 <= k < |changes| ==> !changes[k].ItemSet?
    decreases |changes|
  {
    if changes == [] then None
    else if changes[|changes| - 1].ItemSet? then Some(changes[|changes| - 1].item)
    else LastItem(changes[..|changes| - 1])
  }

  /** The state and item read after any series of setter calls are those of the last call of each kind. */
  lemma {:induction false} LastWriteWins<S>(op: TableOperation<S>, changes: seq<Change<S>>)
    ensures ApplyAll(op, changes).state == LastState(changes).GetOr(op.state)
    ensures ApplyAll(op, changes).item == LastItem(changes).GetOr(op.item)
    decreases |changes|
  {
    if changes != [] {
      LastWriteWins(op, changes[..|changes| - 1]);
    }
  }

  /** A freshly built operation reads its state as unset until `setOperationState` is called. */
  lemma StateUnsetUntilSet<S>(tableName: string, itemId: string, generatedId: string, now: int, changes: seq<Change<S>>)
    requires forall k :: 0 <= k < |changes| ==> changes[k].ItemSet?
    ensures ApplyAll(CreateNew<S>(tableName, itemId, generatedId, now), changes).state.None?
  {
    LastWriteWins(CreateNew<S>(tableName, itemId, generatedId, now), changes);
  }

  /** A `setOperationState(null)` call makes the state read as unset again, whatever came before it. */
  lemma StateResetByNull<S>(op: TableOperation<S>, changes: seq<Change<S>>, later: seq<Change<S>>)
    requires forall k :: 0 <= k < |later| ==> later[k].ItemSet?
    ensures ApplyAll(op, changes + [StateSet(None)] + later).state.None?
  {
    var all := changes + [StateSet(None)] + later;
    LastWriteWins(op, all);
    LastStateSkipsItems(changes + [StateSet(None)], later);
  }

  /** Item calls after the last state call do not change which state call is the last. */
  lemma {:induction false} LastStateSkipsItems<S>(changes: seq<Change<S>>, later: seq<Change<S>>)
    requires forall k :: 0 <= k < |later| ==> later[k].ItemSet?
    ensures LastState(changes + later) == LastState(changes)
    decreases |later|
  {
    if later == [] {
      assert changes + later == changes;
    } else {
      var all := changes + later;
      assert all[..|all| - 1] == changes + later[..|later| - 1];
      LastStateSkipsItems(changes, later[..|later| - 1]);
    }
  }
}

=== FILE: typed_tables.dfy ===
/**
  `MobileServiceTable<E>`: the typed table. It talks to the service through
  an internal JSON table, turns JSON answers into lists of entities with
  their total count and next-page link, and turns the JSON table's
  precondition and conflict exceptions into typed ones that carry the
  server's copy of the entity.

  Parsing entities (`JsonEntityParser.parseResults` with Gson) and turning
  an entity into a JSON tree happen outside this model; they are given
  functions. A `null` JSON element is `None`.
 */
module TypedTables {
  import opened Outcomes
  import opened JavaStrings
  import opened JsonModel
  import opened ServiceTypes
  import opened HttpClients
  import JsonTables

  const CountProperty := "count"

  /** `MobileServiceList<E>`: the entities of one page, the total count, and the link to the next page. */
  datatype MobileServiceList<E> = MobileServiceList(items: seq<E>, totalCount: int, nextLink: Option<string>)

  /**
    The typed exceptions: `MobileServicePreconditionFailedException` and
    `MobileServiceConflictException` carry the JSON exception's payload and
    the entity parsed from the server's copy (`null` when none); any other
    exception is passed on as it is.
   */
  datatype TypedFailure<E> =
    | Untyped(failure: Failure)
    | PreconditionFailed(info: ExceptionInfo, entity: Option<E>)
    | Conflict(info: ExceptionInfo, entity: Option<E>)

  // ---------------------------------------------------------------------
  // reading numbers and strings out of JSON (Gson's getAsInt / getAsString)
  // ---------------------------------------------------------------------

  /** `Integer.parseInt`: an optional sign, at least one decimal digit, and a value that fits 32 bits. */
  function ParseJavaInt(s: string): (r: Option<int>)
    ensures r.Some? ==> -0x8000_0000 <= r.value < 0x8000_0000
    ensures r.Some? ==> |s| > 0 && (r.value < 0 ==> s[0] == '-')
    // what is accepted: after an optional sign, only digits, and at least one
    ensures r.Some? && s[0] == '-' ==> |s| >= 2 && IsDigits(s[1..]) && r.value == -(DecimalValue(s[1..]) as int)
    ensures r.Some? && s[0] == '+' ==> |s| >= 2 && IsDigits(s[1..]) && r.value == DecimalValue(s[1..])
    ensures r.Some? && s[0] != '-' && s[0] != '+' ==> IsDigits(s) && r.value == DecimalValue(s)
    // and everything of that shape within range is accepted
    ensures |s| >= 1 && IsDigits(s) && DecimalValue(s) < 0x8000_0000 ==> r == Some(DecimalValue(s))
    ensures |s| >= 2 && s[0] == '+' && IsDigits(s[1..]) && DecimalValue(s[1..]) < 0x8000_0000 ==> r == Some(DecimalValue(s[1..]))
    ensures |s| >= 2 && s[0] == '-' && IsDigits(s[1..]) && DecimalValue(s[1..]) <= 0x8000_0000 ==> r == Some(-(DecimalValue(s[1..]) as int))
  {
    if s == [] then None
    else
      var digits := if s[0] == '-' || s[0] == '+' then s[1..] else s;
      if digits == [] || !IsDigits(digits) then None
      else
        var magnitude: int := DecimalValue(digits);
        var v := if s[0] == '-' then -magnitude else magnitude;
        if -0x8000_0000 <= v < 0x8000_0000 then Some(v) else None
  }

  /** Every 32-bit integer's decimal text parses back to it. */
  lemma ParseJavaIntRoundTrip(n: int)
    requires -0x8000_0000 <= n < 0x8000_0000
    ensures ParseJavaInt(IntToString(n)) == Some(n)
  {
    if n < 0 {
      DecimalRoundTrip(-n);
      assert ("-" + NatToString(-n))[1..] == NatToString(-n);
    } else {
      DecimalRoundTrip(n);
    }
  }

  /**
    `JsonElement.getAsInt`: a number truncated to 32 bits, a string parsed
    as an `int`, a one-element array read through its element; anything
    else throws.
   */
  function GetAsInt(j: Json): (r: Result<int, Failure>)
    ensures r.Ok? ==> -0x8000_0000 <= r.value < 0x8000_0000
    ensures j.JNumber? ==> r == Ok(ToInt32(j.n))
    ensures (j.JNull? || j.JObject? || j.JBool?) ==> r.Err?
    ensures j.JString? ==> (r.Ok? <==> ParseJavaInt(j.s).Some?)
    ensures j.JString? && r.Ok? ==> ParseJavaInt(j.s) == Some(r.value)
    ensures j.JArray? && |j.items| == 1 ==> r == GetAsInt(j.items[0])
    ensures j.JArray? && |j.items| != 1 ==> r.Err?
    decreases j
  {
    match j
    case JNumber(n) => Ok(ToInt32(n))
    case JString(s) =>
      (match ParseJavaInt(s)
       case None => Err(RuntimeFailure("NumberFormatException", "For input string: \"" + s + "\""))
       case Some(v) => Ok(v))
    case JBool(b) => Err(RuntimeFailure("NumberFormatException", "For input string: \"" + (if b then "true" else "false") + "\""))
    case JArray(items) =>
      if |items| == 1 then GetAsInt(items[0]) else Err(RuntimeFailure("IllegalStateException", ""))
    case JNull => Err(RuntimeFailure("UnsupportedOperationException", "JsonNull"))
    case JObject(_) => Err(RuntimeFailure("UnsupportedOperationException", "JsonObject"))
  }

  /** The decimal text of any integer reads back as its sign and magnitude. */
  lemma IntToStringReadsBack(n: int)
    ensures n >= 0 ==> IsDigits(IntToString(n)) && DecimalValue(IntToString(n)) == n
    ensures n < 0 ==> |IntToString(n)| >= 2 && IsDigits(IntToString(n)[1..]) && DecimalValue(IntToString(n)[1..]) == -n
  {
    if n < 0 {
      DecimalRoundTrip(-n);
      assert IntToString(n)[1..] == NatToString(-n);
    } else {
      DecimalRoundTrip(n);
    }
  }

  /** A count sent as a number or as its decimal text reads the same. */
  lemma GetAsIntNumberOrText(n: int)
    requires -0x8000_0000 <= n < 0x8000_0000
    ensures GetAsInt(JNumber(n)) == GetAsInt(JString(IntToString(n))) == Ok(n)
  {
    ParseJavaIntRoundTrip(n);
  }

  /** `JsonElement.getAsString`: a string as it is, a number or boolean as its text, a one-element array through its element. */
  function GetAsString(j: Json): (r: Result<string, Failure>)
    ensures j.JString? ==> r == Ok(j.s)
    ensures j.JNumber? ==> r.Ok?
    ensures j.JNumber? && -0x8000_0000 <= j.n < 0x8000_0000 ==> ParseJavaInt(r.value) == Some(j.n)
    ensures j.JNumber? && j.n >= 0 ==> IsDigits(r.value) && DecimalValue(r.value) == j.n
    ensures j.JNumber? && j.n < 0 ==> |r.value| >= 2 && r.value[0] == '-' && IsDigits(r.value[1..]) && DecimalValue(r.value[1..]) == -j.n
    ensures j.JBool? ==> r == Ok(if j.b then "true" else "false")
    ensures j.JArray? && |j.items| == 1 ==> r == GetAsString(j.items[0])
    ensures j.JArray? && |j.items| != 1 ==> r.Err?
    ensures (j.JNull? || j.JObject?) ==> r.Err?
    decreases j
  {
    match j
    case JString(s) => Ok(s)
    case JNumber(n) =>
      assert -0x8000_0000 <= n < 0x8000_0000 ==> ParseJavaInt(IntToString(n)) == Some(n) by {
        if -0x8000_0000 <= n < 0x8000_0000 {
          ParseJavaIntRoundTrip(n);
        }
      }
      IntToStringReadsBack(n);
      Ok(IntToString(n))
    case JBool(b) => Ok(if b then "true" else "false")
    case JArray(items) =>
      if |items| == 1 then GetAsString(items[0]) else Err(RuntimeFailure("IllegalStateException", ""))
    case JNull => Err(RuntimeFailure("UnsupportedOperationException", "JsonNull"))
    case JObject(_) => Err(RuntimeFailure("UnsupportedOperationException", "JsonObject"))
  }

  /** `JsonObject.get(name)`: the member, or `null`. */
  function Member(o: JsonObject, name: string): (r: Option<Json>)
    ensures r.Some? <==> name in o
    ensures r.Some? ==> r.value == o[name]
  {
    if name in o then Some(o[name]) else None
  }

  // ---------------------------------------------------------------------
  // shaping query results
  // ---------------------------------------------------------------------

  /**
    `processQueryResults`: for an object, the entities under `results`, the
    `count` member (0 when absent) and the `nextLink` member (none when
    absent); for anything else, its entities counted by the list's size.
   */
  function ProcessQueryResults<E>(parse: Option<Json> -> Result<seq<E>, Failure>, result: Json): (r: Result<MobileServiceList<E>, Failure>)
    ensures !result.JObject? ==> (r.Ok? <==> parse(Some(result)).Ok?)
    ensures !result.JObject? && r.Ok? ==> r.value == MobileServiceList(parse(Some(result)).value, |parse(Some(result)).value|, None)
    ensures result.JObject? && r.Ok? ==>
              var o := result.members;
              && parse(Member(o, ResultsPropertyName)).Ok?
              && r.value.items == parse(Member(o, ResultsPropertyName)).value
              && (CountProperty !in o ==> r.value.totalCount == 0)
              && (CountProperty in o ==> GetAsInt(o[CountProperty]) == Ok(r.value.totalCount))
              && (r.value.nextLink.Some? <==> JsonTables.NextLinkProperty in o)
              && (r.value.nextLink.Some? ==> GetAsString(o[JsonTables.NextLinkProperty]) == Ok(r.value.nextLink.value))
    ensures result.JObject? && r.Err? ==>
              var o := result.members;
              || (CountProperty in o && GetAsInt(o[CountProperty]).Err?)
              || (JsonTables.NextLinkProperty in o && GetAsString(o[JsonTables.NextLinkProperty]).Err?)
              || parse(Member(o, ResultsPropertyName)).Err?
  {
    if result.JObject? then
      var o := result.members;
      var count := if CountProperty in o then GetAsInt(o[CountProperty]) else Ok(0);
      var nextLink := if JsonTables.NextLinkProperty in o then (match GetAsString(o[JsonTables.NextLinkProperty]) case Ok(s) => Ok(Some(s)) case Err(e) => Err(e)) else Ok(None);
      if count.Err? then Err(count.error)
      else if nextLink.Err? then Err(nextLink.error)
      else
        match parse(Member(o, ResultsPropertyName))
        case Err(e) => Err(e)
        case Ok(items) => Ok(MobileServiceList(items, count.value, nextLink.value))
    else
      match parse(Some(result))
      case Err(e) => Err(e)
      case Ok(items) => Ok(MobileServiceList(items, |items|, None))
  }

  const ResultsPropertyName := JsonTables.ResultsProperty

  /** A paged answer from the JSON table reads back as its results, count 0 and the link without its `rel` suffix. */
  lemma ProcessEnvelope<E>(parse: Option<Json> -> Result<seq<E>, Failure>, body: Json, headers: seq<Header>, url: string)
    requires HeaderValue(headers, JsonTables.LinkHeader) == Some(url + JsonTables.NextLinkSuffix)
    requires ';' !in url
    requires parse(Some(body)).Ok?
    ensures ProcessQueryResults(parse, JsonTables.LinkEnvelope(body, headers))
              == Ok(MobileServiceList(parse(Some(body)).value, 0, Some(url)))
  {
    JsonTables.NextLinkRecovered(body, headers, url);
  }

  /**
    `execute()` as written: the `count` member is read without checking it is
    there, so an object answer without one fails with a
    `NullPointerException`; an array answer gets the count -1.
   */
  function ExecuteAllAsWritten<E>(parse: Option<Json> -> Result<seq<E>, Failure>, result: Json): (r: Result<MobileServiceList<E>, Failure>)
    ensures result.JObject? && CountProperty !in result.members ==> r == Err(RuntimeFailure("NullPointerException", ""))
    ensures !result.JObject? && r.Ok? ==> r.value.totalCount == -1 && r.value.nextLink.None?
    ensures !result.JObject? ==> (r.Ok? <==> parse(Some(result)).Ok?)
  {
    if result.JObject? then
      var o := result.members;
      if CountProperty !in o then Err(RuntimeFailure("NullPointerException", ""))
      else
        match GetAsInt(o[CountProperty])
        case Err(e) => Err(e)
        case Ok(count) =>
          match parse(Member(o, ResultsPropertyName))
          case Err(e) => Err(e)
          case Ok(items) => Ok(MobileServiceList(items, count, None))
    else
      match parse(Some(result))
      case Err(e) => Err(e)
      case Ok(items) => Ok(MobileServiceList(items, -1, None))
  }

  /** Every paged answer of the JSON table makes `execute()` as written fail. */
  lemma ExecuteAllAsWrittenFailsOnPages<E>(parse: Option<Json> -> Result<seq<E>, Failure>, body: Json, headers: seq<Header>)
    requires HeaderValue(headers, JsonTables.LinkHeader).Some?
    ensures ExecuteAllAsWritten(parse, JsonTables.LinkEnvelope(body, headers)) == Err(RuntimeFailure("NullPointerException", ""))
  {
  }

  /** `execute()` with a missing `count` read as 0, as `processQueryResults` does. */
  function ExecuteAll<E>(parse: Option<Json> -> Result<seq<E>, Failure>, result: Json): (r: Result<MobileServiceList<E>, Failure>)
    ensures !result.JObject? ==> (r.Ok? <==> parse(Some(result)).Ok?)
    ensures !result.JObject? && r.Ok? ==> r.value.totalCount == -1 && r.value.nextLink.None?
    ensures result.JObject? ==>
              var o := result.members;
              && (r.Ok? <==> (CountProperty !in o || GetAsInt(o[CountProperty]).Ok?) && parse(Member(o, ResultsPropertyName)).Ok?)
              && (r.Ok? ==> r.value.items == parse(Member(o, ResultsPropertyName)).value && r.value.nextLink.None?)
              && (r.Ok? && CountProperty !in o ==> r.value.totalCount == 0)
              && (r.Ok? && CountProperty in o ==> Ok(r.value.totalCount) == GetAsInt(o[CountProperty]))
  {
    if result.JObject? then
      var o := result.members;
      var count := if CountProperty in o then GetAsInt(o[CountProperty]) else Ok(0);
      if count.Err? then Err(count.error)
      else
        match parse(Member(o, ResultsPropertyName))
        case Err(e) => Err(e)
        case Ok(items) => Ok(MobileServiceList(items, count.value, None))
    else ExecuteAllAsWritten(parse, result)
  }

  /** The corrected `execute()` differs from the code as written only where that fails on a missing count. */
  lemma ExecuteAllAgrees<E>(parse: Option<Json> -> Result<seq<E>, Failure>, result: Json)
    requires !(result.JObject? && CountProperty !in result.members)
    ensures ExecuteAll(parse, result) == ExecuteAllAsWritten(parse, result)
  {
  }

  /** On a paged answer the corrected `execute()` returns the page's entities with count 0. */
  lemma ExecuteAllReadsPages<E>(parse: Option<Json> -> Result<seq<E>, Failure>, body: Json, headers: seq<Header>)
    requires HeaderValue(headers, JsonTables.LinkHeader).Some?
    requires parse(Some(body)).Ok?
    ensures ExecuteAll(parse, JsonTables.LinkEnvelope(body, headers)) == Ok(MobileServiceList(parse(Some(body)).value, 0, None))
  {
  }

  // ---------------------------------------------------------------------
  // typed exceptions
  // ---------------------------------------------------------------------

  /** `parseResultsForTypedException`: the first entity of the server's copy, or `null` whenever that cannot be had. */
  function ParseEntityForException<E>(parse: Option<Json> -> Result<seq<E>, Failure>, info: ExceptionInfo): (r: Option<E>)
    ensures var parsed := parse(if info.value.Some? then Some(JObject(info.value.value)) else None);
            && (r.Some? <==> parsed.Ok? && |parsed.value| > 0)
            && (r.Some? ==> r.value == parsed.value[0])
  {
    var value := if info.value.Some? then Some(JObject(info.value.value)) else None;
    match parse(value)
    case Err(_) => None
    case Ok(items) => if |items| == 0 then None else Some(items[0])
  }

  /** `transformToTypedException`: precondition and conflict exceptions become typed ones; every other exception is kept. */
  function TransformToTypedException<E>(parse: Option<Json> -> Result<seq<E>, Failure>, f: Failure): (r: TypedFailure<E>)
    ensures f.PreconditionFailedJson? <==> r.PreconditionFailed?
    ensures f.ConflictJson? <==> r.Conflict?
    ensures !(f.PreconditionFailedJson? || f.ConflictJson?) ==> r == Untyped(f)
    ensures (f.PreconditionFailedJson? || f.ConflictJson?) ==> r.info == f.info && r.entity == ParseEntityForException(parse, f.info)
  {
    match f
    case PreconditionFailedJson(info) => PreconditionFailed(info, ParseEntityForException(parse, info))
    case ConflictJson(info) => Conflict(info, ParseEntityForException(parse, info))
    case _ => Untyped(f)
  }

  /** The JSON exception a typed exception was made from. */
  function UntypedOf<E>(t: TypedFailure<E>): Failure {
    match t
    case Untyped(f) => f
    case PreconditionFailed(info, _) => PreconditionFailedJson(info)
    case Conflict(info, _) => ConflictJson(info)
  }

  /** The transform loses nothing of the original exception, whatever the parser does. */
  lemma TransformRoundTrip<E>(parse: Option<Json> -> Result<seq<E>, Failure>, f: Failure)
    ensures UntypedOf(TransformToTypedException(parse, f)) == f
  {
  }

  // ---------------------------------------------------------------------
  // insert
  // ---------------------------------------------------------------------

  /**
    The JSON the typed `insert` hands to the JSON table: system properties
    are removed when the entity's id property has a known type that is not
    an integer type (`idIsInteger` is `None` when the type is unknown).
   */
  function InsertPayload(json: JsonObject, idIsInteger: Option<bool>, removeSystemProperties: JsonObject -> JsonObject): (r: JsonObject)
    ensures idIsInteger == Some(false) ==> r == removeSystemProperties(json)
    ensures idIsInteger != Some(false) ==> r == json
  {
    if idIsInteger.Some? && !idIsInteger.value then removeSystemProperties(json) else json
  }

  /** The JSON table a typed table talks through: same table, with only the `TypedTable` feature. */
  function InternalTable(ctx: JsonTables.TableContext): (c: JsonTables.TableContext)
    ensures c.features == {TypedTable}
    ensures c.name == ctx.name && c.versionProperty == ctx.versionProperty
    ensures c.(features := ctx.features) == ctx
  {
    ctx.(features := {TypedTable})
  }

  /** The entity a typed write answers with: the first one parsed from the returned object. */
  function FirstEntity<E>(parse: Option<Json> -> Result<seq<E>, Failure>, json: JsonObject): (r: Result<E, TypedFailure<E>>)
    ensures r.Ok? <==> parse(Some(JObject(json))).Ok? && |parse(Some(JObject(json))).value| > 0
    ensures r.Ok? ==> r.value == parse(Some(JObject(json))).value[0]
    ensures r.Err? ==> r.error.Untyped?
  {
    match parse(Some(JObject(json)))
    case Err(e) => Err(Untyped(e))
    case Ok(items) =>
      if |items| == 0 then Err(Untyped(RuntimeFailure("IndexOutOfBoundsException", "Index: 0, Size: 0")))
      else Ok(items[0])
  }

  /**
    Typed `insert`: the entity as JSON, stripped as `InsertPayload` says,
    inserted through the internal JSON table; its failures become typed,
    and the answer is the first entity parsed from the inserted object.
   */
  function Insert<E>(t: Transport, codec: JsonCodec, ctx: JsonTables.TableContext, parse: Option<Json> -> Result<seq<E>, Failure>,
                     toJson: E -> Result<JsonObject, Failure>, idIsInteger: Option<bool>,
                     element: E, parameters: Option<seq<Param>>): (r: Result<E, TypedFailure<E>>)
    ensures toJson(element).Err? ==> r == Err(Untyped(toJson(element).error))
    ensures toJson(element).Ok? ==>
              var inserted := InsertedJson(t, codec, ctx, toJson(element).value, idIsInteger, parameters);
              && (inserted.Err? ==> r == Err(TransformToTypedException(parse, inserted.error)))
              && (inserted.Ok? ==> r == FirstEntity(parse, inserted.value))
  {
    match toJson(element)
    case Err(e) => Err(Untyped(e))
    case Ok(json) =>
      match InsertedJson(t, codec, ctx, json, idIsInteger, parameters)
      case Err(e) => Err(TransformToTypedException(parse, e))
      case Ok(inserted) => FirstEntity(parse, inserted)
  }

  /** The JSON table's `insert` of the typed entity's payload. */
  function InsertedJson(t: Transport, codec: JsonCodec, ctx: JsonTables.TableContext, json: JsonObject, idIsInteger: Option<bool>,
                        parameters: Option<seq<Param>>): Result<JsonObject, Failure>
  {
    JsonTables.Insert(t, codec, InternalTable(ctx), InsertPayload(json, idIsInteger, ctx.removeSystemProperties), parameters)
  }

  // ---------------------------------------------------------------------
  // queries
  // ---------------------------------------------------------------------

  /**
    How a typed read's result follows from the transport's answer: a
    readable 2xx answer is shaped by `processQueryResults` from its Link
    envelope; any other status is the wrapped status exception; a typed
    read succeeds only on a readable 2xx answer.
   */
  ghost predicate TypedReadsAs<E>(t: Transport, codec: JsonCodec, parse: Option<Json> -> Result<seq<E>, Failure>,
                            url: string, features: set<Feature>, r: Result<MobileServiceList<E>, Failure>) {
    var e := JsonTables.Fetched(t, url, features);
    && (r.Ok? ==> JsonTables.PageRead(t, codec, url, features))
    && (JsonTables.PageRead(t, codec, url, features) ==>
          r == ProcessQueryResults(parse, JsonTables.LinkEnvelope(codec.parse(e.response.content.value).value, e.response.headers)))
    && (e.Returned? && !Connections.IsSuccessStatus(e.response.status) ==> r == Err(Connections.StatusFailure(e.response)))
  }

  /** Typed `execute(Query)`: the JSON table's answer shaped by `processQueryResults`. */
  function ExecuteQuery<E>(t: Transport, codec: JsonCodec, ctx: JsonTables.TableContext, urlEncode: string -> string,
                           parse: Option<Json> -> Result<seq<E>, Failure>, query: JsonTables.QueryForm): (r: Result<MobileServiceList<E>, Failure>)
    ensures TypedReadsAs(t, codec, parse, JsonTables.QueryUrl(t.http.appUrl, ctx.name, urlEncode, query.filter, query.modifiers),
                         JsonTables.WithParameterFeature({TypedTable}, query.userParameters), r)
  {
    match JsonTables.ExecuteQuery(t, codec, InternalTable(ctx), urlEncode, query)
    case Err(e) => Err(e)
    case Ok(json) => ProcessQueryResults(parse, json)
  }

  /** Typed `execute(String nextLink)`. */
  function ExecuteNextLink<E>(t: Transport, codec: JsonCodec, ctx: JsonTables.TableContext,
                              parse: Option<Json> -> Result<seq<E>, Failure>, nextLink: string): (r: Result<MobileServiceList<E>, Failure>)
    ensures TypedReadsAs(t, codec, parse, nextLink, {TypedTable}, r)
  {
    match JsonTables.ExecuteNextLink(t, codec, InternalTable(ctx), nextLink)
    case Err(e) => Err(e)
    case Ok(json) => ProcessQueryResults(parse, json)
  }

  /**
    Following a next link end to end: when the transport answers 2xx with
    content that parses as `body`, a `Link: <url>; rel=next` header gives
    the page's entities, count 0 and `url` as the next link; without a Link
    header the body itself is shaped by `processQueryResults`.
   */
  lemma ExecuteNextLinkPages<E>(t: Transport, codec: JsonCodec, ctx: JsonTables.TableContext,
                                parse: Option<Json> -> Result<seq<E>, Failure>, nextLink: string,
                                response: Response, body: Json, url: string)
    requires JsonTables.Fetched(t, nextLink, {TypedTable}) == Returned(response)
    requires Connections.IsSuccessStatus(response.status)
    requires response.content.Some? && codec.parse(response.content.value) == Ok(body)
    ensures HeaderValue(response.headers, JsonTables.LinkHeader) == Some(url + JsonTables.NextLinkSuffix) && ';' !in url
              && parse(Some(body)).Ok? ==>
              ExecuteNextLink(t, codec, ctx, parse, nextLink) == Ok(MobileServiceList(parse(Some(body)).value, 0, Some(url)))
    ensures HeaderValue(response.headers, JsonTables.LinkHeader).None? ==>
              ExecuteNextLink(t, codec, ctx, parse, nextLink) == ProcessQueryResults(parse, body)
  {
    if HeaderValue(response.headers, JsonTables.LinkHeader) == Some(url + JsonTables.NextLinkSuffix) && ';' !in url && parse(Some(body)).Ok? {
      ProcessEnvelope(parse, body, response.headers, url);
    }
  }

  /**
    A typed query end to end: the same two cases, for the query's URL and
    its features.
   */
  lemma ExecuteQueryPages<E>(t: Transport, codec: JsonCodec, ctx: JsonTables.TableContext, urlEncode: string -> string,
                             parse: Option<Json> -> Result<seq<E>, Failure>, query: JsonTables.QueryForm,
                             response: Response, body: Json, url: string)
    requires JsonTables.Fetched(t, JsonTables.QueryUrl(t.http.appUrl, ctx.name, urlEncode, query.filter, query.modifiers),
                                JsonTables.WithParameterFeature({TypedTable}, query.userParameters)) == Returned(response)
    requires Connections.IsSuccessStatus(response.status)
    requires response.content.Some? && codec.parse(response.content.value) == Ok(body)
    ensures HeaderValue(response.headers, JsonTables.LinkHeader) == Some(url + JsonTables.NextLinkSuffix) && ';' !in url
              && parse(Some(body)).Ok? ==>
              ExecuteQuery(t, codec, ctx, urlEncode, parse, query) == Ok(MobileServiceList(parse(Some(body)).value, 0, Some(url)))
    ensures HeaderValue(response.headers, JsonTables.LinkHeader).None? ==>
              ExecuteQuery(t, codec, ctx, urlEncode, parse, query) == ProcessQueryResults(parse, body)
  {
    if HeaderValue(response.headers, JsonTables.LinkHeader) == Some(url + JsonTables.NextLinkSuffix) && ';' !in url && parse(Some(body)).Ok? {
      ProcessEnvelope(parse, body, response.headers, url);
    }
  }
}

=== FILE: utf8.dfy ===
/**
  UTF-8, as used by `String.getBytes("UTF-8")` and `new String(bytes, "UTF-8")`.
  Encoding follows RFC 3629, section 3; decoding accepts exactly the
  well-formed sequences of Table 3-7 of the Unicode Standard and replaces
  each maximal ill-formed subpart by U+FFFD.
 */
module Utf8 {

  /** An unsigned octet (Java's signed `byte` read as 0..255). */
  type byte = b: int | 0 <= b < 0x100

  // ---------------------------------------------------------------------
  // encoding
  // ---------------------------------------------------------------------

  /** The one to four bytes that encode a Unicode scalar value. */
  function EncodeChar(c: char): (bs: seq<byte>)
    ensures 1 <= |bs| <= 4
  {
    var n := c as int;
    if n < 0x80 then [n]
    else if n < 0x800 then [0xC0 + n / 0x40, 0x80 + n % 0x40]
    else if n < 0x1_0000 then [0xE0 + n / 0x1000, 0x80 + (n / 0x40) % 0x40, 0x80 + n % 0x40]
    else [0xF0 + n / 0x4_0000, 0x80 + (n / 0x1000) % 0x40, 0x80 + (n / 0x40) % 0x40, 0x80 + n % 0x40]
  }

  /** `String.getBytes("UTF-8")`. */
  function Encode(s: string): seq<byte>
    decreases |s|
  {
    if s == [] then [] else EncodeChar(s[0]) + Encode(s[1..])
  }

  // ---------------------------------------------------------------------
  // decoding
  // ---------------------------------------------------------------------

  const ReplacementChar: char := '�'

  /** Length of the sequence a lead byte announces; 0 when it cannot lead one. */
  function SequenceLength(lead: byte): nat {
    if lead < 0x80 then 1
    else if lead < 0xC2 then 0
    else if lead < 0xE0 then 2
    else if lead < 0xF0 then 3
    else if lead < 0xF5 then 4
    else 0
  }

  /** Whether `b` may stand at position `i` (1 to 3) after the lead byte `lead`. */
  predicate AllowedAt(lead: byte, i: nat, b: byte) {
    if i == 1 && lead == 0xE0 then 0xA0 <= b <= 0xBF
    else if i == 1 && lead == 0xED then 0x80 <= b <= 0x9F
    else if i == 1 && lead == 0xF0 then 0x90 <= b <= 0xBF
    else if i == 1 && lead == 0xF4 then 0x80 <= b <= 0x8F
    else 0x80 <= b <= 0xBF
  }

  /** `bs` starts with one complete well-formed sequence. */
  predicate WellFormedPrefix(bs: seq<byte>) {
    && |bs| >= 1
    && 1 <= SequenceLength(bs[0]) <= |bs|
    && forall i :: 1 <= i < SequenceLength(bs[0]) ==> AllowedAt(bs[0], i, bs[i])
  }

  /**
    How far, from position `i` on, the bytes after the lead keep to a
    well-formed sequence of length `n`: the length of the maximal subpart.
   */
  function MatchedLength(bs: seq<byte>, n: nat, i: nat): (k: nat)
    requires 1 <= i <= n && i <= |bs|
    ensures i <= k <= n && k <= |bs|
    ensures forall j :: i <= j < k ==> AllowedAt(bs[0], j, bs[j])
    ensures k < n ==> k == |bs| || !AllowedAt(bs[0], k, bs[k])
    decreases n - i
  {
    if i == n || i == |bs| || !AllowedAt(bs[0], i, bs[i]) then i else MatchedLength(bs, n, i + 1)
  }

  /** The scalar value a well-formed sequence stands for. */
  function DecodeScalar(bs: seq<byte>): char
    requires WellFormedPrefix(bs)
  {
    var n := SequenceLength(bs[0]);
    var b0: int := bs[0];
    var v: int :=
      if n == 1 then b0
      else if n == 2 then (b0 - 0xC0) * 0x40 + (bs[1] as int - 0x80)
      else if n == 3 then (b0 - 0xE0) * 0x1000 + (bs[1] as int - 0x80) * 0x40 + (bs[2] as int - 0x80)
      else (b0 - 0xF0) * 0x4_0000 + (bs[1] as int - 0x80) * 0x1000 + (bs[2] as int - 0x80) * 0x40 + (bs[3] as int - 0x80);
    assert n == 3 ==> (0x800 <= v < 0xD800 || 0xE000 <= v < 0x1_0000) by {
      if n == 3 {
        assert AllowedAt(bs[0], 1, bs[1]) && AllowedAt(bs[0], 2, bs[2]);
      }
    }
    assert n == 4 ==> 0x1_0000 <= v < 0x11_0000 by {
      if n == 4 {
        assert AllowedAt(bs[0], 1, bs[1]) && AllowedAt(bs[0], 2, bs[2]) && AllowedAt(bs[0], 3, bs[3]);
      }
    }
    v as char
  }

  /** `new String(bytes, "UTF-8")`. */
  function Decode(bs: seq<byte>): string
    decreases |bs|
  {
    if bs == [] then []
    else
      var n := SequenceLength(bs[0]);
      if n == 0 then [ReplacementChar] + Decode(bs[1..])
      else
        var k := MatchedLength(bs, n, 1);
        if k == n then [DecodeScalar(bs[..n])] + Decode(bs[n..])
        else [ReplacementChar] + Decode(bs[k..])
  }

  // ---------------------------------------------------------------------
  // round trip
  // ---------------------------------------------------------------------

  /** Splitting a value into its six-bit groups and adding them back gives the value. */
  lemma SixBitGroups(n: int)
    requires 0 <= n
    ensures n == (n / 0x40) * 0x40 + n % 0x40
    ensures n / 0x1000 == (n / 0x40) / 0x40
    ensures n / 0x4_0000 == (n / 0x1000) / 0x40
  {
  }

  lemma EncodeTwoBytes(c: char)
    requires 0x80 <= c as int < 0x800
    ensures WellFormedPrefix(EncodeChar(c)) && SequenceLength(EncodeChar(c)[0]) == 2
    ensures DecodeScalar(EncodeChar(c)) == c
  {
    SixBitGroups(c as int);
  }

  lemma EncodeThreeBytes(c: char)
    requires 0x800 <= c as int < 0x1_0000
    ensures WellFormedPrefix(EncodeChar(c)) && SequenceLength(EncodeChar(c)[0]) == 3
    ensures DecodeScalar(EncodeChar(c)) == c
  {
    var n := c as int;
    var m := n / 0x40;
    SixBitGroups(n);
    SixBitGroups(m);
    var e := EncodeChar(c);
    assert e[0] == 0xE0 + m / 0x40 && e[1] == 0x80 + m % 0x40 && e[2] == 0x80 + n % 0x40;
    assert AllowedAt(e[0], 1, e[1]);
    assert AllowedAt(e[0], 2, e[2]);
  }

  lemma EncodeFourBytes(c: char)
    requires 0x1_0000 <= c as int
    ensures WellFormedPrefix(EncodeChar(c)) && SequenceLength(EncodeChar(c)[0]) == 4
    ensures DecodeScalar(EncodeChar(c)) == c
  {
    var n := c as int;
    var m := n / 0x40;
    var h := m / 0x40;
    SixBitGroups(n);
    SixBitGroups(m);
    SixBitGroups(h);
    var e := EncodeChar(c);
    assert e[0] == 0xF0 + h / 0x40 && e[1] == 0x80 + h % 0x40;
    assert e[2] == 0x80 + m % 0x40 && e[3] == 0x80 + n % 0x40;
    assert AllowedAt(e[0], 1, e[1]);
    assert AllowedAt(e[0], 2, e[2]);
    assert AllowedAt(e[0], 3, e[3]);
  }

  /** The bytes of one encoded character form one well-formed sequence for it. */
  lemma EncodeCharWellFormed(c: char)
    ensures WellFormedPrefix(EncodeChar(c))
    ensures SequenceLength(EncodeChar(c)[0]) == |EncodeChar(c)|
    ensures DecodeScalar(EncodeChar(c)) == c
  {
    var n := c as int;
    if n < 0x80 {
    } else if n < 0x800 {
      EncodeTwoBytes(c);
    } else if n < 0x1_0000 {
      EncodeThreeBytes(c);
    } else {
      EncodeFourBytes(c);
    }
  }

  /** A well-formed sequence is matched to its full length. */
  lemma {:induction false} MatchedLengthFull(bs: seq<byte>, n: nat, i: nat)
    requires 1 <= i <= n <= |bs|
    requires forall j :: i <= j < n ==> AllowedAt(bs[0], j, bs[j])
    ensures MatchedLength(bs, n, i) == n
    decreases n - i
  {
    if i < n {
      MatchedLengthFull(bs, n, i + 1);
    }
  }

  /** Decoding an encoded character followed by anything yields that character first. */
  lemma DecodeEncodedChar(c: char, rest: seq<byte>)
    ensures Decode(EncodeChar(c) + rest) == [c] + Decode(rest)
  {
    var e := EncodeChar(c);
    var bs := e + rest;
    var n := |e|;
    EncodeCharWellFormed(c);
    assert bs[0] == e[0];
    assert bs[..n] == e;
    assert bs[n..] == rest;
    assert forall j :: 1 <= j < n ==> bs[j] == e[j];
    MatchedLengthFull(bs, n, 1);
  }

  /** Decoding the UTF-8 encoding of a string gives the string back. */
  lemma {:induction false} DecodeEncode(s: string)
    ensures Decode(Encode(s)) == s
    decreases |s|
  {
    if s != [] {
      DecodeEncodedChar(s[0], Encode(s[1..]));
      DecodeEncode(s[1..]);
    }
  }
}
